=== FILE: README.md ===
# DocumentAssistantAgent core in Dafny

This project models the deterministic core of DocumentAssistantAgent, a document-assistant agent. The agent scans folders of personal documents. It extracts their text through a priority-ordered registry of extractors and asks a language model to classify each file. The resulting `DocumentInfo` records go into a repository, either an in-memory list with a JSON index or a LiteDB collection. Later, given an owner and a purpose such as "renew passport", it works out which documents the purpose calls for, finds the most recent match for each, and packs them into a zip archive.

What is modelled:

- **Datatypes.** `DocumentInfo`, `DocumentCategory`, `DocumentType`, `DocumentRequirement` and the model's answer `DocumentClassification` are in module `Models`. The base-class extractors are in `Extraction`.
- **Extractor registry.** `DocumentContentExtractor` is in module `Registry`:
  - The table is built by a stable descending-priority order in which the first claim wins.
  - The fallback is the first registered text extractor.
  - Dispatch is the chain: argument checks, mapped extractor, fallback, then the file name without extension.
- **Repositories.** `MemoryDocumentRepository` is a sequence (`MemoryRepository`). `LiteDbDocumentRepository` is a map keyed by full path, compared ignoring case as LiteDB's default collation compares `_id` strings (`LiteDbRepository`). The module `Repository` relates the two: as long as no two paths differ only in letter case, after the same upserts they store the same records, and each query of one is stated in terms of the other.
- **File classes and requirements.** `FileUtils` is modelled in `FileUtils`, and `StaticRequirementService` in `Requirements`.
- **Classification.** The record-building and fallback policy of `AIDocumentClassificationService` is in module `Classification`. The language model is a function parameter.
- **Archive.** `ZipUtils` is in module `Zip`. It covers the collision-free naming loop and the selection of archive entries.
- **Plugin.** `DocumentAssistantPlugin` is in module `Plugin`. It covers the requirement-matching loop of `GetDocumentsForPurposeAsync` and the counting loop of `ScanFolderAsync`.

Conventions:

- **Files.** The file system is a value: files with an optional readable text and a last-write time, plus a set of directories.
- **Exceptions.** An exception is a `Failure` of a `Result`.
- **Paths.** Paths follow the Unix rules of `System.IO.Path`: `/` is the only separator, and the extension runs from the last `.` of the final segment, provided that dot is not its last character.
- **Case folding.** Every culture-sensitive comparison (`CurrentCultureIgnoreCase`, LiteDB's default collation) and every `ToLower` is an ordinal comparison after ASCII folding (`Strings.Lower`).
- **Time.** Time is whole seconds since 0001-01-01, and the clock is a parameter `now`. A `DateTime` lies between `DateTime.MinValue` and `DateTime.MaxValue` (9999-12-31T23:59:59); `DateTime.AddDays` throws when the result falls outside.
- **White space.** `Strings.IsWhiteSpace` is `Char.IsWhiteSpace`: the Unicode space, line and paragraph separators, U+0009 to U+000D and U+0085.
- **Tie-breaking.** The LINQ sorts are stable.
- **Registration order.** `ServiceCollectionExtensions` registers the text extractor, then the PDF extractor. The lemmas about "the application's registry" take that list.

Behaviour of the code worth noting:

- **Dispatch errors.** Dispatch throws when the path is blank or the file is missing (`Registry.Proceed`).
- **Owner scoping.** The in-memory repository ignores `owner` in every query. LiteDB's by-type query ignores it too (Finding 3).
- **Save failures.** A failed save of the in-memory index is logged and swallowed, not surfaced. A failure after the file was truncated leaves an index that loads as empty.
- **Case variants.** LiteDB stores paths that differ only in letter case under one key; the in-memory list keeps them apart (`Repository.CaseVariantsDiverge`).
- **Expiry order.** Records expiring at the same moment keep their stored order rather than being strictly ordered.
- **Narrowing.** The narrowing in the matching loop is inverted (Finding 1). For example, a requirement with a category filter but no type filter is always reported missing.
- **Archive names.** Archive entries keep their raw file names (Finding 2).
- **Unreadable files.** One existing file that cannot be read makes the archive step throw after the old archive was deleted, so the purpose query throws and leaves no archive.

## Model

| member | source | states |
|---|---|---|
| Models.EnumerationsComplete | src/DocumentAssistantAgent.Core/Models/Enums.cs:6-32 | there are exactly six categories and eleven types, all distinct, in declaration order, and both enumerations end with `Other` |
| Models.NamesNotBlank | src/DocumentAssistantAgent.Core/Models/Enums.cs:8-31 | no member name is empty or blank, so no member name equals a null or blank filter |
| Models.ParseCategory | src/DocumentAssistantAgent.Infrastructure/Services/AIDocumentClassificationService.cs:75 | the member names parse to their members and no other string parses; the further forms `Enum.Parse` accepts are under Left out |
| Models.ParseType | src/DocumentAssistantAgent.Infrastructure/Services/AIDocumentClassificationService.cs:76 | the same for document types, with the same forms left out |
| Models.DefaultDocumentInfo | src/DocumentAssistantAgent.Core/Models/DocumentInfo.cs:9-25 | a fresh record has empty owner, file name and path, the first members of both enumerations, no expiry, no summary, no keywords, and `DateTime.MinValue` |
| Models.AddDaysChecked | src/DocumentAssistantAgent.Infrastructure/Repositories/MemoryDocumentRepository.cs:76 | `DateTime.Now.AddDays(daysAhead)` gives the instant `daysAhead` whole days later exactly when that is a `DateTime`, and throws `ArgumentOutOfRangeException` otherwise |
| Models.AddDaysRoundTrip | src/DocumentAssistantAgent.Infrastructure/Repositories/MemoryDocumentRepository.cs:76 | shifting a `DateTime` by zero days keeps it, and shifting back by the same number of days undoes a successful shift |
| Models.AddDaysOutOfRange | src/DocumentAssistantAgent.Infrastructure/Repositories/LiteDbDocumentRepository.cs:47 | from any `DateTime`, a shift by more days than the whole range holds (such as `int.MaxValue`) throws |
| Models.RequirementDefaults | src/DocumentAssistantAgent.Core/Models/DocumentRequirement.cs:10-16 | a requirement built from a search term and description alone has no category and no type filter, and equals the one built with both filters null |
| Extraction.BuiltInDeclarations | src/DocumentAssistantAgent.Infrastructure/Extractors/PdfExtractionService.cs:13-15 | the text extractor declares `.txt .md .rtf` at the inherited priority 0, the PDF extractor declares `.pdf` at priority 1, strictly higher |
| Extraction.ExtractText | src/DocumentAssistantAgent.Infrastructure/Extractors/TextExtractionService.cs:26-42 | the text extractor fails with file-not-found for a missing file, with invalid-operation for an unreadable one, and otherwise returns the file's whole text; the PDF extractor returns empty text exactly for existing files |
| Extraction.CanExtractCaseInsensitive | src/DocumentAssistantAgent.Core/Services/DocumentContentExtractionBase.cs:36-40 | two paths equal up to letter case are accepted alike |
| Extraction.UpperCaseDeclarationNeverMatches | src/DocumentAssistantAgent.Core/Services/DocumentContentExtractionBase.cs:15-39 | a declared extension with an upper-case letter is never equal to a path's folded extension |
| Extraction.UpperCaseOnlyExtractorAcceptsNothing | src/DocumentAssistantAgent.Core/Services/DocumentContentExtractionBase.cs:36-40 | an extractor whose only declaration has an upper-case letter accepts no path at all |
| Registry.PriorityOrder | src/DocumentAssistantAgent.Infrastructure/Extractors/DocumentContentExtractor.cs:24 | the order visits every registered extractor once, by descending priority, earlier registration first among equals |
| Registry.ClaimExtensions | src/DocumentAssistantAgent.Infrastructure/Extractors/DocumentContentExtractor.cs:26-41 | the inner loop adds exactly the folded declarations not yet claimed, for this extractor, and keeps every existing claim |
| Registry.ClaimAll | src/DocumentAssistantAgent.Infrastructure/Extractors/DocumentContentExtractor.cs:24-43 | the outer loop's table holds what some visited extractor claims, each key going to its first claimant in visiting order |
| Registry.FirstClaimantWins | src/DocumentAssistantAgent.Infrastructure/Extractors/DocumentContentExtractor.cs:24-33 | in the priority order, the first claimant of an extension has maximal priority among its claimants and is the earliest registered among those |
| Registry.WinnerUnique | src/DocumentAssistantAgent.Infrastructure/Extractors/DocumentContentExtractor.cs:31-33 | at most one extractor wins an extension |
| Registry.Build | src/DocumentAssistantAgent.Infrastructure/Extractors/DocumentContentExtractor.cs:15-50 | the table's keys are exactly the folded extensions some extractor declares, each mapped to its winner (maximal priority, earliest registration), and the fallback is the first registered text extractor |
| Registry.FirstTextExtractor | src/DocumentAssistantAgent.Infrastructure/Extractors/DocumentContentExtractor.cs:46 | the fallback is absent exactly when no text extractor is registered, otherwise it is the first one, whatever extensions it declares |
| Registry.Chain | src/DocumentAssistantAgent.Infrastructure/Extractors/DocumentContentExtractor.cs:66-104 | the mapped extractor's text wins; when it is absent or throws, the fallback's text wins; when both fail, the file name without extension is returned |
| Registry.Proceed | src/DocumentAssistantAgent.Infrastructure/Extractors/DocumentContentExtractor.cs:54-105 | a blank path fails with an argument error, a missing file with file-not-found, and dispatch succeeds exactly for a non-blank path to an existing file |
| Registry.NoBreakSpacePathRejected | src/DocumentAssistantAgent.Infrastructure/Extractors/DocumentContentExtractor.cs:56-58 | a path made of Unicode white space (no-break and ideographic spaces) is rejected with `ArgumentException`, even when such a file exists |
| Registry.ProceedChain | src/DocumentAssistantAgent.Infrastructure/Extractors/DocumentContentExtractor.cs:66-104 | for an existing file, the result is the mapped extractor's text, else the fallback's, else the file name without extension |
| Registry.AllClaims | src/DocumentAssistantAgent.Infrastructure/Extractors/DocumentContentExtractor.cs:110-113 | the union of the folded declarations holds exactly the declared extensions |
| Registry.SupportedExtensionsAreDeclared | src/DocumentAssistantAgent.Infrastructure/Extractors/DocumentContentExtractor.cs:110-113 | `GetSupportedExtensions` returns exactly the folded extensions some registered extractor declares |
| Registry.IsSupportedSpec | src/DocumentAssistantAgent.Infrastructure/Extractors/DocumentContentExtractor.cs:118-123 | a path is supported exactly when some registered extractor declares its folded extension |
| Registry.CanExtractImpliesSupported | src/DocumentAssistantAgent.Infrastructure/Extractors/DocumentContentExtractor.cs:118-123 | whatever a registered extractor's `CanExtract` accepts, the registry supports |
| Registry.SoleClaimantWins | src/DocumentAssistantAgent.Infrastructure/Extractors/DocumentContentExtractor.cs:31-33 | an extension only one extractor claims is mapped to that extractor whatever the priorities |
| Registry.TwoExtractorKeys | src/DocumentAssistantAgent.Infrastructure/Extractors/DocumentContentExtractor.cs:24-43 | with two extractors the keys are the union of their claims |
| Registry.DisjointClaimsTable | src/DocumentAssistantAgent.Infrastructure/Extractors/DocumentContentExtractor.cs:24-43 | with two extractors whose claims are disjoint, each extension goes to the extractor that claims it |
| Registry.RegisteredClaims | src/DocumentAssistantAgent.Client/Extensions/ServiceCollectionExtensions.cs:91-92 | in the registration order text, then PDF, the claims are `.txt .md .rtf` and `.pdf` and the fallback is the text extractor |
| Registry.TextAndPdfKeys | src/DocumentAssistantAgent.Infrastructure/Extractors/DocumentContentExtractor.cs:24-43 | the application's table has no key beyond `.txt .md .rtf .pdf` |
| Registry.TextFormatsToFirst | src/DocumentAssistantAgent.Infrastructure/Extractors/DocumentContentExtractor.cs:24-43 | the application's table sends the text formats to the text extractor |
| Registry.PdfToSecond | src/DocumentAssistantAgent.Infrastructure/Extractors/DocumentContentExtractor.cs:24-43 | the application's table sends `.pdf` to the PDF extractor |
| Registry.MappedPdfYieldsEmpty | src/DocumentAssistantAgent.Infrastructure/Extractors/PdfExtractionService.cs:27-39 | an existing file mapped to the placeholder PDF extractor yields empty text and never reaches the fallback |
| Registry.UnreadableTextYieldsName | src/DocumentAssistantAgent.Infrastructure/Extractors/DocumentContentExtractor.cs:77-104 | an unreadable file handled only by text extractors yields its name without extension, even when the fallback is the extractor that just failed |
| Registry.UnmappedReadByFallback | src/DocumentAssistantAgent.Infrastructure/Extractors/DocumentContentExtractor.cs:83-94 | a readable file whose extension is unmapped is read by the text fallback |
| Registry.PdfDispatchYieldsEmpty | src/DocumentAssistantAgent.Infrastructure/Extractors/PdfExtractionService.cs:36-38 | in the application's registry an existing `.pdf` (any letter case) yields `""` |
| Registry.UnreadableTextFileYieldsName | src/DocumentAssistantAgent.Infrastructure/Extractors/DocumentContentExtractor.cs:90-104 | in the application's registry an unreadable text-format file yields its name without extension |
| Registry.UnmappedFileReadByFallback | src/DocumentAssistantAgent.Infrastructure/Extractors/DocumentContentExtractor.cs:83-94 | in the application's registry a readable file of any other extension yields its whole text |
| Registry.FoldedDeclarationIsKey | src/DocumentAssistantAgent.Infrastructure/Extractors/DocumentContentExtractor.cs:28-33 | every declaration, folded, is a key of the table |
| Registry.RegistryFoldsDeclarationsCanExtractDoesNot | src/DocumentAssistantAgent.Core/Services/DocumentContentExtractionBase.cs:36-40 | for an upper-case declaration, the registry supports the path while the declaring extractor's `CanExtract` rejects it |
| FileUtils.ExtensionListsPartition | src/DocumentAssistantAgent.Infrastructure/Utils/FileUtils.cs:5-27 | the document list has 12 entries and is exactly the `.pdf .doc .docx` formats, the text formats and the image formats; no extension is both text and image |
| FileUtils.ClassesNest | src/DocumentAssistantAgent.Infrastructure/Utils/FileUtils.cs:11-27 | image files and text files are document files, and no path is both an image and a text file |
| FileUtils.NoExtensionNoClass | src/DocumentAssistantAgent.Infrastructure/Utils/FileUtils.cs:13-25 | a path without extension is in none of the three classes |
| FileUtils.ClassesIgnoreCase | src/DocumentAssistantAgent.Infrastructure/Utils/FileUtils.cs:13-25 | folding the path changes none of the three classes |
| FileUtils.TextFilesAreTextExtractable | src/DocumentAssistantAgent.Infrastructure/Utils/FileUtils.cs:23-27 | `IsTextFile` accepts exactly what the text extractor's `CanExtract` accepts |
| Queries.MatchesFoldedQuery | src/DocumentAssistantAgent.Infrastructure/Repositories/MemoryDocumentRepository.cs:86-91 | folding the query first does not change what it matches, since matching ignores case |
| MemoryRepository.FirstIndexOfPath | src/DocumentAssistantAgent.Infrastructure/Repositories/MemoryDocumentRepository.cs:37 | `FirstOrDefault` by path: absent exactly when no record has the path, otherwise the first position holding it |
| MemoryRepository.Upsert | src/DocumentAssistantAgent.Infrastructure/Repositories/MemoryDocumentRepository.cs:32-49 | the new record is last, and the length grows by one exactly when no record had its path |
| MemoryRepository.UpsertKeepsOthers | src/DocumentAssistantAgent.Infrastructure/Repositories/MemoryDocumentRepository.cs:37-43 | records under other paths keep their contents and their order |
| MemoryRepository.UpsertReplacesFirst | src/DocumentAssistantAgent.Infrastructure/Repositories/MemoryDocumentRepository.cs:37-43 | of the records under the new record's path, only the first is removed and the new one follows the rest |
| MemoryRepository.UpsertPositions | src/DocumentAssistantAgent.Infrastructure/Repositories/MemoryDocumentRepository.cs:37-43 | every record other than the replaced one keeps its place, moving up by one after the removed position |
| MemoryRepository.UpsertElements | src/DocumentAssistantAgent.Infrastructure/Repositories/MemoryDocumentRepository.cs:32-49 | the result holds the new record and nothing new besides, and membership of any record under another path is unchanged |
| MemoryRepository.UpsertPreservesUniquePaths | src/DocumentAssistantAgent.Infrastructure/Repositories/MemoryDocumentRepository.cs:37-43 | distinct full paths stay distinct |
| MemoryRepository.LookupUnique | src/DocumentAssistantAgent.Infrastructure/Repositories/MemoryDocumentRepository.cs:37 | with distinct paths, looking a stored record's path up finds that record |
| MemoryRepository.UpsertLookup | src/DocumentAssistantAgent.Infrastructure/Repositories/MemoryDocumentRepository.cs:32-49 | with distinct paths, reading the upserted path gives the new record and every other path reads as before |
| MemoryRepository.UpsertTwice | src/DocumentAssistantAgent.Infrastructure/Repositories/MemoryDocumentRepository.cs:37-43 | with distinct paths, upserting the same path twice equals upserting only the second record |
| MemoryRepository.ByFieldSpec | src/DocumentAssistantAgent.Infrastructure/Repositories/MemoryDocumentRepository.cs:64-72 | the by-category and by-type queries keep exactly the records with that field, as a subsequence in stored order |
| MemoryRepository.Expiring | src/DocumentAssistantAgent.Infrastructure/Repositories/MemoryDocumentRepository.cs:74-82 | the query throws `ArgumentOutOfRangeException` exactly when `now + daysAhead` days is not a `DateTime`; otherwise the result is sorted by expiry and is a permutation of the records expiring by that cutoff |
| MemoryRepository.ExpiringSpec | src/DocumentAssistantAgent.Infrastructure/Repositories/MemoryDocumentRepository.cs:76-81 | when the cutoff is a `DateTime`, a record is in the result exactly when it is stored and expires by the cutoff, and records with the same expiry keep stored order |
| MemoryRepository.SearchSpec | src/DocumentAssistantAgent.Infrastructure/Repositories/MemoryDocumentRepository.cs:84-93 | a record is found exactly when the query occurs, ignoring case, in its file name, its summary or a keyword; the result is a subsequence in stored order |
| MemoryRepository.SearchEmptyQuery | src/DocumentAssistantAgent.Infrastructure/Repositories/MemoryDocumentRepository.cs:84-93 | the empty query finds every record in stored order |
| MemoryRepository.QueriesIgnoreOwner | src/DocumentAssistantAgent.Infrastructure/Repositories/MemoryDocumentRepository.cs:51-93 | every query answers the same for any two owners, and `GetAllDocumentsAsync` returns every stored record |
| MemoryRepository.LoadIndex | src/DocumentAssistantAgent.Infrastructure/Repositories/MemoryDocumentRepository.cs:115-145 | the index loads as the stored list exactly when it exists, reads and deserialises to a list; otherwise as empty |
| MemoryRepository.WriteIndex | src/DocumentAssistantAgent.Infrastructure/Repositories/MemoryDocumentRepository.cs:101 | a write of the index loads back as the written list; one that fails on opening leaves the file alone; one that fails after `FileMode.Create` truncated it leaves a file that loads as empty |
| MemoryRepository.Open | src/DocumentAssistantAgent.Infrastructure/Repositories/MemoryDocumentRepository.cs:21-28 | opening loads the index; a missing index file is created empty when the write works, and the list always starts as what the index then loads |
| MemoryRepository.SaveChanges | src/DocumentAssistantAgent.Infrastructure/Repositories/MemoryDocumentRepository.cs:95-111 | the records in memory are unchanged; a write that fails on opening leaves everything as it was, and one that fails after truncating leaves an index that loads as empty |
| MemoryRepository.SaveThenOpen | src/DocumentAssistantAgent.Infrastructure/Repositories/MemoryDocumentRepository.cs:95-145 | a successful save followed by opening gives back the saved records |
| MemoryRepository.FailedSaveThenOpen | src/DocumentAssistantAgent.Infrastructure/Repositories/MemoryDocumentRepository.cs:95-145 | a save that fails after truncating makes the next start load no records, though the running repository keeps them; one that fails on opening keeps what the index held |
| LiteDbRepository.Upsert | src/DocumentAssistantAgent.Infrastructure/Repositories/LiteDbDocumentRepository.cs:74-77 | the record is stored under its full path compared ignoring case, replacing a case variant, and every other key is unchanged |
| LiteDbRepository.CaseVariantsCollide | src/DocumentAssistantAgent.Infrastructure/Repositories/LiteDbDocumentRepository.cs:76 | upserting "/d/ID.pdf" and then "/d/id.pdf" leaves only the second record |
| LiteDbRepository.OwnerMatchesEquivalence | src/DocumentAssistantAgent.Infrastructure/Repositories/LiteDbDocumentRepository.cs:25 | case-insensitive owner equality is reflexive, symmetric and transitive, and ignores folding |
| LiteDbRepository.Find | src/DocumentAssistantAgent.Infrastructure/Repositories/LiteDbDocumentRepository.cs:25-71 | `Find` returns exactly the stored records the predicate accepts |
| LiteDbRepository.OwnerScopedQueries | src/DocumentAssistantAgent.Infrastructure/Repositories/LiteDbDocumentRepository.cs:23-36 | all, by-category and search answer only the asking owner's records, with the category where one is asked for |
| LiteDbRepository.SearchSpec | src/DocumentAssistantAgent.Infrastructure/Repositories/LiteDbDocumentRepository.cs:62-72 | a record is found exactly when it is stored, its owner matches and the query occurs ignoring case in its name, summary or a keyword, as the `Find` lambda reads in C# (LIKE wildcards are under Left out) |
| LiteDbRepository.Expiring | src/DocumentAssistantAgent.Infrastructure/Repositories/LiteDbDocumentRepository.cs:45-54 | the query throws `ArgumentOutOfRangeException` exactly when the cutoff is not a `DateTime`; otherwise the result is sorted by expiry, without repetitions, and holds exactly the owner's stored records expiring by the cutoff |
| LiteDbRepository.DistinctPermutation | src/DocumentAssistantAgent.Infrastructure/Repositories/LiteDbDocumentRepository.cs:52 | sorting a list without repetitions gives a list without repetitions |
| Repository.AsCollection | src/DocumentAssistantAgent.Core/Repositories/IDocumentRepository.cs:8-23 | the collection a case-distinct list corresponds to has one key per stored path and nothing else, each record under its own path's key |
| Repository.AsCollectionAt | src/DocumentAssistantAgent.Core/Repositories/IDocumentRepository.cs:8-23 | each stored path's key holds what a reader of the list finds for that path |
| Repository.AsCollectionValues | src/DocumentAssistantAgent.Core/Repositories/IDocumentRepository.cs:8-23 | with distinct paths, none a case variant of another, that collection holds exactly the list's records |
| Repository.UpsertAgrees | src/DocumentAssistantAgent.Core/Repositories/IDocumentRepository.cs:10 | upserting a record whose path has no case variant in the list keeps the list case-distinct and corresponds to upserting into the collection |
| Repository.CaseVariantsDiverge | src/DocumentAssistantAgent.Core/Repositories/IDocumentRepository.cs:10 | with case-variant paths the two implementations differ: the list keeps both records, the collection only the second |
| Repository.FieldQueriesAgree | src/DocumentAssistantAgent.Core/Repositories/IDocumentRepository.cs:12-16 | LiteDB's all and by-category queries answer the list's answer restricted to the owner; its by-type query answers exactly the list's answer |
| Repository.ByTypeOwnedAgrees | src/DocumentAssistantAgent.Infrastructure/Repositories/LiteDbDocumentRepository.cs:38-43 | with the owner check restored, the LiteDB by-type query is the memory answer restricted to the asking owner, like every other LiteDB query |
| Repository.SearchAgrees | src/DocumentAssistantAgent.Core/Repositories/IDocumentRepository.cs:20 | LiteDB's search, read as the C# lambda, answers the list's search restricted to the owner (LIKE wildcards are under Left out) |
| Repository.SaveChanges | src/DocumentAssistantAgent.Core/Repositories/IDocumentRepository.cs:22 | saving never changes the records, for either implementation |
| Repository.UpsertRecords | src/DocumentAssistantAgent.Core/Repositories/IDocumentRepository.cs:10 | after an upsert either implementation holds the new record, nothing else new, and every record under a path that differs ignoring case as before; the list also keeps the case variants |
| Requirements.DefaultRequirements | src/DocumentAssistantAgent.Infrastructure/Services/StaticRequirementService.cs:32-59 | the switch yields 0 or 3 requirements, each with a category, and nothing exactly when no keyword occurs |
| Requirements.RequiredDocuments | src/DocumentAssistantAgent.Infrastructure/Services/StaticRequirementService.cs:23-59 | a custom entry for the purpose wins, otherwise the switch decides |
| Requirements.StaticServiceUsesSwitch | src/DocumentAssistantAgent.Infrastructure/Services/StaticRequirementService.cs:11-29 | the table is never filled, so the switch always decides and the owner makes no difference |
| Requirements.RenewPassportRedundant | src/DocumentAssistantAgent.Infrastructure/Services/StaticRequirementService.cs:34 | the first case fires exactly when "passport" occurs |
| Requirements.ListsDistinct | src/DocumentAssistantAgent.Infrastructure/Services/StaticRequirementService.cs:34-57 | the four lists differ pairwise |
| Requirements.PassportListIffMentioned | src/DocumentAssistantAgent.Infrastructure/Services/StaticRequirementService.cs:34-39 | a purpose gets the passport list exactly when it contains "passport" |
| Requirements.VisaPassportGetsPassportList | src/DocumentAssistantAgent.Infrastructure/Services/StaticRequirementService.cs:34-57 | "visa passport" mentions a visa but the earlier passport case wins |
| Requirements.UpperCasePurposeMatchesNothing | src/DocumentAssistantAgent.Infrastructure/Services/StaticRequirementService.cs:34-58 | the keyword tests are case-sensitive: a purpose without lower-case letters gets nothing |
| Requirements.FiltersAreMemberNames | src/DocumentAssistantAgent.Infrastructure/Services/StaticRequirementService.cs:36-56 | every category and type filter the switch sets parses back to a member |
| Classification.Preview | src/DocumentAssistantAgent.Infrastructure/Services/AIDocumentClassificationService.cs:65 | the preview is the prefix of the content whose length is the smaller of the content's length and 500 |
| Classification.PreviewSpec | src/DocumentAssistantAgent.Infrastructure/Services/AIDocumentClassificationService.cs:65 | short text is shown whole, text beyond 500 characters is never shown, and previewing is idempotent |
| Classification.MapToDocumentInfo | src/DocumentAssistantAgent.Infrastructure/Services/AIDocumentClassificationService.cs:68-82 | the record exists exactly when both names parse, and then copies owner, expiry, summary and keywords, carries the parsed members, and takes name, path and write time from the file |
| Classification.FallbackDocumentInfo | src/DocumentAssistantAgent.Infrastructure/Services/AIDocumentClassificationService.cs:84-94 | the fallback is `Other`/`Other` with the file's name, path and write time and defaults elsewhere |
| Classification.ClassifyDocument | src/DocumentAssistantAgent.Infrastructure/Services/AIDocumentClassificationService.cs:35-59 | exactly the paths `new FileInfo` rejects fail, the empty one and those containing U+0000, with an argument error; every result carries the file's name, path and write time, and a missing file gives the fallback |
| Classification.NulPathRejected | src/DocumentAssistantAgent.Infrastructure/Services/AIDocumentClassificationService.cs:38 | a path with U+0000 inside fails instead of getting a fallback record, while the same path without it succeeds |
| Classification.MissingFileIsOldest | src/DocumentAssistantAgent.Infrastructure/Services/AIDocumentClassificationService.cs:84-94 | classifying a missing file gives a fallback record dated 1601-01-01, no later than any write time from then on |
| Classification.ClassifyUsesAnswer | src/DocumentAssistantAgent.Infrastructure/Services/AIDocumentClassificationService.cs:40-51 | when extraction succeeds and the answer parses, the record carries the answer's fields |
| Classification.ClassifyFallsBack | src/DocumentAssistantAgent.Infrastructure/Services/AIDocumentClassificationService.cs:40-58 | a failed extraction, a missing answer, or an unknown category or type name gives the fallback record |
| Classification.AnswerSeesOnlyPreview | src/DocumentAssistantAgent.Infrastructure/Services/AIDocumentClassificationService.cs:63-66 | text beyond the first 500 characters cannot change the record |
| Classification.SameIdentityOnBothPaths | src/DocumentAssistantAgent.Infrastructure/Services/AIDocumentClassificationService.cs:68-94 | the success and the fallback record agree on name, path and write time |
| Zip.CandidatesDistinct | src/DocumentAssistantAgent.Infrastructure/Utils/ZipUtils.cs:56 | different counters give different candidate names |
| Zip.FileNameIsNoCandidate | src/DocumentAssistantAgent.Infrastructure/Utils/ZipUtils.cs:49-56 | no candidate name equals the original name |
| Zip.RenamingsBound | src/DocumentAssistantAgent.Infrastructure/Utils/ZipUtils.cs:54-58 | the loop renames at most once per existing name, less one |
| Zip.GetSafeEntryName | src/DocumentAssistantAgent.Infrastructure/Utils/ZipUtils.cs:47-61 | the name is never among the existing ones; an unused name is kept; otherwise it is `base_k.ext` for the least unused `k`, with `k` at most the number of existing names |
| Zip.WriteArchive | src/DocumentAssistantAgent.Infrastructure/Utils/ZipUtils.cs:36 | the archive file exists afterwards with the current time, and no other file appears or disappears |
| Zip.CreateZipAsWritten | src/DocumentAssistantAgent.Infrastructure/Utils/ZipUtils.cs:14-39 | a pre-existing archive is deleted first; if some existing file to pack cannot be read, the call throws an I/O error and leaves no archive; otherwise one entry per document whose file exists, in list order, named by its raw file name, and the archive is written |
| Zip.AsWrittenPacksPresentFiles | src/DocumentAssistantAgent.Infrastructure/Utils/ZipUtils.cs:25-33 | the archive is made exactly when every existing file to pack can be read, and a file is left at the archive path exactly then; a made archive packs a document exactly when its file exists and is not the archive itself |
| Zip.UnreadableFileAborts | src/DocumentAssistantAgent.Infrastructure/Utils/ZipUtils.cs:17-36 | one existing but unreadable document makes the call throw, with the old archive deleted and no new one written |
| Zip.AsWrittenDuplicatesNames | src/DocumentAssistantAgent.Infrastructure/Utils/ZipUtils.cs:29-31 | two existing, readable files with the same name give an archive with two entries of the same name |
| Zip.CreateZipSafe | src/DocumentAssistantAgent.Infrastructure/Utils/ZipUtils.cs:25-33 | with the intended counter naming, the call throws exactly when the code as written does and leaves the same file system; a made archive has pairwise distinct entry names, the same sources, and a name that differs from the raw one only when the raw one was taken |
| Plugin.NarrowAsWritten | src/DocumentAssistantAgent.Client/Plugins/DocumentAssistantPlugin.cs:109-116 | a requirement with a null or blank filter gets no candidates; one with both filters gets the search results unfiltered |
| Plugin.NoBreakSpaceFilterEmpties | src/DocumentAssistantAgent.Client/Plugins/DocumentAssistantPlugin.cs:109-112 | a category filter of a no-break space is blank to `string.IsNullOrWhiteSpace`, so as written it empties the candidates |
| Plugin.NarrowIntended | src/DocumentAssistantAgent.Client/Plugins/DocumentAssistantPlugin.cs:109-116 | a candidate is kept exactly when it is a search result and has every given category and type |
| Plugin.MostRecentIndex | src/DocumentAssistantAgent.Client/Plugins/DocumentAssistantPlugin.cs:121 | the chosen candidate has maximal modification time, and every earlier candidate is strictly older |
| Plugin.MostRecentIsFirstOfOrdering | src/DocumentAssistantAgent.Client/Plugins/DocumentAssistantPlugin.cs:121 | that candidate is what a stable descending sort by modification time puts first |
| Plugin.Collect | src/DocumentAssistantAgent.Client/Plugins/DocumentAssistantPlugin.cs:106-127 | each requirement adds exactly one entry to `found` or to `missing` |
| Plugin.CollectSpec | src/DocumentAssistantAgent.Client/Plugins/DocumentAssistantPlugin.cs:106-127 | `missing` is the descriptions of the requirements without candidates, in order; `found` has the most recent candidate of each other requirement, in order |
| Plugin.UnmetIsMissing | src/DocumentAssistantAgent.Client/Plugins/DocumentAssistantPlugin.cs:123-126 | a requirement without candidates has its description reported missing |
| Plugin.DocumentsForPurpose | src/DocumentAssistantAgent.Client/Plugins/DocumentAssistantPlugin.cs:96-135 | the requirement service sees the folded purpose and the counts add up; an archive is attempted exactly when something was found, the file system being untouched otherwise; it fails with an I/O error exactly when a found file exists but cannot be read, and a file is left at the archive path exactly when it succeeds |
| Plugin.DocumentsForPurposeCorrected | src/DocumentAssistantAgent.Client/Plugins/DocumentAssistantPlugin.cs:96-135 | with both corrections, the missing list is the descriptions of the requirements without candidates, every found document is a search result of its requirement with the requirement's category and type, the archive fails exactly when a found file cannot be read, a made archive has distinct entry names, and the file system is the one the code as written leaves |
| Plugin.PurposeCaseIgnored | src/DocumentAssistantAgent.Client/Plugins/DocumentAssistantPlugin.cs:101 | the letter case of the purpose changes nothing in the outcome |
| Plugin.StaticRequirementsSeeFoldedPurpose | src/DocumentAssistantAgent.Client/Plugins/DocumentAssistantPlugin.cs:101 | with the static service the switch decides on the folded purpose |
| Plugin.AsWrittenNetEffect | src/DocumentAssistantAgent.Client/Plugins/DocumentAssistantPlugin.cs:109-118 | as written, a requirement is met exactly when both filters are given and its search finds something, and then every search result is a candidate |
| Plugin.UntypedRequirementsMissing | src/DocumentAssistantAgent.Client/Plugins/DocumentAssistantPlugin.cs:113-126 | as written, a requirement without a type filter is always reported missing |
| Plugin.PassportPhotoAlwaysMissing | src/DocumentAssistantAgent.Infrastructure/Services/StaticRequirementService.cs:38 | so any passport purpose reports the passport photo missing, whatever is stored |
| Plugin.AsWrittenNarrowingInverted | src/DocumentAssistantAgent.Client/Plugins/DocumentAssistantPlugin.cs:109-116 | a medical record survives a passport requirement as written but not as intended, and a category-only requirement drops a matching record as written but keeps it as intended |
| Plugin.IntendedFoundRespectsFilters | src/DocumentAssistantAgent.Client/Plugins/DocumentAssistantPlugin.cs:106-127 | with the intended narrowing every found document is a search result for its requirement and has the requirement's category and type |
| Plugin.ProcessFiles | src/DocumentAssistantAgent.Client/Plugins/DocumentAssistantPlugin.cs:67-80 | the count is the number of files that classify, a failing file never stops the loop, and the repository stays well-formed |
| Plugin.ScanFolder | src/DocumentAssistantAgent.Client/Plugins/DocumentAssistantPlugin.cs:53-85 | a missing folder gives "Folder not found" and leaves the repository alone; a listing that throws makes the scan throw the same exception; otherwise the document files are counted, at most all of them are processed, and the message reports both counts |
| Plugin.ScanProcessesAll | src/DocumentAssistantAgent.Client/Plugins/DocumentAssistantPlugin.cs:62-84 | when the listing succeeds and every document file classifies, the scan succeeds and all of them are processed |
| Plugin.ProcessKeeps | src/DocumentAssistantAgent.Client/Plugins/DocumentAssistantPlugin.cs:68-80 | a stored record survives the loop when no later record's path equals its own ignoring case |
| Plugin.ProcessStoresEveryRecord | src/DocumentAssistantAgent.Client/Plugins/DocumentAssistantPlugin.cs:68-82 | with files distinct ignoring case, each filed under its own path, every classified record ends up in the repository |

## Left out

- File contents, JSON (de)serialisation, zip compression, LiteDB storage internals and the `SemaphoreSlim` locking. The file system is a value: a file's text is either readable or not, and the index file is either absent, unreadable, or a stored list (or null).
- `Directory.GetFiles` with its recursive flag is a parameter `listing` of `Plugin.ScanFolder`, a `Failure` when listing throws. The order in which the operating system lists files is not modelled.
- The language model behind classification is the parameter `ask` of `Classification.ClassifyDocument`, and `AIRequirementService` is the parameter `requirementsOf` of `Plugin.DocumentsForPurpose`. Prompt texts and configuration are not modelled.
- The clock `DateTime.Now` is the parameter `now`. Culture-sensitive comparison is an ordinal comparison after ASCII folding: non-ASCII letters are not folded, ignorable code points such as U+00AD are not skipped, and canonically equivalent sequences such as "e\u0301" and "é" are not equated.
- Models.ParseCategory and Models.ParseType accept exactly the member names. `Enum.Parse<T>(string)` is case-sensitive, as here, but it also accepts three more forms. A name padded with white space parses (" Medical " is Medical). A comma-separated list of names parses to their values OR-ed together ("Professional, Kids" is 1 or 2, which is School). A numeric string parses too, even to a value no member has ("7"). The datatypes hold only the members, so a classification answer in these forms gets the fallback record here, where the source builds a record from it.
- The text reports (`FormatDocumentResult`, `CheckExpiringDocuments`) and logging are string formatting and console output. `Plugin.ScanFolder` models its message; the others are not modelled.
- `Plugin.DocumentsForPurpose`: the outcome records the requirements, the matching and the archive entries, not the report text. That text echoes the unfolded purpose, so `Plugin.PurposeCaseIgnored` holds for the outcome, not for the text.
- `Plugin.ScanFolder`: the classifier is any `Result`-returning function of the path. The model does not compose it from `Classification.ClassifyDocument`. An exception thrown by an upsert is not modelled; neither repository throws one here.
- Zip.WriteArchive never fails: an I/O error while deleting the old archive or writing the new one is left out, like every other failing file-system write except the index save. Reading the files to pack can fail (`Zip.CreateZipAsWritten`).
- Zip.CreateZipSafe tracks the names already used itself. The commented-out call cannot be restored as written, because `archive.Entries` throws `NotSupportedException` in `ZipArchiveMode.Create`.
- Files.LastWriteTime: a missing file's time is 1601-01-01 taken as is. .NET reports it converted to local time, and the time zone is not modelled.
- Classification.Preview counts characters, while `String.Length` and the range `content[..n]` count UTF-16 code units. A text with characters outside the Basic Multilingual Plane gets a preview up to twice as long here, because a string is a sequence of Unicode characters.
- Registry.SupportedExtensions is a set: the order of the `string[]` that `GetSupportedExtensions` returns is not modelled. It has no repetitions, since it lists the keys of a dictionary.
- Extraction.ExtractorKind has no case for a subclass of `TextExtractionService`. The check `e is TextExtractionService` at DocumentContentExtractor.cs:46 would pick such a subclass as the fallback; here only `TextExtraction` can be the fallback, and every other subclass is `Custom`.
- LiteDbRepository.Key: the database is opened from a plain file path, so LiteDB's default collation is taken to be in force; its culture-specific folding is the ASCII folding above.
- LiteDbRepository.SearchSpec states what the `Find` lambda at LiteDbDocumentRepository.cs:66-71 means in C#: the query must occur in a field. LiteDB translates `Contains` into the pattern `LIKE '%' + query + '%'`, in which `%` and `_` inside the query are wildcards, so a search for "a_b" also finds "axb.pdf". The contract describes LiteDB's answer only for queries without those two characters.
- Repository.SearchAgrees compares the two searches as the C# reads. For a query containing `%` or `_`, LiteDB's LIKE matching can find records the list's search does not.
- `LiteDbRepository`: query results are sets, because the order in which LiteDB enumerates a collection is not specified.
- `Zip.GetSafeEntryName`: the names already in the archive are the parameter `existing`. `ZipArchiveEntry.Name` is taken to be the entry name as given.
- `Registry.ProceedChain`: the mapped extractor and the fallback are attempted against the same file-system value, so a file changing between the two attempts is not modelled.
- Program.cs, the console loop, the background agent, dependency-injection wiring (apart from the registration order) and the notification service are user interface, not core logic.

## Findings

| source | as written | input that shows it | evidently intended | confidence | as-written member | corrected member |
|---|---|---|---|---|---|---|
| src/DocumentAssistantAgent.Client/Plugins/DocumentAssistantPlugin.cs:109-116 | a filter is applied when it is null or blank (`string.IsNullOrWhiteSpace` without negation), so it empties the candidates, and given filters are ignored | a Medical record for the requirement (passport, Identity, Passport) is found; for a category-only requirement (medical, Medical) the matching record is reported missing | apply each filter when it is given | not executed | Plugin.NarrowAsWritten, Plugin.AsWrittenNarrowingInverted | Plugin.NarrowIntended, Plugin.IntendedFoundRespectsFilters, Plugin.DocumentsForPurposeCorrected |
| src/DocumentAssistantAgent.Infrastructure/Utils/ZipUtils.cs:29-31 | the safe-name call is commented out, so each entry is named by its raw file name; the call could not simply be restored, because `archive.Entries` throws `NotSupportedException` on an archive opened in `ZipArchiveMode.Create` (line 23) | two existing, readable files /a/id.jpg and /b/id.jpg give two entries named id.jpg | entries renamed id.jpg, id_1.jpg, ... | not executed | Zip.CreateZipAsWritten, Zip.AsWrittenDuplicatesNames | Zip.CreateZipSafe, Plugin.DocumentsForPurposeCorrected |
| src/DocumentAssistantAgent.Infrastructure/Repositories/LiteDbDocumentRepository.cs:38-43 | the by-type query does not check the owner, unlike every other LiteDB query | Bob's passport record is returned to Alice's by-type query | restrict to the asking owner as the other queries do | not executed | LiteDbRepository.ByType, LiteDbRepository.ByTypeLeaksOtherOwners | LiteDbRepository.ByTypeOwned, LiteDbRepository.ByTypeOwnedRestricts, Repository.ByTypeOwnedAgrees |

=== FILE: classification.dfy ===
/** `AIDocumentClassificationService`: extract the text, ask the language
    model about the file name and a preview of the text, and turn its answer
    into a record; any failure inside yields a fallback record instead. */
module Classification {

  import opened Wrappers
  import opened Strings
  import opened Paths
  import opened Models
  import opened Files
  import opened Registry

  /** How many characters of the text the prompt shows. */
  const PreviewLength: nat := 500

  /** `content[..Math.Min(content.Length, 500)]`. */
  function Preview(content: string): (r: string)
    ensures |r| == if |content| < PreviewLength then |content| else PreviewLength
    ensures r == content[..|r|]
  {
    content[..if |content| < PreviewLength then |content| else PreviewLength]
  }

  /** A text no longer than the limit is shown whole, and text beyond the
      limit is never shown. */
  lemma PreviewSpec(a: string, b: string)
    ensures |a| <= PreviewLength ==> Preview(a) == a
    ensures |a| >= PreviewLength ==> Preview(a + b) == Preview(a)
    ensures Preview(Preview(a)) == Preview(a)
  {
    if |a| >= PreviewLength {
      assert (a + b)[..PreviewLength] == a[..PreviewLength];
    }
  }

  /** The language model behind the classification prompt: given the file
      name and the preview, its answer deserialised, or `None` when the call
      throws, the answer does not deserialise, or it deserialises to null. */
  type Oracle = (string, string) -> Option<DocumentClassification>

  /** `MapToDocumentInfo`: copy the answer's fields, parse its category and
      type names (`None` where `Enum.Parse` throws), and take the file's
      identity from the path. */
  function MapToDocumentInfo(path: string, fileName: string, fs: FileSystem, c: DocumentClassification)
    : (r: Option<DocumentInfo>)
    ensures r.Some? <==> ParseCategory(c.category).Some? && ParseType(c.documentType).Some?
    ensures r.Some? ==>
      && r.value.owner == c.owner
      && CategoryName(r.value.category) == c.category
      && TypeName(r.value.documentType) == c.documentType
      && r.value.expirationDate == c.expirationDate
      && r.value.summary == Some(c.summary)
      && r.value.keywords == c.keywords
      && r.value.fileName == fileName
      && r.value.fullPath == path
      && r.value.lastModified == LastWriteTime(fs, path)
  {
    match (ParseCategory(c.category), ParseType(c.documentType))
    case (Some(category), Some(t)) =>
      Some(DocumentInfo(c.owner, fileName, path, category, t, c.expirationDate,
                        LastWriteTime(fs, path), Some(c.summary), c.keywords))
    case _ => None
  }

  /** `CreateFallbackDocumentInfo`: the file's identity, `Other` for both
      enumerations and the defaults everywhere else. */
  function FallbackDocumentInfo(path: string, fileName: string, fs: FileSystem): (r: DocumentInfo)
    ensures r.category == DocumentCategory.Other && r.documentType == DocumentType.Other
    ensures r.owner == "" && r.expirationDate.None? && r.summary.None? && r.keywords == []
    ensures r.fileName == fileName && r.fullPath == path && r.lastModified == LastWriteTime(fs, path)
  {
    DefaultDocumentInfo().(fileName := fileName, fullPath := path,
                           category := DocumentCategory.Other, documentType := DocumentType.Other,
                           lastModified := LastWriteTime(fs, path))
  }

  /** The part of the `try` after extraction: the record for the answer to
      the prompt about `content`, or the fallback. */
  function Answer(path: string, fs: FileSystem, ask: Oracle, content: string): (r: DocumentInfo)
    ensures r.fileName == FileName(path) && r.fullPath == path && r.lastModified == LastWriteTime(fs, path)
  {
    var fileName := FileName(path);
    match ask(fileName, Preview(content))
    case None => FallbackDocumentInfo(path, fileName, fs)
    case Some(c) => MapToDocumentInfo(path, fileName, fs, c).GetOr(FallbackDocumentInfo(path, fileName, fs))
  }

  /** The paths `new FileInfo` rejects on Unix: `Path.GetFullPath` throws
      `ArgumentException` for the empty path and for one containing U+0000. */
  predicate RejectedByFileInfo(path: string) {
    path == "" || '\0' in path
  }

  /** `ClassifyDocumentAsync`. `new FileInfo(path)` runs before the `try`
      and throws on the paths it rejects; everything inside the `try` that
      fails gives the fallback record. */
  function ClassifyDocument(reg: ExtractorRegistry, fs: FileSystem, ask: Oracle, path: string)
    : (r: Result<DocumentInfo>)
    requires reg.Valid()
    ensures r.Failure? <==> path == "" || exists i :: 0 <= i < |path| && path[i] == '\0'
    ensures r.Failure? ==> r.error == ArgumentError
    ensures r.Success? ==>
      r.value.fileName == FileName(path) && r.value.fullPath == path &&
      r.value.lastModified == LastWriteTime(fs, path)
    ensures r.Success? && !FileExists(fs, path) ==> r.value == FallbackDocumentInfo(path, FileName(path), fs)
  {
    if RejectedByFileInfo(path) then Failure(ArgumentError)
    else
      match Proceed(reg, fs, path)
      case Failure(_) => Success(FallbackDocumentInfo(path, FileName(path), fs))
      case Success(content) =>
        Success(Answer(path, fs, ask, content))
  }

  /** The fallback record of a missing file carries 1601-01-01, older than
      any write time from 1601 on, so among records for existing files it is
      never the most recent. */
  lemma MissingFileIsOldest(reg: ExtractorRegistry, fs: FileSystem, ask: Oracle, path: string, t: Instant)
    requires reg.Valid() && !RejectedByFileInfo(path) && !FileExists(fs, path)
    requires t >= MissingFileWriteTime
    ensures ClassifyDocument(reg, fs, ask, path).value.lastModified == 50491123200
    ensures ClassifyDocument(reg, fs, ask, path).value.lastModified <= t
  {
  }

  /** A path with U+0000 inside fails before the `try`, although the file
      is merely missing: it gets no fallback record. */
  lemma NulPathRejected(reg: ExtractorRegistry, fs: FileSystem, ask: Oracle)
    requires reg.Valid()
    ensures ClassifyDocument(reg, fs, ask, "a\0b") == Failure(ArgumentError)
    ensures ClassifyDocument(reg, fs, ask, "ab").Success?
  {
  }

  /** When the text is extracted and the model's answer names a category and
      a type, the record carries the answer. */
  lemma ClassifyUsesAnswer(reg: ExtractorRegistry, fs: FileSystem, ask: Oracle, path: string,
                           content: string, c: DocumentClassification)
    requires reg.Valid() && !RejectedByFileInfo(path)
    requires Proceed(reg, fs, path) == Success(content)
    requires ask(FileName(path), Preview(content)) == Some(c)
    requires ParseCategory(c.category).Some? && ParseType(c.documentType).Some?
    ensures var d := ClassifyDocument(reg, fs, ask, path).value;
      && d.owner == c.owner
      && d.category == ParseCategory(c.category).value
      && d.documentType == ParseType(c.documentType).value
      && d.expirationDate == c.expirationDate
      && d.summary == Some(c.summary)
      && d.keywords == c.keywords
  {
  }

  /** Every failure inside the `try` gives the fallback record: extraction
      fails, the model gives no answer, or it names an unknown category or
      type. */
  lemma ClassifyFallsBack(reg: ExtractorRegistry, fs: FileSystem, ask: Oracle, path: string)
    requires reg.Valid() && !RejectedByFileInfo(path)
    requires
      || Proceed(reg, fs, path).Failure?
      || ask(FileName(path), Preview(Proceed(reg, fs, path).value)).None?
      || var c := ask(FileName(path), Preview(Proceed(reg, fs, path).value)).value;
         ParseCategory(c.category).None? || ParseType(c.documentType).None?
    ensures ClassifyDocument(reg, fs, ask, path) == Success(FallbackDocumentInfo(path, FileName(path), fs))
  {
  }

  /** Text beyond the preview never reaches the model, so it cannot change
      the record. */
  lemma AnswerSeesOnlyPreview(path: string, fs: FileSystem, ask: Oracle, a: string, b: string)
    requires |a| >= PreviewLength
    ensures Answer(path, fs, ask, a + b) == Answer(path, fs, ask, a)
  {
    PreviewSpec(a, b);
  }

  /** A successful classification and a fallback for the same path agree on
      the file's identity, so both land under the same key of a repository. */
  lemma SameIdentityOnBothPaths(fs: FileSystem, path: string, c: DocumentClassification)
    requires MapToDocumentInfo(path, FileName(path), fs, c).Some?
    ensures var d := MapToDocumentInfo(path, FileName(path), fs, c).value;
      var f := FallbackDocumentInfo(path, FileName(path), fs);
      d.fileName == f.fileName && d.fullPath == f.fullPath && d.lastModified == f.lastModified
  {
  }
}

=== FILE: extraction.dfy ===
/** Content extractors (`DocumentContentExtractionBase` and its two
    subclasses): each declares the extensions it handles and a priority, and
    turns a file into text or fails. */
module Extraction {

  import opened Wrappers
  import opened Strings
  import opened Paths
  import opened Files

  /** The concrete class of an extractor. */
  datatype ExtractorKind =
    | TextExtraction   // TextExtractionService
    | PdfExtraction    // PdfExtractionService
    | Custom(outputs: map<string, string>)
      // any other subclass: the text it produces for each path it can read;
      // it throws for every other path

  /** An extractor: its class, its `SupportedExtensions` as declared (not
      normalised) and its `Priority`. */
  datatype Extractor = Extractor(kind: ExtractorKind, supportedExtensions: seq<string>, priority: int)

  /** The priority of an extractor that does not override `Priority`. */
  const DefaultPriority: int := 0

  /** `TextExtractionService`: plain-text formats at the inherited priority. */
  const TextExtractionService: Extractor :=
    Extractor(TextExtraction, [".txt", ".md", ".rtf"], DefaultPriority)

  /** `PdfExtractionService`: PDF at priority 1. */
  const PdfExtractionService: Extractor :=
    Extractor(PdfExtraction, [".pdf"], 1)

  /** The built-in extractors' declarations: the text extractor keeps the
      default priority 0 and the PDF extractor outranks it. */
  lemma BuiltInDeclarations()
    ensures TextExtractionService.supportedExtensions == [".txt", ".md", ".rtf"]
    ensures TextExtractionService.priority == DefaultPriority == 0
    ensures PdfExtractionService.supportedExtensions == [".pdf"]
    ensures PdfExtractionService.priority == 1 > TextExtractionService.priority
  {
  }

  /** `ExtractTextAsync`: the text of the file, or the exception it throws. */
  function ExtractText(e: Extractor, fs: FileSystem, path: string): (r: Result<string>)
    ensures e.kind.TextExtraction? ==>
      (!FileExists(fs, path) ==> r == Failure(FileNotFound)) &&
      (FileExists(fs, path) && fs.files[path].text.None? ==> r == Failure(InvalidOperation)) &&
      (r.Success? <==> FileExists(fs, path) && fs.files[path].text.Some?) &&
      (r.Success? ==> r.value == fs.files[path].text.value)
    ensures e.kind.PdfExtraction? ==>
      (FileExists(fs, path) <==> r.Success?) &&
      (r.Success? ==> r.value == "") &&
      (r.Failure? ==> r.error == FileNotFound)
  {
    match e.kind
    case TextExtraction =>
      if !FileExists(fs, path) then Failure(FileNotFound)
      else if fs.files[path].text.None? then Failure(InvalidOperation)
      else Success(fs.files[path].text.value)
    case PdfExtraction =>
      // Placeholder in the source: an existing PDF reads as empty text.
      if !FileExists(fs, path) then Failure(FileNotFound) else Success("")
    case Custom(outputs) =>
      if path in outputs then Success(outputs[path]) else Failure(InvalidOperation)
  }

  /** `CanExtract`: the folded extension of the path is one of the declared
      extensions, compared as declared. */
  predicate CanExtract(e: Extractor, path: string) {
    Lower(Extension(path)) in e.supportedExtensions
  }

  /** `CanExtract` ignores the letter case of the path. */
  lemma CanExtractCaseInsensitive(e: Extractor, p: string, q: string)
    requires Lower(p) == Lower(q)
    ensures CanExtract(e, p) <==> CanExtract(e, q)
  {
    ExtensionLower(p);
    ExtensionLower(q);
    LowerIdempotent(Extension(p));
    LowerIdempotent(Extension(q));
  }

  /** A declared extension containing an upper-case letter is never matched,
      because `CanExtract` folds only the path's side. */
  lemma UpperCaseDeclarationNeverMatches(e: Extractor, declared: string, path: string)
    requires declared in e.supportedExtensions && Lower(declared) != declared
    ensures Lower(Extension(path)) != declared
  {
    LowerIdempotent(Extension(path));
  }

  /** An extractor whose only declaration has an upper-case letter accepts
      no path at all. */
  lemma UpperCaseOnlyExtractorAcceptsNothing(e: Extractor, d: string, path: string)
    requires e.supportedExtensions == [d] && Lower(d) != d
    ensures !CanExtract(e, path)
  {
    UpperCaseDeclarationNeverMatches(e, d, path);
  }
}

=== FILE: file_utils.dfy ===
/** `FileUtils`: classification of paths by the folded extension against
    three fixed extension lists. */
module FileUtils {

  import opened Strings
  import opened Paths
  import opened Extraction

  /** The extensions the application treats as images. */
  const ImageExtensions: seq<string> := [".jpg", ".jpeg", ".png", ".tiff", ".bmp", ".gif"]

  /** The extensions the application treats as plain text. */
  const TextExtensions: seq<string> := [".txt", ".md", ".rtf"]

  /** Every extension the application treats as a document, in declaration
      order. */
  const DocumentExtensions: seq<string> :=
    [".pdf", ".doc", ".docx", ".txt", ".md", ".rtf",
     ".jpg", ".jpeg", ".png", ".tiff", ".bmp", ".gif"]

  /** The folded extension of a path, the key all three tests look up. */
  function FoldedExtension(path: string): string {
    Lower(Extension(path))
  }

  /** `IsDocumentFile`. */
  predicate IsDocumentFile(path: string) {
    FoldedExtension(path) in DocumentExtensions
  }

  /** `IsImageFile`. */
  predicate IsImageFile(path: string) {
    FoldedExtension(path) in ImageExtensions
  }

  /** `IsTextFile`. */
  predicate IsTextFile(path: string) {
    FoldedExtension(path) in TextExtensions
  }

  /** The document list is the text list, the image list and the two office
      formats and PDF, with nothing in two lists. */
  lemma ExtensionListsPartition()
    ensures |DocumentExtensions| == 12
    ensures forall x :: x in DocumentExtensions <==>
      x in TextExtensions || x in ImageExtensions || x in [".pdf", ".doc", ".docx"]
    ensures forall x :: !(x in TextExtensions && x in ImageExtensions)
  {
  }

  /** Images and text files are documents; no file is both. */
  lemma ClassesNest(path: string)
    ensures IsImageFile(path) ==> IsDocumentFile(path)
    ensures IsTextFile(path) ==> IsDocumentFile(path)
    ensures !(IsImageFile(path) && IsTextFile(path))
  {
    ExtensionListsPartition();
  }

  /** A path without an extension is none of the three. */
  lemma NoExtensionNoClass(path: string)
    requires Extension(path) == ""
    ensures !IsDocumentFile(path) && !IsImageFile(path) && !IsTextFile(path)
  {
    assert FoldedExtension(path) == "" by {
      assert |Lower(Extension(path))| == 0;
    }
    assert "" !in DocumentExtensions && "" !in ImageExtensions && "" !in TextExtensions;
  }

  /** The three tests ignore the letter case of the whole path: folding the
      path first changes none of them. */
  lemma ClassesIgnoreCase(path: string)
    ensures FoldedExtension(Lower(path)) == FoldedExtension(path)
    ensures IsDocumentFile(Lower(path)) == IsDocumentFile(path)
    ensures IsImageFile(Lower(path)) == IsImageFile(path)
    ensures IsTextFile(Lower(path)) == IsTextFile(path)
  {
    ExtensionLower(path);
    LowerIdempotent(Extension(path));
  }

  /** The text list is exactly what the text extractor declares, so a file
      is a text file exactly when the text extractor can extract it. */
  lemma TextFilesAreTextExtractable(path: string)
    ensures IsTextFile(path) <==> CanExtract(TextExtractionService, path)
  {
  }
}

=== FILE: files.dfy ===
/** The file system as the core observes it: which files exist, whether
    their text can be read, their last write time, and which folders exist. */
module Files {

  import opened Wrappers
  import opened Models

  /** One file: its text (`None` when reading it fails) and its last write time. */
  datatype FileEntry = FileEntry(text: Option<string>, lastWriteTime: Instant)

  datatype FileSystem = FileSystem(files: map<string, FileEntry>, directories: set<string>)

  /** `File.Exists`. */
  predicate FileExists(fs: FileSystem, path: string) {
    path in fs.files
  }

  /** `Directory.Exists`. */
  predicate DirectoryExists(fs: FileSystem, path: string) {
    path in fs.directories
  }

  /** 1601-01-01T00:00:00 (584388 days after 0001-01-01), what
      `FileInfo.LastWriteTime` reports for a file that does not exist. */
  const MissingFileWriteTime: Instant := 50491123200

  /** `new FileInfo(path).LastWriteTime`. */
  function LastWriteTime(fs: FileSystem, path: string): (r: Instant)
    ensures FileExists(fs, path) ==> r == fs.files[path].lastWriteTime
    ensures !FileExists(fs, path) ==> r == MissingFileWriteTime
  {
    if path in fs.files then fs.files[path].lastWriteTime else MissingFileWriteTime
  }

  /** `File.Delete`: the file is gone and nothing else changes. */
  function DeleteFile(fs: FileSystem, path: string): (r: FileSystem)
    ensures !FileExists(r, path)
    ensures forall p :: p != path ==> (FileExists(r, p) <==> FileExists(fs, p))
    ensures r.directories == fs.directories
  {
    fs.(files := fs.files - {path})
  }
}

=== FILE: litedb_repository.dfy ===
/** `LiteDbDocumentRepository`: the document index as a LiteDB collection
    keyed by full path, compared as LiteDB compares `_id` strings. Queries return the matching records as a set (the
    order LiteDB enumerates them in is not modelled), except the expiring
    query, which orders them by date. */
module LiteDbRepository {

  import opened Wrappers
  import opened Strings
  import opened Models
  import opened Sequences
  import opened Queries
  import MemoryRepository

  /** The `_id` a full path becomes, up to equality. LiteDB's default
      collation compares strings ignoring case, so two paths that differ
      only in letter case are the same key. */
  function Key(path: string): string {
    Lower(path)
  }

  /** The collection: the record stored under each key. */
  type Collection = map<string, DocumentInfo>

  /** Every record is stored under the key of its own full path. */
  ghost predicate WellKeyed(c: Collection) {
    forall k :: k in c ==> Key(c[k].fullPath) == k
  }

  /** `Upsert(document.FullPath, document)`: the record replaces whatever is
      stored under a path equal to its own ignoring case. */
  function Upsert(c: Collection, d: DocumentInfo): (r: Collection)
    ensures Key(d.fullPath) in r && r[Key(d.fullPath)] == d
    ensures forall k :: k != Key(d.fullPath) ==> (k in r <==> k in c) && (k in c ==> r[k] == c[k])
    ensures WellKeyed(c) ==> WellKeyed(r)
  {
    c[Key(d.fullPath) := d]
  }

  /** Upserting a record under a case variant of a stored path replaces the
      stored record: "/d/ID.pdf" and then "/d/id.pdf" leave one record. */
  lemma CaseVariantsCollide(d1: DocumentInfo, d2: DocumentInfo)
    requires d1.fullPath == "/d/ID.pdf" && d2.fullPath == "/d/id.pdf"
    ensures Upsert(Upsert(map[], d1), d2).Values == {d2}
  {
    assert Key(d1.fullPath) == Key(d2.fullPath);
    assert Upsert(Upsert(map[], d1), d2) == map[Key(d2.fullPath) := d2];
  }

  /** `Owner.Equals(owner, StringComparison.CurrentCultureIgnoreCase)`. */
  predicate OwnerMatches(stored: string, owner: string) {
    Lower(stored) == Lower(owner)
  }

  /** Owner matching is an equivalence that ignores letter case. */
  lemma OwnerMatchesEquivalence(a: string, b: string, c: string)
    ensures OwnerMatches(a, a)
    ensures OwnerMatches(a, b) ==> OwnerMatches(b, a)
    ensures OwnerMatches(a, b) && OwnerMatches(b, c) ==> OwnerMatches(a, c)
    ensures OwnerMatches(Lower(a), b) == OwnerMatches(a, b)
  {
    LowerIdempotent(a);
  }

  /** The selector "belongs to `owner`". */
  function OwnedBy(owner: string): DocumentInfo -> bool {
    (d: DocumentInfo) => OwnerMatches(d.owner, owner)
  }

  /** `Find(p)`: the stored records satisfying `p`. */
  function Find(c: Collection, p: DocumentInfo -> bool): (r: set<DocumentInfo>)
    ensures forall d :: d in r ==> p(d) && d in c.Values
    ensures forall k :: k in c && p(c[k]) ==> c[k] in r
  {
    set d | d in c.Values && p(d)
  }

  /** The conjunction of two selectors. */
  function Both(p: DocumentInfo -> bool, q: DocumentInfo -> bool): DocumentInfo -> bool {
    (d: DocumentInfo) => p(d) && q(d)
  }

  /** `GetAllDocumentsAsync`. */
  function GetAll(c: Collection, owner: string): set<DocumentInfo> {
    Find(c, OwnedBy(owner))
  }

  /** `GetDocumentsByCategory`. */
  function ByCategory(c: Collection, owner: string, cat: DocumentCategory): set<DocumentInfo> {
    Find(c, Both(OwnedBy(owner), HasCategory(cat)))
  }

  /** `GetDocumentsByType` as written: the owner is not consulted. */
  function ByType(c: Collection, owner: string, t: DocumentType): set<DocumentInfo> {
    Find(c, HasType(t))
  }

  /** `GetDocumentsByType` scoped to the owner, as every other query of this
      repository is. */
  function ByTypeOwned(c: Collection, owner: string, t: DocumentType): set<DocumentInfo> {
    Find(c, Both(OwnedBy(owner), HasType(t)))
  }

  /** `SearchDocuments`. */
  function Search(c: Collection, owner: string, query: string): set<DocumentInfo> {
    Find(c, Both(OwnedBy(owner), MatchesQuery(Lower(query))))
  }

  /** The owner-scoped queries never return another owner's record. */
  lemma OwnerScopedQueries(c: Collection, owner: string, cat: DocumentCategory, t: DocumentType, query: string)
    ensures forall d :: d in GetAll(c, owner) ==> OwnerMatches(d.owner, owner)
    ensures forall d :: d in ByCategory(c, owner, cat) ==> OwnerMatches(d.owner, owner) && d.category == cat
    ensures forall d :: d in ByTypeOwned(c, owner, t) ==> OwnerMatches(d.owner, owner) && d.documentType == t
    ensures forall d :: d in Search(c, owner, query) ==> OwnerMatches(d.owner, owner)
  {
    forall d | d in GetAll(c, owner) ensures OwnerMatches(d.owner, owner) {
      assert OwnedBy(owner)(d);
    }
    forall d | d in ByCategory(c, owner, cat) ensures OwnerMatches(d.owner, owner) && d.category == cat {
      assert Both(OwnedBy(owner), HasCategory(cat))(d);
    }
    forall d | d in ByTypeOwned(c, owner, t) ensures OwnerMatches(d.owner, owner) && d.documentType == t {
      assert Both(OwnedBy(owner), HasType(t))(d);
    }
    forall d | d in Search(c, owner, query) ensures OwnerMatches(d.owner, owner) {
      assert Both(OwnedBy(owner), MatchesQuery(Lower(query)))(d);
    }
  }

  /** The search returns the owner's records in which the query occurs,
      ignoring the letter case of both. */
  lemma SearchSpec(c: Collection, owner: string, query: string, d: DocumentInfo)
    ensures d in Search(c, owner, query) <==>
      d in c.Values && OwnerMatches(d.owner, owner) && MatchesQuery(query)(d)
  {
    MatchesFoldedQuery(query, d);
  }

  /** The by-type query as written returns another owner's record: a
      passport stored for "bob" is found when "alice" asks for passports. */
  lemma ByTypeLeaksOtherOwners(d: DocumentInfo)
    requires d == DefaultDocumentInfo().(owner := "bob", fullPath := "/docs/p.pdf", documentType := Passport)
    ensures d in ByType(map[d.fullPath := d], "alice", Passport)
    ensures d !in ByTypeOwned(map[d.fullPath := d], "alice", Passport)
  {
    var c := map[d.fullPath := d];
    assert c[d.fullPath] == d;
    assert Lower("bob")[0] == 'b' && Lower("alice")[0] == 'a';
  }

  /** The owner-scoped by-type query is the as-written one restricted to the
      owner's records. */
  lemma ByTypeOwnedRestricts(c: Collection, owner: string, t: DocumentType)
    ensures ByTypeOwned(c, owner, t) == set d | d in ByType(c, owner, t) && OwnerMatches(d.owner, owner)
  {
  }

  /** `GetExpiringDocuments`, with `DateTime.Now` passed in as `now`: the
      owner's records expiring within `daysAhead` days, taken in whatever
      order the collection yields them, then ordered by date. It throws
      when the cutoff `now + daysAhead` days is not a `DateTime`. */
  method Expiring(c: Collection, owner: string, daysAhead: int, now: Instant) returns (r: Result<seq<DocumentInfo>>)
    ensures r.Failure? <==> !InDateRange(AddDays(now, daysAhead))
    ensures r.Failure? ==> r.error == ArgumentOutOfRange
    ensures r.Success? ==> SortedBy(r.value, ExpiryKey)
    ensures r.Success? ==> forall d :: d in r.value <==>
      d in c.Values && OwnerMatches(d.owner, owner) &&
      d.expirationDate.Some? && d.expirationDate.value <= AddDays(now, daysAhead)
    ensures r.Success? ==> forall i, j :: 0 <= i < j < |r.value| ==> r.value[i] != r.value[j]
  {
    var cutoff := AddDaysChecked(now, daysAhead);
    if cutoff.Failure? {
      return Failure(cutoff.error);
    }
    var pending := Find(c, Both(OwnedBy(owner), ExpiresBy(cutoff.value)));
    var found: seq<DocumentInfo> := [];
    ghost var all := pending;
    while pending != {}
      invariant Drained(found, pending, all)
      decreases |pending|
    {
      var d :| d in pending;
      DrainStep(found, pending, all, d);
      found := found + [d];
      pending := pending - {d};
    }
    var sorted := SortBy(found, ExpiryKey);
    SameElements(found, sorted);
    r := Success(sorted);
  }

  /** The records taken so far are the ones no longer pending, each once. */
  ghost predicate Drained(found: seq<DocumentInfo>, pending: set<DocumentInfo>, all: set<DocumentInfo>) {
    && pending <= all
    && (forall d :: d in found <==> d in all && d !in pending)
    && (forall i, j :: 0 <= i < j < |found| ==> found[i] != found[j])
  }

  /** Taking one pending record keeps `Drained`. */
  lemma DrainStep(found: seq<DocumentInfo>, pending: set<DocumentInfo>, all: set<DocumentInfo>, d: DocumentInfo)
    requires Drained(found, pending, all) && d in pending
    ensures Drained(found + [d], pending - {d}, all)
  {
    var next := found + [d];
    forall i, j | 0 <= i < j < |next| ensures next[i] != next[j] {
      if j == |found| {
        assert next[i] == found[i];
      } else {
        assert next[i] == found[i] && next[j] == found[j];
      }
    }
  }

  /** A permutation has the same elements, and no repetitions if the
      original had none. */
  lemma SameElements(s: seq<DocumentInfo>, r: seq<DocumentInfo>)
    requires multiset(r) == multiset(s)
    requires forall i, j :: 0 <= i < j < |s| ==> s[i] != s[j]
    ensures forall d :: d in r <==> d in s
    ensures forall i, j :: 0 <= i < j < |r| ==> r[i] != r[j]
  {
    forall d ensures d in r <==> d in s {
      assert d in r <==> d in multiset(r);
      assert d in s <==> d in multiset(s);
    }
    DistinctPermutation(s, r);
  }

  /** A permutation of a sequence without repetitions has none either. */
  lemma DistinctPermutation(s: seq<DocumentInfo>, r: seq<DocumentInfo>)
    requires multiset(r) == multiset(s)
    requires forall i, j :: 0 <= i < j < |s| ==> s[i] != s[j]
    ensures forall i, j :: 0 <= i < j < |r| ==> r[i] != r[j]
  {
    forall x | x in multiset(s) ensures multiset(s)[x] == 1 {
      CountDistinct(s, x);
    }
    forall i, j | 0 <= i < j < |r| ensures r[i] != r[j] {
      TwoPositionsCount(r, i, j);
    }
  }

  /** An element at two positions occurs at least twice. */
  lemma TwoPositionsCount(r: seq<DocumentInfo>, i: nat, j: nat)
    requires i < j < |r|
    ensures multiset(r)[r[i]] >= if r[i] == r[j] then 2 else 1
  {
    assert r == r[..j] + [r[j]] + r[j + 1..];
    assert r[..j][i] == r[i];
    assert multiset(r) == multiset(r[..j]) + multiset{r[j]} + multiset(r[j + 1..]);
  }

  /** In a sequence without repetitions every element occurs once. */
  lemma {:induction false} CountDistinct(s: seq<DocumentInfo>, x: DocumentInfo)
    requires forall i, j :: 0 <= i < j < |s| ==> s[i] != s[j]
    requires x in s
    ensures multiset(s)[x] == 1
    decreases |s|
  {
    assert s == [s[0]] + s[1..];
    if s[0] == x {
      assert x !in s[1..];
    } else {
      CountDistinct(s[1..], x);
    }
  }

  /** `SaveChangesAsync`: LiteDB persists on every write, so saving changes
      nothing. */
  function SaveChanges(c: Collection): Collection {
    c
  }
}

=== FILE: memory_repository.dfy ===
/** `MemoryDocumentRepository`: the document index as a list held in memory,
    loaded from and saved to one index file as a whole. Every query ignores
    its `owner` argument. */
module MemoryRepository {

  import opened Wrappers
  import opened Strings
  import opened Models
  import opened Sequences
  import opened Queries

  /** The position of the first record stored under `path`, if any. */
  function FirstIndexOfPath(docs: seq<DocumentInfo>, path: string): (r: Option<nat>)
    ensures r.None? <==> forall i :: 0 <= i < |docs| ==> docs[i].fullPath != path
    ensures r.Some? ==> r.value < |docs| && docs[r.value].fullPath == path &&
                        forall i :: 0 <= i < r.value ==> docs[i].fullPath != path
    decreases |docs|
  {
    if docs == [] then None
    else if docs[0].fullPath == path then Some(0)
    else
      match FirstIndexOfPath(docs[1..], path)
      case None => None
      case Some(i) => Some(i + 1)
  }

  /** The first record stored under `path`, if any: what a reader of the
      list finds for that path. */
  function Lookup(docs: seq<DocumentInfo>, path: string): (r: Option<DocumentInfo>)
    ensures r.Some? ==> r.value in docs && r.value.fullPath == path
    ensures r.None? <==> forall i :: 0 <= i < |docs| ==> docs[i].fullPath != path
  {
    match FirstIndexOfPath(docs, path)
    case None => None
    case Some(i) => Some(docs[i])
  }

  /** The selectors "stored under `path`" and "stored under another path". */
  function AtPath(path: string): DocumentInfo -> bool {
    (d: DocumentInfo) => d.fullPath == path
  }

  function NotAtPath(path: string): DocumentInfo -> bool {
    (d: DocumentInfo) => d.fullPath != path
  }

  /** No two records share a full path. */
  ghost predicate UniquePaths(docs: seq<DocumentInfo>) {
    forall i, j :: 0 <= i < j < |docs| ==> docs[i].fullPath != docs[j].fullPath
  }

  /** `UpsertDocumentAsync`: drop the first record with the same full path,
      if there is one, and append the new record. */
  function Upsert(docs: seq<DocumentInfo>, d: DocumentInfo): (r: seq<DocumentInfo>)
    ensures |r| >= 1 && r[|r| - 1] == d
    ensures |r| == if FirstIndexOfPath(docs, d.fullPath).Some? then |docs| else |docs| + 1
  {
    match FirstIndexOfPath(docs, d.fullPath)
    case None => docs + [d]
    case Some(i) => docs[..i] + docs[i + 1..] + [d]
  }

  /** The records stored under other paths keep their values and their order. */
  lemma UpsertKeepsOthers(docs: seq<DocumentInfo>, d: DocumentInfo)
    ensures Filter(Upsert(docs, d), NotAtPath(d.fullPath)) == Filter(docs, NotAtPath(d.fullPath))
  {
    var p := NotAtPath(d.fullPath);
    assert Filter([d], p) == [];
    match FirstIndexOfPath(docs, d.fullPath)
    case None =>
      FilterAppend(docs, [d], p);
    case Some(i) =>
      var a, x, b := docs[..i], docs[i], docs[i + 1..];
      assert Filter([x], p) == [];
      assert docs == (a + [x]) + b;
      FilterAppend(a + [x], b, p);
      FilterAppend(a, [x], p);
      assert Upsert(docs, d) == (a + b) + [d];
      FilterAppend(a + b, [d], p);
      FilterAppend(a, b, p);
  }

  /** After an upsert the list holds the new record, no record it did not
      hold before, and every record stored under another path. */
  lemma UpsertElements(docs: seq<DocumentInfo>, d: DocumentInfo)
    ensures d in Upsert(docs, d)
    ensures forall x :: x in Upsert(docs, d) ==> x == d || x in docs
    ensures forall x: DocumentInfo :: x.fullPath != d.fullPath ==> (x in Upsert(docs, d) <==> x in docs)
  {
    UpsertOnlyAdds(docs, d);
    var p := NotAtPath(d.fullPath);
    UpsertKeepsOthers(docs, d);
    FilterSpec(docs, p);
    FilterSpec(Upsert(docs, d), p);
  }

  /** Every record of the upserted list is the new one or an old one. */
  lemma UpsertOnlyAdds(docs: seq<DocumentInfo>, d: DocumentInfo)
    ensures forall x :: x in Upsert(docs, d) ==> x == d || x in docs
  {
    match FirstIndexOfPath(docs, d.fullPath)
    case None =>
    case Some(i) =>
      var a, b := docs[..i], docs[i + 1..];
      assert Upsert(docs, d) == a + b + [d];
      assert forall x :: x in a ==> x in docs;
      assert forall x :: x in b ==> x in docs;
  }

  /** Among the records stored under the new record's path, the first one is
      dropped and the new record comes last. */
  lemma UpsertReplacesFirst(docs: seq<DocumentInfo>, d: DocumentInfo)
    ensures var before := Filter(docs, AtPath(d.fullPath));
      Filter(Upsert(docs, d), AtPath(d.fullPath)) == (if before == [] then [] else before[1..]) + [d]
  {
    var p := AtPath(d.fullPath);
    match FirstIndexOfPath(docs, d.fullPath)
    case None =>
      FilterNone(docs, p);
      FilterAppend(docs, [d], p);
    case Some(i) =>
      assert docs == docs[..i] + [docs[i]] + docs[i + 1..];
      FilterNone(docs[..i], p);
      DropFirstSelected(docs[..i], docs[i], docs[i + 1..], d, p);
  }

  /** Removing the first selected element `x` and appending a selected `d`
      drops the head of the selection and adds `d` at its end. */
  lemma DropFirstSelected<T>(a: seq<T>, x: T, b: seq<T>, d: T, p: T -> bool)
    requires Filter(a, p) == [] && p(x) && p(d)
    ensures Filter(a + [x] + b, p) == [x] + Filter(b, p)
    ensures Filter(a + b + [d], p) == Filter(b, p) + [d]
  {
    assert Filter([x], p) == [x];
    assert Filter([d], p) == [d];
    FilterAppend(a + [x], b, p);
    FilterAppend(a, [x], p);
    FilterAppend(a + b, [d], p);
    FilterAppend(a, b, p);
  }

  /** An upsert keeps full paths pairwise distinct. */
  lemma UpsertPreservesUniquePaths(docs: seq<DocumentInfo>, d: DocumentInfo)
    requires UniquePaths(docs)
    ensures UniquePaths(Upsert(docs, d))
  {
    var r := Upsert(docs, d);
    match FirstIndexOfPath(docs, d.fullPath)
    case None =>
    case Some(i) =>
      var kept := docs[..i] + docs[i + 1..];
      assert forall k :: 0 <= k < |kept| ==> kept[k] == if k < i then docs[k] else docs[k + 1];
      forall a, b | 0 <= a < b < |r| ensures r[a].fullPath != r[b].fullPath {
        if b == |r| - 1 {
          assert r[a] == kept[a];
          if a < i {
            assert docs[a].fullPath != docs[i].fullPath;
          } else {
            assert docs[a + 1].fullPath != docs[i].fullPath;
          }
        } else {
          assert r[a] == kept[a] && r[b] == kept[b];
        }
      }
  }

  /** With distinct full paths, the record found for a path is the one
      record stored under it. */
  lemma LookupUnique(docs: seq<DocumentInfo>, path: string, k: nat)
    requires UniquePaths(docs) && k < |docs| && docs[k].fullPath == path
    ensures Lookup(docs, path) == Some(docs[k])
  {
  }

  /** Where the records of the list end up after an upsert that replaces
      position `i`. */
  lemma UpsertPositions(docs: seq<DocumentInfo>, d: DocumentInfo, i: nat, k: nat)
    requires FirstIndexOfPath(docs, d.fullPath) == Some(i) && k < |docs| && k != i
    ensures var r := Upsert(docs, d);
      (k < i ==> r[k] == docs[k]) && (k > i ==> r[k - 1] == docs[k])
  {
    UpsertAt(docs, d, i);
    RemoveAt(docs, i, k);
  }

  /** The upsert that replaces position `i` removes it and appends. */
  lemma UpsertAt(docs: seq<DocumentInfo>, d: DocumentInfo, i: nat)
    requires FirstIndexOfPath(docs, d.fullPath) == Some(i)
    ensures Upsert(docs, d) == docs[..i] + docs[i + 1..] + [d]
  {
  }

  /** Where the other elements go when position `i` is removed. */
  lemma RemoveAt<T>(s: seq<T>, i: nat, k: nat)
    requires i < |s| && k < |s| && k != i
    ensures |s[..i] + s[i + 1..]| == |s| - 1
    ensures k < i ==> (s[..i] + s[i + 1..])[k] == s[k]
    ensures k > i ==> (s[..i] + s[i + 1..])[k - 1] == s[k]
  {
  }

  /** With distinct full paths the list behaves as a map from path to record:
      after an upsert the path finds the new record and every other path
      finds what it found before. */
  lemma UpsertLookup(docs: seq<DocumentInfo>, d: DocumentInfo, path: string)
    requires UniquePaths(docs)
    ensures Lookup(Upsert(docs, d), path) == if path == d.fullPath then Some(d) else Lookup(docs, path)
  {
    var r := Upsert(docs, d);
    UpsertPreservesUniquePaths(docs, d);
    if path == d.fullPath {
      LookupUnique(r, path, |r| - 1);
    } else if Lookup(docs, path).Some? {
      var k := FirstIndexOfPath(docs, path).value;
      LookupUnique(docs, path, k);
      match FirstIndexOfPath(docs, d.fullPath)
      case None =>
        assert r[k] == docs[k];
        LookupUnique(r, path, k);
      case Some(i) =>
        UpsertPositions(docs, d, i, k);
        LookupUnique(r, path, if k < i then k else k - 1);
    } else {
      assert forall k :: 0 <= k < |r| ==> r[k] in docs || r[k] == d;
    }
  }

  /** Upserting the same path twice leaves one record under it, the later
      one: the result is as if only the second upsert had happened. */
  lemma UpsertTwice(docs: seq<DocumentInfo>, d1: DocumentInfo, d2: DocumentInfo)
    requires UniquePaths(docs) && d1.fullPath == d2.fullPath
    ensures Upsert(Upsert(docs, d1), d2) == Upsert(docs, d2)
  {
    var once := Upsert(docs, d1);
    UpsertPreservesUniquePaths(docs, d1);
    assert FirstIndexOfPath(once, d2.fullPath) == Some(|once| - 1);
    var kept := once[..|once| - 1];
    assert Upsert(once, d2) == kept + [d2];
    match FirstIndexOfPath(docs, d1.fullPath)
    case None =>
      assert once == docs + [d1];
      assert kept == docs;
    case Some(i) =>
      UpsertAt(docs, d1, i);
      UpsertAt(docs, d2, i);
      assert kept == docs[..i] + docs[i + 1..];
  }

  /** `GetAllDocumentsAsync`: every record, whoever asks. */
  function GetAll(docs: seq<DocumentInfo>, owner: string): seq<DocumentInfo> {
    docs
  }

  /** `GetDocumentsByCategory`. */
  function ByCategory(docs: seq<DocumentInfo>, owner: string, c: DocumentCategory): (r: seq<DocumentInfo>)
    ensures forall i :: 0 <= i < |r| ==> r[i].category == c
  {
    Filter(docs, HasCategory(c))
  }

  /** `GetDocumentsByType`. */
  function ByType(docs: seq<DocumentInfo>, owner: string, t: DocumentType): (r: seq<DocumentInfo>)
    ensures forall i :: 0 <= i < |r| ==> r[i].documentType == t
  {
    Filter(docs, HasType(t))
  }

  /** The by-category and by-type queries return, in stored order, exactly
      the records with the requested field. */
  lemma ByFieldSpec(docs: seq<DocumentInfo>, owner: string, c: DocumentCategory, t: DocumentType)
    ensures forall x :: x in ByCategory(docs, owner, c) <==> x in docs && x.category == c
    ensures IsSubsequence(ByCategory(docs, owner, c), docs)
    ensures forall x :: x in ByType(docs, owner, t) <==> x in docs && x.documentType == t
    ensures IsSubsequence(ByType(docs, owner, t), docs)
  {
    FilterSpec(docs, HasCategory(c));
    FilterSpec(docs, HasType(t));
  }

  /** `GetExpiringDocuments`, with `DateTime.Now` passed in as `now`: it
      throws when the cutoff `now + daysAhead` days is not a `DateTime`. */
  function Expiring(docs: seq<DocumentInfo>, owner: string, daysAhead: int, now: Instant)
    : (r: Result<seq<DocumentInfo>>)
    ensures r.Failure? <==> !InDateRange(AddDays(now, daysAhead))
    ensures r.Failure? ==> r.error == ArgumentOutOfRange
    ensures r.Success? ==>
      && SortedBy(r.value, ExpiryKey)
      && multiset(r.value) == multiset(Filter(docs, ExpiresBy(AddDays(now, daysAhead))))
  {
    match AddDaysChecked(now, daysAhead)
    case Failure(e) => Failure(e)
    case Success(cutoff) => Success(SortBy(Filter(docs, ExpiresBy(cutoff)), ExpiryKey))
  }

  /** When the cutoff is a `DateTime`, the expiring query holds exactly the
      records that expire by it, soonest first, and records expiring at the
      same moment stay in stored order. */
  lemma ExpiringSpec(docs: seq<DocumentInfo>, owner: string, daysAhead: int, now: Instant)
    ensures var r := Expiring(docs, owner, daysAhead, now);
      r.Success? ==>
        forall x :: x in r.value <==> x in docs && x.expirationDate.Some? &&
                                      x.expirationDate.value <= AddDays(now, daysAhead)
    ensures var r := Expiring(docs, owner, daysAhead, now);
      r.Success? ==>
        forall k :: (Filter(r.value, HasKey(ExpiryKey, k)) ==
                     Filter(Filter(docs, ExpiresBy(AddDays(now, daysAhead))), HasKey(ExpiryKey, k)))
  {
    var selected := Filter(docs, ExpiresBy(AddDays(now, daysAhead)));
    var r := Expiring(docs, owner, daysAhead, now);
    if r.Success? {
      FilterSpec(docs, ExpiresBy(AddDays(now, daysAhead)));
      assert r.value == SortBy(selected, ExpiryKey);
      forall x ensures x in r.value <==> x in selected {
        assert x in r.value <==> x in multiset(r.value);
        assert x in selected <==> x in multiset(selected);
      }
      forall k ensures Filter(r.value, HasKey(ExpiryKey, k)) == Filter(selected, HasKey(ExpiryKey, k)) {
        SortByStable(selected, ExpiryKey, k);
      }
    }
  }

  /** `SearchDocuments`: the query is folded first, then matched ignoring case. */
  function Search(docs: seq<DocumentInfo>, owner: string, query: string): (r: seq<DocumentInfo>)
    ensures |r| <= |docs|
  {
    Filter(docs, MatchesQuery(Lower(query)))
  }

  /** The search keeps, in stored order, exactly the records in which the
      query occurs ignoring case. */
  lemma SearchSpec(docs: seq<DocumentInfo>, owner: string, query: string)
    ensures forall x :: x in Search(docs, owner, query) <==> x in docs && MatchesQuery(query)(x)
    ensures IsSubsequence(Search(docs, owner, query), docs)
    ensures Search(docs, owner, query) == Filter(docs, MatchesQuery(query))
  {
    forall i | 0 <= i < |docs| ensures MatchesQuery(Lower(query))(docs[i]) == MatchesQuery(query)(docs[i]) {
      MatchesFoldedQuery(query, docs[i]);
    }
    FilterCongruent(docs, MatchesQuery(Lower(query)), MatchesQuery(query));
    FilterSpec(docs, MatchesQuery(query));
  }

  /** The empty query matches every record. */
  lemma SearchEmptyQuery(docs: seq<DocumentInfo>, owner: string)
    ensures Search(docs, owner, "") == docs
  {
    assert Lower("") == "";
    forall i | 0 <= i < |docs| ensures MatchesQuery("")(docs[i]) {
      ContainsEmpty(Lower(docs[i].fileName));
    }
    FilterAll(docs, MatchesQuery(""));
  }

  /** No query of this repository depends on the owner it is given. */
  lemma QueriesIgnoreOwner(docs: seq<DocumentInfo>, o1: string, o2: string,
                           c: DocumentCategory, t: DocumentType, daysAhead: int, now: Instant, query: string)
    ensures GetAll(docs, o1) == GetAll(docs, o2) == docs
    ensures ByCategory(docs, o1, c) == ByCategory(docs, o2, c)
    ensures ByType(docs, o1, t) == ByType(docs, o2, t)
    ensures Expiring(docs, o1, daysAhead, now) == Expiring(docs, o2, daysAhead, now)
    ensures Search(docs, o1, query) == Search(docs, o2, query)
  {
  }

  /** The index file as `LoadIndex` and `SaveChangesAsync` see it. */
  datatype IndexFile =
    | Absent                                   // no file at the index path
    | Unreadable                               // reading or parsing throws
    | Stored(content: Option<seq<DocumentInfo>>)  // parses; `None` for a JSON null

  /** `LoadIndex`: the stored list, or the empty list whenever there is no
      usable list in the file. */
  function LoadIndex(f: IndexFile): (r: seq<DocumentInfo>)
    ensures r != [] ==> f.Stored? && f.content == Some(r)
    ensures f.Stored? && f.content.Some? ==> r == f.content.value
  {
    match f
    case Stored(Some(docs)) => docs
    case _ => []
  }

  /** The repository: the list in memory and the index file on disk. */
  datatype MemoryStore = MemoryStore(documents: seq<DocumentInfo>, index: IndexFile)

  /** How a `File.WriteAllText` of the index ends. The file is opened with
      `FileMode.Create`, which truncates it, so a write that throws after
      opening (disk full, an I/O error) leaves an empty or partial file,
      which no longer parses. */
  datatype WriteOutcome =
    | Written            // the whole text is written
    | OpenFailed         // opening throws; the file is untouched
    | FailedAfterOpen    // throws once the file is created or truncated

  /** The index file a write of `docs` leaves behind, starting from `f`. */
  function WriteIndex(f: IndexFile, docs: seq<DocumentInfo>, w: WriteOutcome): (r: IndexFile)
    ensures LoadIndex(r) == if w.Written? then docs else if w.OpenFailed? then LoadIndex(f) else []
    ensures w.OpenFailed? ==> r == f
  {
    match w
    case Written => Stored(Some(docs))
    case OpenFailed => f
    case FailedAfterOpen => Unreadable
  }

  /** The constructor: load the index; when there is no file, try to create
      one holding the empty list (`create` says how that write ends). The
      list starts empty unless the file held a list. */
  function Open(f: IndexFile, create: WriteOutcome): (r: MemoryStore)
    ensures r.documents == LoadIndex(f)
    ensures f.Absent? && create.Written? ==> r.index == Stored(Some([]))
    ensures !f.Absent? || create.OpenFailed? ==> r.index == f
    ensures LoadIndex(r.index) == r.documents
  {
    if f.Absent? then MemoryStore([], WriteIndex(f, [], create))
    else MemoryStore(LoadIndex(f), f)
  }

  /** `SaveChangesAsync`: write the whole list. A failure is logged and
      swallowed; if it happens after the file was truncated, the index no
      longer holds a list. The list in memory is never changed. */
  function SaveChanges(s: MemoryStore, w: WriteOutcome): (r: MemoryStore)
    ensures r.documents == s.documents
    ensures w.OpenFailed? ==> r == s
    ensures w.FailedAfterOpen? ==> LoadIndex(r.index) == []
  {
    s.(index := WriteIndex(s.index, s.documents, w))
  }

  /** A successful save followed by a fresh load gives back the list. */
  lemma SaveThenOpen(s: MemoryStore, create: WriteOutcome)
    ensures Open(SaveChanges(s, Written).index, create).documents == s.documents
  {
  }

  /** A save that fails after truncating the index loses every record for
      the next start, although the running repository still holds them; a
      save that fails to open keeps what the index held. */
  lemma FailedSaveThenOpen(s: MemoryStore, create: WriteOutcome)
    ensures Open(SaveChanges(s, FailedAfterOpen).index, create).documents == []
    ensures Open(SaveChanges(s, OpenFailed).index, create).documents == Open(s.index, create).documents
    ensures SaveChanges(s, FailedAfterOpen).documents == s.documents
  {
  }
}

=== FILE: models.dfy ===
/** The records and enumerations of the document model: the classified
    document record, its category and type, the requirement a purpose
    resolves to, and the classifier's raw answer. */
module Models {

  import opened Wrappers
  import opened Strings

  /** A `DateTime`, as whole seconds since 0001-01-01T00:00:00 (the value of
      `DateTime.MinValue`). */
  type Instant = int

  const DateTimeMinValue: Instant := 0
  const SecondsPerDay: int := 86400

  /** `DateTime.MaxValue` (9999-12-31T23:59:59), to the second. */
  const DateTimeMaxValue: Instant := 315537897599

  /** The instants a `DateTime` can hold. */
  predicate InDateRange(t: Instant) {
    DateTimeMinValue <= t <= DateTimeMaxValue
  }

  /** The instant `days` whole days after `t`, unchecked. */
  function AddDays(t: Instant, days: int): (r: Instant)
    ensures days >= 0 ==> r >= t
    ensures days < 0 ==> r < t
  {
    t + days * SecondsPerDay
  }

  /** `DateTime.AddDays` for a whole number of days: the shifted instant, or
      `ArgumentOutOfRangeException` when it is not a `DateTime`. */
  function AddDaysChecked(t: Instant, days: int): (r: Result<Instant>)
    ensures r.Success? <==> InDateRange(AddDays(t, days))
    ensures r.Success? ==> r.value == AddDays(t, days) && (r.value - t) % SecondsPerDay == 0
    ensures r.Failure? ==> r.error == ArgumentOutOfRange
  {
    var u := AddDays(t, days);
    if InDateRange(u) then Success(u) else Failure(ArgumentOutOfRange)
  }

  /** Shifting back by the same number of days undoes a successful shift,
      and shifting by no days keeps any `DateTime`. */
  lemma AddDaysRoundTrip(t: Instant, days: int)
    ensures InDateRange(t) ==> AddDaysChecked(t, 0) == Success(t)
    ensures InDateRange(t) && AddDaysChecked(t, days).Success? ==>
      AddDaysChecked(AddDaysChecked(t, days).value, -days) == Success(t)
  {
  }

  /** From any `DateTime`, shifting by more than the whole range of days
      throws. */
  lemma AddDaysOutOfRange(t: Instant, days: int)
    requires InDateRange(t)
    requires days > DateTimeMaxValue / SecondsPerDay || days < -(DateTimeMaxValue / SecondsPerDay) - 1
    ensures AddDaysChecked(t, days) == Failure(ArgumentOutOfRange)
  {
  }

  /** `DocumentCategory`, members in declaration order. */
  datatype DocumentCategory = Identity | Professional | Kids | School | Medical | Other

  /** `DocumentType`, members in declaration order. */
  datatype DocumentType =
    | Passport | DriverLicense | BirthCertificate | Resume | Contract | Certificate
    | Report | Visa | Permit | Photo | Other

  /** The members of `DocumentCategory` in declaration order. */
  const Categories: seq<DocumentCategory> :=
    [Identity, Professional, Kids, School, Medical, DocumentCategory.Other]

  /** The members of `DocumentType` in declaration order. */
  const Types: seq<DocumentType> :=
    [Passport, DriverLicense, BirthCertificate, Resume, Contract, Certificate,
     Report, Visa, Permit, Photo, DocumentType.Other]

  /** The underlying value of a category: its position in the declaration. */
  function CategoryOrdinal(c: DocumentCategory): (r: nat)
    ensures r < |Categories| && Categories[r] == c
  {
    match c
    case Identity => 0
    case Professional => 1
    case Kids => 2
    case School => 3
    case Medical => 4
    case Other => 5
  }

  /** The underlying value of a type: its position in the declaration. */
  function TypeOrdinal(t: DocumentType): (r: nat)
    ensures r < |Types| && Types[r] == t
  {
    match t
    case Passport => 0
    case DriverLicense => 1
    case BirthCertificate => 2
    case Resume => 3
    case Contract => 4
    case Certificate => 5
    case Report => 6
    case Visa => 7
    case Permit => 8
    case Photo => 9
    case Other => 10
  }

  /** Each enumeration lists every member exactly once: six categories and
      eleven types, with `Other` last in both. */
  lemma EnumerationsComplete()
    ensures |Categories| == 6 && |Types| == 11
    ensures forall i, j :: 0 <= i < j < |Categories| ==> Categories[i] != Categories[j]
    ensures forall i, j :: 0 <= i < j < |Types| ==> Types[i] != Types[j]
    ensures forall c: DocumentCategory :: c in Categories
    ensures forall t: DocumentType :: t in Types
    ensures Categories[5] == DocumentCategory.Other && Types[10] == DocumentType.Other
  {
    forall c: DocumentCategory ensures c in Categories {
      assert Categories[CategoryOrdinal(c)] == c;
    }
    forall t: DocumentType ensures t in Types {
      assert Types[TypeOrdinal(t)] == t;
    }
  }

  /** `DocumentCategory.ToString()`. */
  function CategoryName(c: DocumentCategory): string {
    match c
    case Identity => "Identity"
    case Professional => "Professional"
    case Kids => "Kids"
    case School => "School"
    case Medical => "Medical"
    case Other => "Other"
  }

  /** `DocumentType.ToString()`. */
  function TypeName(t: DocumentType): string {
    match t
    case Passport => "Passport"
    case DriverLicense => "DriverLicense"
    case BirthCertificate => "BirthCertificate"
    case Resume => "Resume"
    case Contract => "Contract"
    case Certificate => "Certificate"
    case Report => "Report"
    case Visa => "Visa"
    case Permit => "Permit"
    case Photo => "Photo"
    case Other => "Other"
  }

  /** `Enum.Parse<DocumentCategory>` on member names (case-sensitive); `None`
      where the source throws. */
  function ParseCategory(s: string): (r: Option<DocumentCategory>)
    ensures forall c :: r == Some(c) <==> CategoryName(c) == s
  {
    if s == "Identity" then Some(Identity)
    else if s == "Professional" then Some(Professional)
    else if s == "Kids" then Some(Kids)
    else if s == "School" then Some(School)
    else if s == "Medical" then Some(Medical)
    else if s == "Other" then Some(DocumentCategory.Other)
    else None
  }

  /** `Enum.Parse<DocumentType>` on member names (case-sensitive); `None`
      where the source throws. */
  function ParseType(s: string): (r: Option<DocumentType>)
    ensures forall t :: r == Some(t) <==> TypeName(t) == s
  {
    if s == "Passport" then Some(Passport)
    else if s == "DriverLicense" then Some(DriverLicense)
    else if s == "BirthCertificate" then Some(BirthCertificate)
    else if s == "Resume" then Some(Resume)
    else if s == "Contract" then Some(Contract)
    else if s == "Certificate" then Some(Certificate)
    else if s == "Report" then Some(Report)
    else if s == "Visa" then Some(Visa)
    else if s == "Permit" then Some(Permit)
    else if s == "Photo" then Some(Photo)
    else if s == "Other" then Some(DocumentType.Other)
    else None
  }

  /** No member name is empty or white space, so none equals a null or blank
      filter string. */
  lemma NamesNotBlank(c: DocumentCategory, t: DocumentType)
    ensures |CategoryName(c)| > 0 && !IsBlank(CategoryName(c))
    ensures |TypeName(t)| > 0 && !IsBlank(TypeName(t))
    ensures forall s :: IsNullOrBlank(s) ==> s != Some(CategoryName(c)) && s != Some(TypeName(t))
  {
    assert !IsWhiteSpace(CategoryName(c)[0]);
    assert !IsWhiteSpace(TypeName(t)[0]);
  }

  /** `DocumentInfo`: one classified document. `fullPath` identifies it. */
  datatype DocumentInfo = DocumentInfo(
    owner: string,
    fileName: string,
    fullPath: string,
    category: DocumentCategory,
    documentType: DocumentType,
    expirationDate: Option<Instant>,
    lastModified: Instant,
    summary: Option<string>,
    keywords: seq<string>)

  /** `new DocumentInfo()`: empty strings, the first member of each
      enumeration, `DateTime.MinValue`, no expiry, no summary, no keywords. */
  function DefaultDocumentInfo(): (r: DocumentInfo)
    ensures r.owner == "" && r.fileName == "" && r.fullPath == ""
    ensures CategoryOrdinal(r.category) == 0 && TypeOrdinal(r.documentType) == 0
    ensures r.expirationDate.None? && r.summary.None? && r.keywords == []
    ensures r.lastModified == DateTimeMinValue
  {
    DocumentInfo("", "", "", Identity, Passport, None, DateTimeMinValue, None, [])
  }

  /** `DocumentRequirement`: a search term, what to report when nothing is
      found, and optional category and type filters (as strings). */
  datatype DocumentRequirement = DocumentRequirement(
    searchTerm: string,
    description: string,
    category: Option<string>,
    documentType: Option<string>)

  /** The record's positional constructor with its optional parameters. */
  function Requirement(searchTerm: string, description: string,
                       category: Option<string> := None, documentType: Option<string> := None): (r: DocumentRequirement)
    ensures r.searchTerm == searchTerm && r.description == description
    ensures r.category == category && r.documentType == documentType
  {
    DocumentRequirement(searchTerm, description, category, documentType)
  }

  /** Omitted filters are absent, and requirements with equal fields are
      equal (value semantics of a C# record). */
  lemma RequirementDefaults(term: string, description: string)
    ensures Requirement(term, description).category.None?
    ensures Requirement(term, description).documentType.None?
    ensures Requirement(term, description) == Requirement(term, description, None, None)
  {
  }

  /** `DocumentClassification`: the classifier's answer, enumeration members
      still as strings. */
  datatype DocumentClassification = DocumentClassification(
    owner: string,
    category: string,
    documentType: string,
    expirationDate: Option<Instant>,
    keywords: seq<string>,
    summary: string)
}

=== FILE: paths.dfy ===
/** The three `System.IO.Path` queries the core relies on, with the Unix
    rules: `/` is the only directory separator. */
module Paths {

  import opened Strings

  const Separator: char := '/'
  const Dot: char := '.'

  /** `String.LastIndexOf(char)`: the last position holding `c`, or -1. */
  function LastIndexOf(s: string, c: char): (r: int)
    ensures -1 <= r < |s|
    ensures r == -1 <==> c !in s
    ensures r >= 0 ==> s[r] == c && forall k :: r < k < |s| ==> s[k] != c
    decreases |s|
  {
    if |s| == 0 then -1
    else if s[|s| - 1] == c then |s| - 1
    else
      var r := LastIndexOf(s[..|s| - 1], c);
      assert c in s ==> c in s[..|s| - 1] by {
        if c in s {
          var k :| 0 <= k < |s| && s[k] == c;
          assert s[..|s| - 1][k] == c;
        }
      }
      r
  }

  /** `Path.GetFileName`: what follows the last separator. */
  function FileName(path: string): (r: string)
    ensures Separator !in r
    ensures |r| <= |path| && r == path[|path| - |r|..]
    ensures |r| < |path| ==> path[|path| - |r| - 1] == Separator
  {
    path[LastIndexOf(path, Separator) + 1..]
  }

  /** The extension of a bare file name: from its last dot to the end, or
      empty when the name has no dot or ends with one. */
  function NameExtension(name: string): (r: string)
    ensures r == "" || (|r| >= 2 && r[0] == Dot)
    ensures |r| <= |name| && r == name[|name| - |r|..]
  {
    var i := LastIndexOf(name, Dot);
    if i < 0 || i == |name| - 1 then ""
    else name[i..]
  }

  /** The stem of a bare file name: the name cut at its last dot. */
  function NameStem(name: string): (r: string)
    ensures r <= name
    ensures Dot in name ==> |r| < |name| && name[|r|] == Dot
    ensures Dot !in name ==> r == name
  {
    var i := LastIndexOf(name, Dot);
    if i < 0 then name else name[..i]
  }

  /** `Path.GetExtension`. */
  function Extension(path: string): string {
    NameExtension(FileName(path))
  }

  /** `Path.GetFileNameWithoutExtension`. */
  function FileNameWithoutExtension(path: string): string {
    NameStem(FileName(path))
  }

  /** A file name with an extension is its stem followed by that extension. */
  lemma StemAndExtension(path: string)
    requires Extension(path) != ""
    ensures FileName(path) == FileNameWithoutExtension(path) + Extension(path)
  {
    NameStemAndExtension(FileName(path));
  }

  lemma NameStemAndExtension(name: string)
    requires NameExtension(name) != ""
    ensures name == NameStem(name) + NameExtension(name)
  {
    var i := LastIndexOf(name, Dot);
    assert name == name[..i] + name[i..];
  }

  /** A file name is its own file name, so the other two queries agree on a
      path and on its file name. */
  lemma FileNameOfFileName(path: string)
    ensures FileName(FileName(path)) == FileName(path)
    ensures Extension(FileName(path)) == Extension(path)
    ensures FileNameWithoutExtension(FileName(path)) == FileNameWithoutExtension(path)
  {
    assert LastIndexOf(FileName(path), Separator) == -1;
  }

  /** Folding does not create or destroy dots and separators, so the last one
      is found at the same place. */
  lemma {:induction false} LastIndexOfLower(s: string, c: char)
    requires !('a' <= c <= 'z') && !('A' <= c <= 'Z')
    ensures LastIndexOf(Lower(s), c) == LastIndexOf(s, c)
    decreases |s|
  {
    if |s| > 0 {
      var l := Lower(s);
      assert l[|s| - 1] == LowerChar(s[|s| - 1]);
      assert l[|s| - 1] == c <==> s[|s| - 1] == c;
      LowerSlice(s, 0, |s| - 1);
      assert l[..|l| - 1] == Lower(s[..|s| - 1]);
      LastIndexOfLower(s[..|s| - 1], c);
    }
  }

  /** The file name of a folded path is the folded file name. */
  lemma FileNameLower(path: string)
    ensures FileName(Lower(path)) == Lower(FileName(path))
  {
    LastIndexOfLower(path, Separator);
    LowerSlice(path, LastIndexOf(path, Separator) + 1, |path|);
  }

  /** The extension of a folded name is the folded extension. */
  lemma NameExtensionLower(name: string)
    ensures NameExtension(Lower(name)) == Lower(NameExtension(name))
  {
    LastIndexOfLower(name, Dot);
    var i := LastIndexOf(name, Dot);
    if 0 <= i < |name| - 1 {
      DottedExtensionLower(name, i);
    } else {
      NoExtensionAfterDot(name, i);
      NoExtensionAfterDot(Lower(name), i);
    }
  }

  /** The case of a dot before the last character. */
  lemma DottedExtensionLower(name: string, i: int)
    requires LastIndexOf(name, Dot) == i && LastIndexOf(Lower(name), Dot) == i && 0 <= i < |name| - 1
    ensures NameExtension(Lower(name)) == Lower(NameExtension(name))
  {
    var l := Lower(name);
    var e := NameExtension(name);
    ExtensionAfterDot(name, i);
    ExtensionAfterDot(l, i);
    LowerSlice(name, i, |name|);
    assert Lower(e) == Lower(name[i..]);
  }

  /** The extension runs from the last dot when that dot is not the last
      character ... */
  lemma ExtensionAfterDot(name: string, i: int)
    requires LastIndexOf(name, Dot) == i && 0 <= i < |name| - 1
    ensures NameExtension(name) == name[i..]
  {
  }

  /** ... and is empty otherwise. */
  lemma NoExtensionAfterDot(name: string, i: int)
    requires LastIndexOf(name, Dot) == i && !(0 <= i < |name| - 1)
    ensures NameExtension(name) == ""
  {
  }

  /** The extension of a folded path is the folded extension: extension tests
      may fold the path or the extension alike. */
  lemma ExtensionLower(path: string)
    ensures Extension(Lower(path)) == Lower(Extension(path))
  {
    FileNameLower(path);
    NameExtensionLower(FileName(path));
  }
}

=== FILE: plugin.dfy ===
/** `DocumentAssistantPlugin`: gathering the documents a purpose calls for
    (`GetDocumentsForPurposeAsync`) and scanning a folder into the repository
    (`ScanFolderAsync`). The requirement service, the repository search and
    the classifier are passed in as functions. */
module Plugin {

  import opened Wrappers
  import opened Strings
  import opened Models
  import opened Files
  import opened Sequences
  import opened FileUtils
  import opened Requirements
  import opened Zip
  import opened Repository
  import MemoryRepository
  import Lite = LiteDbRepository

  /** The selectors "category (type) name equals the filter". */
  function CategoryIs(filter: Option<string>): DocumentInfo -> bool {
    (d: DocumentInfo) => Some(CategoryName(d.category)) == filter
  }

  function TypeIs(filter: Option<string>): DocumentInfo -> bool {
    (d: DocumentInfo) => Some(TypeName(d.documentType)) == filter
  }

  /** A null or blank filter equals no member name, so filtering by it
      keeps nothing. */
  lemma BlankFilterKeepsNothing(docs: seq<DocumentInfo>, filter: Option<string>)
    ensures IsNullOrBlank(filter) ==> Filter(docs, CategoryIs(filter)) == [] && Filter(docs, TypeIs(filter)) == []
  {
    if IsNullOrBlank(filter) {
    forall i | 0 <= i < |docs| ensures !CategoryIs(filter)(docs[i]) && !TypeIs(filter)(docs[i]) {
      NamesNotBlank(docs[i].category, docs[i].documentType);
    }
    FilterNone(docs, CategoryIs(filter));
    FilterNone(docs, TypeIs(filter));
    }
  }

  /** The narrowing of the search results as written: each filter is applied
      when it is null or blank. Since no member name is blank, a requirement
      with a missing filter gets nothing, and one with both filters gets the
      search results unfiltered. */
  function NarrowAsWritten(docs: seq<DocumentInfo>, q: DocumentRequirement): (r: seq<DocumentInfo>)
    ensures IsNullOrBlank(q.category) || IsNullOrBlank(q.documentType) ==> r == []
    ensures !IsNullOrBlank(q.category) && !IsNullOrBlank(q.documentType) ==> r == docs
  {
    var byCategory := if IsNullOrBlank(q.category) then Filter(docs, CategoryIs(q.category)) else docs;
    BlankFilterKeepsNothing(docs, q.category);
    BlankFilterKeepsNothing(byCategory, q.documentType);
    if IsNullOrBlank(q.documentType) then Filter(byCategory, TypeIs(q.documentType)) else byCategory
  }

  /** A category filter of no-break spaces counts as blank, so as written it
      empties the candidates. */
  lemma NoBreakSpaceFilterEmpties(docs: seq<DocumentInfo>, q: DocumentRequirement)
    requires q.category == Some("\U{00A0}")
    ensures NarrowAsWritten(docs, q) == []
  {
    assert IsWhiteSpace(q.category.value[0]);
  }

  /** The narrowing as evidently intended: each filter that is given
      applies. */
  function NarrowIntended(docs: seq<DocumentInfo>, q: DocumentRequirement): (r: seq<DocumentInfo>)
    ensures forall d :: d in r <==>
      && d in docs
      && (!IsNullOrBlank(q.category) ==> CategoryIs(q.category)(d))
      && (!IsNullOrBlank(q.documentType) ==> TypeIs(q.documentType)(d))
  {
    var byCategory := if !IsNullOrBlank(q.category) then Filter(docs, CategoryIs(q.category)) else docs;
    FilterSpec(docs, CategoryIs(q.category));
    FilterSpec(byCategory, TypeIs(q.documentType));
    if !IsNullOrBlank(q.documentType) then Filter(byCategory, TypeIs(q.documentType)) else byCategory
  }

  /** `OrderByDescending(d => d.LastModified).First()`, by position: the
      first of the latest-modified documents. */
  function MostRecentIndex(docs: seq<DocumentInfo>): (k: nat)
    requires docs != []
    ensures k < |docs|
    ensures forall i :: 0 <= i < |docs| ==> docs[i].lastModified <= docs[k].lastModified
    ensures forall i :: 0 <= i < k ==> docs[i].lastModified < docs[k].lastModified
    decreases |docs|
  {
    if |docs| == 1 then 0
    else
      var k := MostRecentIndex(docs[..|docs| - 1]);
      if docs[|docs| - 1].lastModified > docs[k].lastModified then |docs| - 1 else k
  }

  function MostRecent(docs: seq<DocumentInfo>): DocumentInfo
    requires docs != []
  {
    docs[MostRecentIndex(docs)]
  }

  /** The ordering key of `OrderByDescending(d => d.LastModified)`. */
  function NewestFirst(d: DocumentInfo): int {
    -d.lastModified
  }

  /** The most recent document is what a stable descending sort by
      modification time puts first. */
  lemma MostRecentIsFirstOfOrdering(docs: seq<DocumentInfo>)
    requires docs != []
    ensures SortBy(docs, NewestFirst)[0] == MostRecent(docs)
  {
    var s := SortBy(docs, NewestFirst);
    var m := MostRecentIndex(docs);
    var key := NewestFirst(docs[m]);
    SortedHeadKey(docs, s, m);
    SortByStable(docs, NewestFirst, key);
    FilterHead(s, HasKey(NewestFirst, key), 0);
    FilterHead(docs, HasKey(NewestFirst, key), m);
  }

  /** A newest-first ordering of `docs` starts with a document exactly as
      recent as the most recent one, `docs[m]`. */
  lemma SortedHeadKey(docs: seq<DocumentInfo>, s: seq<DocumentInfo>, m: nat)
    requires m < |docs| && multiset(s) == multiset(docs) && SortedBy(s, NewestFirst)
    requires forall i :: 0 <= i < |docs| ==> docs[i].lastModified <= docs[m].lastModified
    ensures s != [] && NewestFirst(s[0]) == NewestFirst(docs[m])
  {
    assert docs[m] in multiset(s);
    var j :| 0 <= j < |s| && s[j] == docs[m];
    assert s[0] in multiset(docs);
    var i :| 0 <= i < |docs| && docs[i] == s[0];
  }

  /** The outcome of the matching loop: the documents found, one per met
      requirement, and the descriptions of the unmet ones. */
  datatype Matching = Matching(found: seq<DocumentInfo>, missing: seq<string>)

  /** The matching loop over `reqs`, with `candidates` giving the narrowed
      search results for a requirement. */
  function Collect(reqs: seq<DocumentRequirement>, candidates: DocumentRequirement -> seq<DocumentInfo>)
    : (r: Matching)
    ensures |r.found| + |r.missing| == |reqs|
    decreases |reqs|
  {
    if reqs == [] then Matching([], [])
    else
      var rest := Collect(reqs[1..], candidates);
      var docs := candidates(reqs[0]);
      if docs != [] then Matching([MostRecent(docs)] + rest.found, rest.missing)
      else Matching(rest.found, [reqs[0].description] + rest.missing)
  }

  /** The selectors "some candidate" and "no candidate". */
  function Met(candidates: DocumentRequirement -> seq<DocumentInfo>): DocumentRequirement -> bool {
    (q: DocumentRequirement) => candidates(q) != []
  }

  function Unmet(candidates: DocumentRequirement -> seq<DocumentInfo>): DocumentRequirement -> bool {
    (q: DocumentRequirement) => candidates(q) == []
  }

  /** The descriptions of a list of requirements. */
  function Descriptions(reqs: seq<DocumentRequirement>): (r: seq<string>)
    ensures |r| == |reqs| && forall i :: 0 <= i < |r| ==> r[i] == reqs[i].description
  {
    seq(|reqs|, i requires 0 <= i < |reqs| => reqs[i].description)
  }

  /** The loop reports, in requirement order, the descriptions of exactly
      the requirements without candidates, and for every other requirement
      its most recent candidate. */
  lemma CollectSpec(reqs: seq<DocumentRequirement>, candidates: DocumentRequirement -> seq<DocumentInfo>)
    ensures Collect(reqs, candidates).missing == Descriptions(Filter(reqs, Unmet(candidates)))
    ensures var met := Filter(reqs, Met(candidates));
      |Collect(reqs, candidates).found| == |met| &&
      forall i :: 0 <= i < |met| ==> Collect(reqs, candidates).found[i] == MostRecent(candidates(met[i]))
  {
    CollectMissing(reqs, candidates);
    CollectFound(reqs, candidates);
  }

  /** The missing half of `CollectSpec`. */
  lemma {:induction false} CollectMissing(reqs: seq<DocumentRequirement>, candidates: DocumentRequirement -> seq<DocumentInfo>)
    ensures Collect(reqs, candidates).missing == Descriptions(Filter(reqs, Unmet(candidates)))
    decreases |reqs|
  {
    if reqs != [] {
      CollectMissing(reqs[1..], candidates);
      var rest := Filter(reqs[1..], Unmet(candidates));
      if Unmet(candidates)(reqs[0]) {
        DescriptionsCons(reqs[0], rest);
      }
    }
  }

  /** The descriptions of a list with a first element. */
  lemma DescriptionsCons(q: DocumentRequirement, rest: seq<DocumentRequirement>)
    ensures Descriptions([q] + rest) == [q.description] + Descriptions(rest)
  {
  }

  /** The found half of `CollectSpec`. */
  lemma {:induction false} CollectFound(reqs: seq<DocumentRequirement>, candidates: DocumentRequirement -> seq<DocumentInfo>)
    ensures var met := Filter(reqs, Met(candidates));
      |Collect(reqs, candidates).found| == |met| &&
      forall i :: 0 <= i < |met| ==> Collect(reqs, candidates).found[i] == MostRecent(candidates(met[i]))
    decreases |reqs|
  {
    if reqs != [] {
      CollectFound(reqs[1..], candidates);
    }
  }

  /** The candidates of a requirement in `GetDocumentsForPurposeAsync`:
      the owner's search results for its term, narrowed as written. */
  function CandidatesAsWritten(search: string -> seq<DocumentInfo>): DocumentRequirement -> seq<DocumentInfo> {
    (q: DocumentRequirement) => NarrowAsWritten(search(q.searchTerm), q)
  }

  /** ... and narrowed as intended. */
  function CandidatesIntended(search: string -> seq<DocumentInfo>): DocumentRequirement -> seq<DocumentInfo> {
    (q: DocumentRequirement) => NarrowIntended(search(q.searchTerm), q)
  }

  /** What `GetDocumentsForPurposeAsync` does: the requirements it asked
      for, the matching, and, when something was found, the archive made or
      the exception that making it threw (the call then throws it on). */
  datatype PurposeOutcome = PurposeOutcome(
    requirements: seq<DocumentRequirement>,
    matching: Matching,
    archive: Option<Result<seq<ZipEntry>>>,
    fs: FileSystem)

  /** `GetDocumentsForPurposeAsync(owner, purpose, zipPath)`, with the
      requirement service as `requirementsOf(owner, purpose)`, the
      repository search for this owner as `search`, and the clock as `now`. */
  function DocumentsForPurpose(fs: FileSystem, owner: string, purpose: string, zipPath: string, now: Instant,
                               requirementsOf: (string, string) -> seq<DocumentRequirement>,
                               search: string -> seq<DocumentInfo>): (r: PurposeOutcome)
    ensures r.requirements == requirementsOf(owner, Lower(purpose))
    ensures |r.matching.found| + |r.matching.missing| == |r.requirements|
    ensures r.archive.Some? <==> r.matching.found != []
    ensures r.archive.None? ==> r.fs == fs
    ensures r.archive.Some? ==> (r.archive.value.Success? <==> FileExists(r.fs, zipPath))
    ensures r.archive.Some? ==> (r.archive.value.Failure? <==>
      exists d :: d in r.matching.found && d.fullPath != zipPath && Unreadable(fs)(d))
    ensures r.archive.Some? && r.archive.value.Failure? ==> r.archive.value.error == IOError
  {
    var reqs := requirementsOf(owner, Lower(purpose));
    var m := Collect(reqs, CandidatesAsWritten(search));
    if m.found != [] then
      var z := CreateZipAsWritten(fs, m.found, zipPath, now);
      AsWrittenPacksPresentFiles(fs, m.found, zipPath, now);
      PurposeOutcome(reqs, m, Some(z.archive), z.fs)
    else
      PurposeOutcome(reqs, m, None, fs)
  }

  /** `GetDocumentsForPurposeAsync` with both corrections in place: each
      given filter narrows the candidates, and the archive names its entries
      with `GetSafeEntryName`. It writes the same archive file as the code
      as written would for the same documents found. */
  method DocumentsForPurposeCorrected(fs: FileSystem, owner: string, purpose: string, zipPath: string, now: Instant,
                                      requirementsOf: (string, string) -> seq<DocumentRequirement>,
                                      search: string -> seq<DocumentInfo>)
    returns (r: PurposeOutcome)
    ensures r.requirements == requirementsOf(owner, Lower(purpose))
    ensures r.matching.missing == Descriptions(Filter(r.requirements, Unmet(CandidatesIntended(search))))
    ensures var met := Filter(r.requirements, Met(CandidatesIntended(search)));
      |r.matching.found| == |met| &&
      forall i :: 0 <= i < |met| ==>
        && r.matching.found[i] in search(met[i].searchTerm)
        && (!IsNullOrBlank(met[i].category) ==> CategoryIs(met[i].category)(r.matching.found[i]))
        && (!IsNullOrBlank(met[i].documentType) ==> TypeIs(met[i].documentType)(r.matching.found[i]))
    ensures r.archive.Some? <==> r.matching.found != []
    ensures r.archive.None? ==> r.fs == fs
    ensures r.archive.Some? ==> r.fs == CreateZipAsWritten(fs, r.matching.found, zipPath, now).fs
    ensures r.archive.Some? ==> (r.archive.value.Success? <==> FileExists(r.fs, zipPath))
    ensures r.archive.Some? ==> (r.archive.value.Failure? <==>
      exists d :: d in r.matching.found && d.fullPath != zipPath && Unreadable(fs)(d))
    ensures r.archive.Some? && r.archive.value.Success? ==>
      var entries := r.archive.value.value;
      forall i, j :: 0 <= i < j < |entries| ==> entries[i].name != entries[j].name
  {
    var reqs := requirementsOf(owner, Lower(purpose));
    var m := Collect(reqs, CandidatesIntended(search));
    CollectSpec(reqs, CandidatesIntended(search));
    IntendedFoundRespectsFilters(reqs, search);
    if m.found != [] {
      var z := CreateZipSafe(fs, m.found, zipPath, now);
      AsWrittenPacksPresentFiles(fs, m.found, zipPath, now);
      r := PurposeOutcome(reqs, m, Some(z.archive), z.fs);
    } else {
      r := PurposeOutcome(reqs, m, None, fs);
    }
  }

  /** The purpose is folded before anything looks at it, so its letter case
      never matters. */
  lemma PurposeCaseIgnored(fs: FileSystem, owner: string, purpose: string, zipPath: string, now: Instant,
                           requirementsOf: (string, string) -> seq<DocumentRequirement>,
                           search: string -> seq<DocumentInfo>)
    ensures DocumentsForPurpose(fs, owner, Lower(purpose), zipPath, now, requirementsOf, search) ==
            DocumentsForPurpose(fs, owner, purpose, zipPath, now, requirementsOf, search)
  {
    LowerIdempotent(purpose);
  }

  /** As written, a requirement is met exactly when both of its filters are
      given and its search finds something, and the document found for it
      is the most recent search result whatever its category and type. */
  lemma AsWrittenNetEffect(search: string -> seq<DocumentInfo>, q: DocumentRequirement)
    ensures Met(CandidatesAsWritten(search))(q) <==>
      !IsNullOrBlank(q.category) && !IsNullOrBlank(q.documentType) && search(q.searchTerm) != []
    ensures Met(CandidatesAsWritten(search))(q) ==> CandidatesAsWritten(search)(q) == search(q.searchTerm)
  {
    assert CandidatesAsWritten(search)(q) == NarrowAsWritten(search(q.searchTerm), q);
  }

  /** A requirement without candidates is reported missing. */
  lemma {:induction false} UnmetIsMissing(reqs: seq<DocumentRequirement>,
                                          candidates: DocumentRequirement -> seq<DocumentInfo>, q: DocumentRequirement)
    requires q in reqs && candidates(q) == []
    ensures q.description in Collect(reqs, candidates).missing
    decreases |reqs|
  {
    if reqs[0] != q {
      assert q in reqs[1..];
      UnmetIsMissing(reqs[1..], candidates, q);
    }
  }

  /** As written, every requirement without a type filter is reported
      missing, whatever the repository holds. */
  lemma UntypedRequirementsMissing(reqs: seq<DocumentRequirement>, search: string -> seq<DocumentInfo>,
                                   q: DocumentRequirement)
    requires q in reqs && IsNullOrBlank(q.documentType)
    ensures q.description in Collect(reqs, CandidatesAsWritten(search)).missing
  {
    UnmetIsMissing(reqs, CandidatesAsWritten(search), q);
  }

  /** So a passport purpose always reports the passport photo missing. */
  lemma PassportPhotoAlwaysMissing(purpose: string, search: string -> seq<DocumentInfo>)
    requires Contains(purpose, "passport")
    ensures "Passport photo" in Collect(DefaultRequirements(purpose), CandidatesAsWritten(search)).missing
  {
    PassportListIffMentioned(purpose);
    UntypedRequirementsMissing(PassportRequirements, search, PassportRequirements[2]);
  }

  /** The static requirements reach the switch with the purpose folded, so
      "Renew PASSPORT" asks for the passport list. */
  lemma StaticRequirementsSeeFoldedPurpose(fs: FileSystem, owner: string, purpose: string, zipPath: string,
                                           now: Instant, search: string -> seq<DocumentInfo>)
    ensures
      var service := (o: string, p: string) => RequiredDocuments(NoCustomRequirements, o, p);
      DocumentsForPurpose(fs, owner, purpose, zipPath, now, service, search).requirements ==
      DefaultRequirements(Lower(purpose))
  {
  }

  /** The narrowing as written keeps a document of the wrong category and
      drops one that satisfies a category-only requirement; the intended
      narrowing does the opposite. */
  lemma AsWrittenNarrowingInverted(d: DocumentInfo, typed: DocumentRequirement, untyped: DocumentRequirement)
    requires d.category == Medical && d.documentType == Passport
    requires typed == Typed("passport", "Current passport", Identity, Passport)
    requires untyped == Untyped("medical", "Medical record", Medical)
    ensures NarrowAsWritten([d], typed) == [d] && NarrowIntended([d], typed) == []
    ensures NarrowAsWritten([d], untyped) == [] && NarrowIntended([d], untyped) == [d]
  {
    assert !IsBlank(CategoryName(Identity)) by { assert !IsWhiteSpace(CategoryName(Identity)[0]); }
    assert !IsBlank(TypeName(Passport)) by { assert !IsWhiteSpace(TypeName(Passport)[0]); }
    assert !IsBlank(CategoryName(Medical)) by { assert !IsWhiteSpace(CategoryName(Medical)[0]); }
    assert CategoryName(Medical) != CategoryName(Identity) by { assert CategoryName(Medical)[0] != CategoryName(Identity)[0]; }
    assert d !in NarrowIntended([d], typed);
    assert d in NarrowIntended([d], untyped);
  }

  /** With the intended narrowing, every document found satisfies the
      filters of the requirement it was found for. */
  lemma IntendedFoundRespectsFilters(reqs: seq<DocumentRequirement>, search: string -> seq<DocumentInfo>)
    ensures var met := Filter(reqs, Met(CandidatesIntended(search)));
      var found := Collect(reqs, CandidatesIntended(search)).found;
      |found| == |met| &&
      forall i :: 0 <= i < |met| ==>
        && found[i] in search(met[i].searchTerm)
        && (!IsNullOrBlank(met[i].category) ==> CategoryIs(met[i].category)(found[i]))
        && (!IsNullOrBlank(met[i].documentType) ==> TypeIs(met[i].documentType)(found[i]))
  {
    var met := Filter(reqs, Met(CandidatesIntended(search)));
    CollectSpec(reqs, CandidatesIntended(search));
    forall i | 0 <= i < |met|
      ensures Collect(reqs, CandidatesIntended(search)).found[i] in CandidatesIntended(search)(met[i])
    {
      var c := CandidatesIntended(search)(met[i]);
      assert c != [];
      assert MostRecent(c) in c;
    }
  }

  /** The selector "the classifier returns a record for the file". */
  function Classifies(classify: string -> Result<DocumentInfo>): string -> bool {
    (f: string) => classify(f).Success?
  }

  /** The state the scanning loop carries: the repository and the count. */
  datatype Progress = Progress(repo: Repository, processed: nat)

  /** The loop of `ScanFolderAsync`: classify each file in turn and upsert
      the record; a file whose classification throws is skipped. */
  function ProcessFiles(files: seq<string>, repo: Repository, classify: string -> Result<DocumentInfo>)
    : (r: Progress)
    ensures r.processed == |Filter(files, Classifies(classify))|
    ensures Valid(repo) ==> Valid(r.repo)
    decreases |files|
  {
    if files == [] then Progress(repo, 0)
    else
      match classify(files[0])
      case Failure(_) => ProcessFiles(files[1..], repo, classify)
      case Success(d) =>
        var r := ProcessFiles(files[1..], Upsert(repo, d), classify);
        Progress(r.repo, r.processed + 1)
  }

  /** The selector for `FileUtils.IsDocumentFile`. */
  function DocumentFile(): string -> bool {
    (f: string) => IsDocumentFile(f)
  }

  /** What `ScanFolderAsync` leaves: its message, the repository, and the
      two counts the message reports. */
  datatype ScanOutcome = ScanOutcome(message: string, repo: Repository, processed: nat, total: nat)

  /** `ScanFolderAsync(folder)`, with what `Directory.GetFiles` gives for
      the folder as `listing` (it depends on `recursive`; a `Failure` when
      listing throws, say for an unreadable subfolder), the classifier as
      `classify`, and `w` saying how saving the index ends. A listing
      that throws ends the scan before anything is classified or saved. */
  function ScanFolder(fs: FileSystem, repo: Repository, classify: string -> Result<DocumentInfo>,
                      folder: string, listing: Result<seq<string>>, w: MemoryRepository.WriteOutcome): (r: Result<ScanOutcome>)
    ensures r.Failure? <==> DirectoryExists(fs, folder) && listing.Failure?
    ensures r.Failure? ==> r.error == listing.error
    ensures !DirectoryExists(fs, folder) ==>
      r.value.message == "Folder not found: " + folder && r.value.repo == repo && r.value.processed == 0
    ensures DirectoryExists(fs, folder) && listing.Success? ==>
      && r.value.total == |Filter(listing.value, DocumentFile())|
      && r.value.processed <= r.value.total
      && r.value.message == "Processed " + NatToString(r.value.processed) + " out of " +
                            NatToString(r.value.total) + " files in " + folder
    ensures r.Success? && Valid(repo) ==> Valid(r.value.repo)
  {
    if !DirectoryExists(fs, folder) then Success(ScanOutcome("Folder not found: " + folder, repo, 0, 0))
    else if listing.Failure? then Failure(listing.error)
    else
      var files := Filter(listing.value, DocumentFile());
      var p := ProcessFiles(files, repo, classify);
      var saved := SaveChanges(p.repo, w);
      Success(ScanOutcome("Processed " + NatToString(p.processed) + " out of " + NatToString(|files|) +
                          " files in " + folder, saved, p.processed, |files|))
  }

  /** When every document file classifies, every one is counted. */
  lemma ScanProcessesAll(fs: FileSystem, repo: Repository, classify: string -> Result<DocumentInfo>,
                         folder: string, listing: seq<string>, w: MemoryRepository.WriteOutcome)
    requires DirectoryExists(fs, folder)
    requires forall f :: f in listing && IsDocumentFile(f) ==> classify(f).Success?
    ensures var r := ScanFolder(fs, repo, classify, folder, Success(listing), w);
      r.Success? && r.value.processed == r.value.total
  {
    var files := Filter(listing, DocumentFile());
    AllDocumentFilesClassify(listing, classify);
    assert ScanFolder(fs, repo, classify, folder, Success(listing), w).value.processed ==
           ProcessFiles(files, repo, classify).processed;
  }

  /** Every listed document file classifies, so all of them are selected. */
  lemma AllDocumentFilesClassify(listing: seq<string>, classify: string -> Result<DocumentInfo>)
    requires forall f :: f in listing && IsDocumentFile(f) ==> classify(f).Success?
    ensures var files := Filter(listing, DocumentFile());
      Filter(files, Classifies(classify)) == files
  {
    var files := Filter(listing, DocumentFile());
    FilterSpec(listing, DocumentFile());
    forall i | 0 <= i < |files| ensures Classifies(classify)(files[i]) {
      assert files[i] in files;
    }
    FilterAll(files, Classifies(classify));
  }

  /** A record already held under a path no later file is classified to
      survives the rest of the loop. */
  lemma {:induction false} ProcessKeeps(files: seq<string>, repo: Repository, classify: string -> Result<DocumentInfo>,
                                        x: DocumentInfo)
    requires Valid(repo) && x in Records(repo)
    requires forall f :: f in files && classify(f).Success? ==>
      Lite.Key(classify(f).value.fullPath) != Lite.Key(x.fullPath)
    ensures x in Records(ProcessFiles(files, repo, classify).repo)
    decreases |files|
  {
    if files != [] {
      assert files[0] in files;
      assert forall f :: f in files[1..] ==> f in files;
      match classify(files[0])
      case Failure(_) =>
        ProcessKeeps(files[1..], repo, classify, x);
      case Success(d) =>
        UpsertRecords(repo, d);
        ProcessKeeps(files[1..], Upsert(repo, d), classify, x);
    }
  }

  /** With a classifier that files each record under its own path and a
      listing in which no two paths are equal ignoring case, every file that
      classifies ends up in the repository with its record. */
  lemma {:induction false} ProcessStoresEveryRecord(files: seq<string>, repo: Repository,
                                                    classify: string -> Result<DocumentInfo>)
    requires Valid(repo)
    requires forall f :: classify(f).Success? ==> classify(f).value.fullPath == f
    requires forall i, j :: 0 <= i < j < |files| ==> Lite.Key(files[i]) != Lite.Key(files[j])
    ensures forall f :: f in files && classify(f).Success? ==>
      classify(f).value in Records(ProcessFiles(files, repo, classify).repo)
    decreases |files|
  {
    if files != [] {
      var rest := files[1..];
      assert forall i, j :: 0 <= i < j < |rest| ==> Lite.Key(rest[i]) != Lite.Key(rest[j]) by {
        forall i, j | 0 <= i < j < |rest| ensures Lite.Key(rest[i]) != Lite.Key(rest[j]) {
          assert rest[i] == files[i + 1] && rest[j] == files[j + 1];
        }
      }
      assert forall f :: f in rest ==> Lite.Key(f) != Lite.Key(files[0]) by {
        forall f | f in rest ensures Lite.Key(f) != Lite.Key(files[0]) {
          var j :| 0 <= j < |rest| && rest[j] == f;
          assert rest[j] == files[j + 1];
        }
      }
      match classify(files[0])
      case Failure(_) =>
        ProcessStoresEveryRecord(rest, repo, classify);
      case Success(d) =>
        UpsertRecords(repo, d);
        ProcessStoresEveryRecord(rest, Upsert(repo, d), classify);
        ProcessKeeps(rest, Upsert(repo, d), classify, d);
    }
  }
}

=== FILE: queries.dfy ===
/** The record selectors shared by both document repositories: the
    predicates inside their `Where`/`Find` calls and the ordering key of the
    expiring query. */
module Queries {

  import opened Strings
  import opened Models

  /** The selector "of category `c`". */
  function HasCategory(c: DocumentCategory): DocumentInfo -> bool {
    (d: DocumentInfo) => d.category == c
  }

  /** The selector "of type `t`". */
  function HasType(t: DocumentType): DocumentInfo -> bool {
    (d: DocumentInfo) => d.documentType == t
  }

  /** The selector "has an expiration date no later than `cutoff`". */
  function ExpiresBy(cutoff: Instant): DocumentInfo -> bool {
    (d: DocumentInfo) => d.expirationDate.Some? && d.expirationDate.value <= cutoff
  }

  /** The ordering key of the expiring query; records without a date never
      reach the ordering. */
  function ExpiryKey(d: DocumentInfo): int {
    if d.expirationDate.Some? then d.expirationDate.value else DateTimeMinValue
  }

  /** Some keyword contains `q`, ignoring case. */
  predicate KeywordHit(keywords: seq<string>, q: string) {
    exists k | k in keywords :: ContainsIgnoreCase(k, q)
  }

  /** The selector of `SearchDocuments`: `q` occurs, ignoring case, in the
      file name, in a present summary or in some keyword. */
  function MatchesQuery(q: string): DocumentInfo -> bool {
    (d: DocumentInfo) => ContainsIgnoreCase(d.fileName, q) ||
     (d.summary.Some? && ContainsIgnoreCase(d.summary.value, q)) ||
     KeywordHit(d.keywords, q)
  }

  /** Folding the query first makes no difference to the selection. */
  lemma MatchesFoldedQuery(q: string, d: DocumentInfo)
    ensures MatchesQuery(Lower(q))(d) == MatchesQuery(q)(d)
  {
    ContainsIgnoreCaseFoldedNeedle(d.fileName, q);
    if d.summary.Some? {
      ContainsIgnoreCaseFoldedNeedle(d.summary.value, q);
    }
    forall k | k in d.keywords ensures ContainsIgnoreCase(k, Lower(q)) == ContainsIgnoreCase(k, q) {
      ContainsIgnoreCaseFoldedNeedle(k, q);
    }
  }
}

=== FILE: registry.dfy ===
/** `DocumentContentExtractor`: the dispatch table built once from the
    registered extractors, and the fixed chain that turns a path into text. */
module Registry {

  import opened Wrappers
  import opened Strings
  import opened Paths
  import opened Files
  import opened Extraction

  /** The folded forms of a list of declared extensions. */
  function Folded(exts: seq<string>): set<string> {
    set x | x in exts :: Lower(x)
  }

  /** The table keys an extractor competes for. */
  function Claims(e: Extractor): set<string> {
    Folded(e.supportedExtensions)
  }

  /** Some registered extractor claims `x`. */
  ghost predicate Declared(es: seq<Extractor>, x: string) {
    exists i :: 0 <= i < |es| && x in Claims(es[i])
  }

  /** Extractor `i` is visited before extractor `j` by the stable descending
      order on priority: higher priority first, registration order on ties. */
  predicate Precedes(es: seq<Extractor>, i: nat, j: nat) {
    i < |es| && j < |es| &&
    (es[i].priority > es[j].priority || (es[i].priority == es[j].priority && i < j))
  }

  /** `o` lists registration indices, each strictly before the next. */
  ghost predicate InPriorityOrder(es: seq<Extractor>, o: seq<nat>) {
    && (forall k :: 0 <= k < |o| ==> o[k] < |es|)
    && (forall a, b :: 0 <= a < b < |o| ==> Precedes(es, o[a], o[b]))
  }

  /** Inserts index `i` into an ordered list of indices. */
  function InsertByPriority(es: seq<Extractor>, o: seq<nat>, i: nat): (r: seq<nat>)
    requires i < |es| && i !in o && InPriorityOrder(es, o)
    ensures InPriorityOrder(es, r)
    ensures forall j: nat :: j in r <==> j in o || j == i
    ensures |r| == |o| + 1
    decreases |o|
  {
    if o == [] || Precedes(es, i, o[0]) then [i] + o
    else
      assert o == [o[0]] + o[1..];
      var rest := InsertByPriority(es, o[1..], i);
      assert Precedes(es, o[0], i);
      assert forall k :: 0 <= k < |rest| ==> Precedes(es, o[0], rest[k]) by {
        forall k | 0 <= k < |rest| ensures Precedes(es, o[0], rest[k]) {
          assert rest[k] in rest;
          if rest[k] != i {
            var m :| 0 <= m < |o[1..]| && o[1..][m] == rest[k];
            assert o[m + 1] == rest[k];
          }
        }
      }
      [o[0]] + rest
  }

  /** `extractors.OrderByDescending(e => e.Priority)` over the first `n`
      registered extractors, as registration indices. */
  function PriorityOrder(es: seq<Extractor>, n: nat): (r: seq<nat>)
    requires n <= |es|
    ensures InPriorityOrder(es, r)
    ensures forall j: nat :: j in r <==> j < n
    ensures |r| == n
  {
    if n == 0 then [] else InsertByPriority(es, PriorityOrder(es, n - 1), n - 1)
  }

  /** The inner loop of the constructor: extractor `i` claims each of `exts`
      (folded) that is not yet a key. */
  function ClaimExtensions(exts: seq<string>, i: nat, t: map<string, nat>): (r: map<string, nat>)
    ensures forall x :: x in r <==> x in t || x in Folded(exts)
    ensures forall x :: x in t ==> r[x] == t[x]
    ensures forall x :: x in r && x !in t ==> r[x] == i
    decreases |exts|
  {
    if exts == [] then t
    else
      var x := Lower(exts[0]);
      assert Folded(exts) == {x} + Folded(exts[1..]) by {
        assert exts == [exts[0]] + exts[1..];
      }
      ClaimExtensions(exts[1..], i, if x in t then t else t[x := i])
  }

  /** Extractor `i` is the first one in `o` claiming `x`. */
  ghost predicate FirstClaimant(es: seq<Extractor>, o: seq<nat>, x: string, i: nat)
    requires forall k :: 0 <= k < |o| ==> o[k] < |es|
  {
    exists k :: 0 <= k < |o| && o[k] == i && x in Claims(es[i]) &&
      forall m :: 0 <= m < k ==> x !in Claims(es[o[m]])
  }

  /** An extractor at the head of the order that claims `x` is its first
      claimant. */
  lemma FirstClaimantHead(es: seq<Extractor>, o: seq<nat>, x: string)
    requires |o| > 0 && forall k :: 0 <= k < |o| ==> o[k] < |es|
    requires x in Claims(es[o[0]])
    ensures FirstClaimant(es, o, x, o[0])
  {
  }

  /** When the head of the order does not claim `x`, the first claimant in
      the rest of the order is the first claimant overall. */
  lemma FirstClaimantTail(es: seq<Extractor>, o: seq<nat>, x: string, i: nat)
    requires |o| > 0 && forall k :: 0 <= k < |o| ==> o[k] < |es|
    requires x !in Claims(es[o[0]]) && FirstClaimant(es, o[1..], x, i)
    ensures FirstClaimant(es, o, x, i)
  {
    var k :| 0 <= k < |o[1..]| && o[1..][k] == i && x in Claims(es[i]) &&
      forall m :: 0 <= m < k ==> x !in Claims(es[o[1..][m]]);
    assert o[k + 1] == i;
    forall m | 0 <= m < k + 1 ensures x !in Claims(es[o[m]]) {
      if m > 0 {
        assert o[m] == o[1..][m - 1];
      }
    }
  }

  /** Some extractor of the order claims `x` exactly when the head or some
      extractor of the rest does. */
  lemma ClaimedInOrder(es: seq<Extractor>, o: seq<nat>, x: string)
    requires |o| > 0 && forall k :: 0 <= k < |o| ==> o[k] < |es|
    ensures (exists k :: 0 <= k < |o| && x in Claims(es[o[k]])) <==>
      x in Claims(es[o[0]]) || exists k :: 0 <= k < |o[1..]| && x in Claims(es[o[1..][k]])
  {
    if exists k :: 0 <= k < |o| && x in Claims(es[o[k]]) {
      var k :| 0 <= k < |o| && x in Claims(es[o[k]]);
      if k > 0 {
        assert o[1..][k - 1] == o[k];
      }
    }
    if exists k :: 0 <= k < |o[1..]| && x in Claims(es[o[1..][k]]) {
      var k :| 0 <= k < |o[1..]| && x in Claims(es[o[1..][k]]);
      assert o[k + 1] == o[1..][k];
    }
  }

  /** The outer loop of the constructor: visit the extractors in the order
      `o`, the first claim on each extension winning. */
  function ClaimAll(es: seq<Extractor>, o: seq<nat>, t: map<string, nat>): (r: map<string, nat>)
    requires forall k :: 0 <= k < |o| ==> o[k] < |es|
    ensures forall x :: x in r <==> x in t || exists k :: 0 <= k < |o| && x in Claims(es[o[k]])
    ensures forall x :: x in t ==> r[x] == t[x]
    ensures forall x :: x in r && x !in t ==> FirstClaimant(es, o, x, r[x])
    decreases |o|
  {
    if o == [] then t
    else
      var t' := ClaimExtensions(es[o[0]].supportedExtensions, o[0], t);
      var r := ClaimAll(es, o[1..], t');
      assert forall x :: x in r && x !in t ==> FirstClaimant(es, o, x, r[x]) by {
        forall x | x in r && x !in t ensures FirstClaimant(es, o, x, r[x]) {
          if x in t' {
            FirstClaimantHead(es, o, x);
          } else {
            FirstClaimantTail(es, o, x, r[x]);
          }
        }
      }
      assert forall x :: x in r <==> x in t || exists k :: 0 <= k < |o| && x in Claims(es[o[k]]) by {
        forall x ensures x in r <==> x in t || exists k :: 0 <= k < |o| && x in Claims(es[o[k]]) {
          ClaimedInOrder(es, o, x);
        }
      }
      r
  }

  /** Reference definition of the table entry for `x`: extractor `i` claims
      `x`, no claimant has a higher priority, and no claimant of equal
      priority was registered earlier. */
  ghost predicate IsWinner(es: seq<Extractor>, x: string, i: nat) {
    i < |es| && x in Claims(es[i]) &&
    forall j :: 0 <= j < |es| && x in Claims(es[j]) ==>
      es[j].priority < es[i].priority || (es[j].priority == es[i].priority && i <= j)
  }

  /** At most one extractor wins an extension. */
  lemma WinnerUnique(es: seq<Extractor>, x: string, i: nat, j: nat)
    requires IsWinner(es, x, i) && IsWinner(es, x, j)
    ensures i == j
  {
  }

  /** The dispatch table of the constructor. */
  function BuildTable(es: seq<Extractor>): (r: map<string, nat>)
    ensures forall x :: x in r <==> Declared(es, x)
    ensures forall x :: x in r ==> IsWinner(es, x, r[x])
  {
    var o := PriorityOrder(es, |es|);
    var r := ClaimAll(es, o, map[]);
    forall x ensures x in r <==> Declared(es, x) {
      ClaimedIffDeclared(es, o, x);
    }
    forall x | x in r ensures IsWinner(es, x, r[x]) {
      FirstClaimantWins(es, o, x, r[x]);
    }
    r
  }

  /** Visiting every index, the extensions met are exactly the declared ones. */
  lemma ClaimedIffDeclared(es: seq<Extractor>, o: seq<nat>, x: string)
    requires InPriorityOrder(es, o) && forall j: nat :: j in o <==> j < |es|
    ensures (exists k :: 0 <= k < |o| && x in Claims(es[o[k]])) <==> Declared(es, x)
  {
    if Declared(es, x) {
      var i :| 0 <= i < |es| && x in Claims(es[i]);
      assert i in o;
      var k :| 0 <= k < |o| && o[k] == i;
    }
  }

  /** In a priority order over all indices, the first claimant of an
      extension is its winner. */
  lemma FirstClaimantWins(es: seq<Extractor>, o: seq<nat>, x: string, i: nat)
    requires InPriorityOrder(es, o) && forall j: nat :: j in o <==> j < |es|
    requires FirstClaimant(es, o, x, i)
    ensures IsWinner(es, x, i)
  {
    var k :| 0 <= k < |o| && o[k] == i && x in Claims(es[i]) &&
      forall m :: 0 <= m < k ==> x !in Claims(es[o[m]]);
    forall j | 0 <= j < |es| && x in Claims(es[j])
      ensures es[j].priority < es[i].priority || (es[j].priority == es[i].priority && i <= j)
    {
      assert j in o;
      var m :| 0 <= m < |o| && o[m] == j;
      if m != k {
        assert k < m;
        assert Precedes(es, o[k], o[m]);
      }
    }
  }

  /** `extractors.FirstOrDefault(e => e is TextExtractionService)`. */
  function FirstTextExtractor(es: seq<Extractor>): (r: Option<nat>)
    ensures r.None? <==> forall i :: 0 <= i < |es| ==> !es[i].kind.TextExtraction?
    ensures r.Some? ==> r.value < |es| && es[r.value].kind.TextExtraction? &&
                        forall i :: 0 <= i < r.value ==> !es[i].kind.TextExtraction?
    decreases |es|
  {
    if es == [] then None
    else if es[0].kind.TextExtraction? then Some(0)
    else
      match FirstTextExtractor(es[1..])
      case None => None
      case Some(i) => Some(i + 1)
  }

  /** The state of a `DocumentContentExtractor`: the registered extractors in
      registration order, the extension table (values are registration
      indices) and the fallback's index. */
  datatype ExtractorRegistry = ExtractorRegistry(
    extractors: seq<Extractor>,
    table: map<string, nat>,
    fallback: Option<nat>)
  {
    /** Every index the registry holds designates a registered extractor. */
    ghost predicate Valid() {
      && (forall x :: x in table ==> table[x] < |extractors|)
      && (fallback.Some? ==> fallback.value < |extractors|)
    }
  }

  /** The constructor: each folded declared extension goes to the extractor
      of highest priority declaring it, the earliest registered on ties, and
      the fallback is the first registered text extractor, whatever the
      extensions. */
  function Build(es: seq<Extractor>): (r: ExtractorRegistry)
    ensures r.Valid() && r.extractors == es
    ensures forall x :: x in r.table <==> Declared(es, x)
    ensures forall x :: x in r.table ==> IsWinner(es, x, r.table[x])
    ensures r.fallback == FirstTextExtractor(es)
  {
    ExtractorRegistry(es, BuildTable(es), FirstTextExtractor(es))
  }

  /** The extractor the table maps the path's folded extension to, if any. */
  function Mapped(reg: ExtractorRegistry, path: string): Option<nat>
    requires reg.Valid()
  {
    var ext := Lower(Extension(path));
    if ext in reg.table then Some(reg.table[ext]) else None
  }

  /** What running the extractor in `slot` on the path gives, if there is one. */
  function Attempt(reg: ExtractorRegistry, slot: Option<nat>, fs: FileSystem, path: string): Option<Result<string>>
    requires reg.Valid()
    requires slot.Some? ==> slot.value < |reg.extractors|
  {
    match slot
    case None => None
    case Some(i) => Some(ExtractText(reg.extractors[i], fs, path))
  }

  /** An attempt that did not produce text: no extractor, or it threw. */
  predicate NoText(a: Option<Result<string>>) {
    a.None? || a.value.Failure?
  }

  /** The degradation chain once the argument checks have passed: the mapped
      extractor's text, else the fallback's text, else the last resort. */
  function Chain(mapped: Option<Result<string>>, fallback: Option<Result<string>>, lastResort: string): (r: string)
    ensures mapped.Some? && mapped.value.Success? ==> r == mapped.value.value
    ensures NoText(mapped) && fallback.Some? && fallback.value.Success? ==> r == fallback.value.value
    ensures NoText(mapped) && NoText(fallback) ==> r == lastResort
  {
    if mapped.Some? && mapped.value.Success? then mapped.value.value
    else if fallback.Some? && fallback.value.Success? then fallback.value.value
    else lastResort
  }

  /** A path of no-break spaces is blank to `String.IsNullOrWhiteSpace`, so
      it is rejected before the file system is consulted, even when such a
      file exists. */
  lemma NoBreakSpacePathRejected(reg: ExtractorRegistry, fs: FileSystem, path: string)
    requires reg.Valid() && path == "\U{00A0}\U{3000}"
    ensures Proceed(reg, fs, path) == Failure(ArgumentError)
  {
    assert IsWhiteSpace(path[0]) && IsWhiteSpace(path[1]);
  }

  /** `ProceedAsync`: argument checks first, and for an existing file never
      a failure. */
  function Proceed(reg: ExtractorRegistry, fs: FileSystem, path: string): (r: Result<string>)
    requires reg.Valid()
    ensures IsBlank(path) ==> r == Failure(ArgumentError)
    ensures !IsBlank(path) && !FileExists(fs, path) ==> r == Failure(FileNotFound)
    ensures r.Success? <==> !IsBlank(path) && FileExists(fs, path)
  {
    if IsBlank(path) then Failure(ArgumentError)
    else if !FileExists(fs, path) then Failure(FileNotFound)
    else
      Success(Chain(Attempt(reg, Mapped(reg, path), fs, path),
                    Attempt(reg, reg.fallback, fs, path),
                    FileNameWithoutExtension(path)))
  }

  /** The outcome of `ProceedAsync` for an existing file, by the outcomes of
      the mapped extractor and of the fallback: the first text wins, and the
      file name without extension stands in when neither produced text. */
  lemma ProceedChain(reg: ExtractorRegistry, fs: FileSystem, path: string)
    requires reg.Valid() && !IsBlank(path) && FileExists(fs, path)
    ensures
      var r := Proceed(reg, fs, path);
      var mapped := Attempt(reg, Mapped(reg, path), fs, path);
      var fallback := Attempt(reg, reg.fallback, fs, path);
      && (mapped.Some? && mapped.value.Success? ==> r == mapped.value)
      && (NoText(mapped) && fallback.Some? && fallback.value.Success? ==> r == fallback.value)
      && (NoText(mapped) && NoText(fallback) ==> r == Success(FileNameWithoutExtension(path)))
  {
  }

  /** The union of the extensions claimed by a list of extractors. */
  function AllClaims(es: seq<Extractor>): (r: set<string>)
    ensures forall x :: x in r <==> Declared(es, x)
    decreases |es|
  {
    if es == [] then {}
    else
      var rest := AllClaims(es[1..]);
      assert forall x :: x in rest <==> exists i :: 1 <= i < |es| && x in Claims(es[i]) by {
        forall x ensures x in rest <==> exists i :: 1 <= i < |es| && x in Claims(es[i]) {
          if x in rest {
            var i :| 0 <= i < |es[1..]| && x in Claims(es[1..][i]);
            assert es[1..][i] == es[i + 1];
          }
          if exists i :: 1 <= i < |es| && x in Claims(es[i]) {
            var i :| 1 <= i < |es| && x in Claims(es[i]);
            assert es[1..][i - 1] == es[i];
          }
        }
      }
      Claims(es[0]) + rest
  }

  /** `GetSupportedExtensions`: the table's keys (their order is not modelled). */
  function SupportedExtensions(reg: ExtractorRegistry): set<string> {
    reg.table.Keys
  }

  /** The supported extensions are exactly the folded extensions declared by
      the registered extractors. */
  lemma SupportedExtensionsAreDeclared(es: seq<Extractor>)
    ensures SupportedExtensions(Build(es)) == AllClaims(es)
  {
  }

  /** `IsSupported`: the path's folded extension is a key of the table. */
  predicate IsSupported(reg: ExtractorRegistry, path: string) {
    Lower(Extension(path)) in reg.table
  }

  /** A path is supported exactly when some registered extractor declares its
      extension in some letter case. */
  lemma IsSupportedSpec(es: seq<Extractor>, path: string)
    ensures IsSupported(Build(es), path) <==> Declared(es, Lower(Extension(path)))
  {
  }

  /** Whatever one extractor's `CanExtract` accepts, the registry supports;
      the converse fails for declarations with upper-case letters. */
  lemma CanExtractImpliesSupported(es: seq<Extractor>, i: nat, path: string)
    requires i < |es| && CanExtract(es[i], path)
    ensures IsSupported(Build(es), path)
  {
    var ext := Lower(Extension(path));
    LowerIdempotent(Extension(path));
    assert Lower(ext) == ext;
    assert ext in Claims(es[i]);
  }

  /** The folded forms of the built-in declarations are the declarations. */
  lemma BuiltInClaims()
    ensures Claims(TextExtractionService) == {".txt", ".md", ".rtf"}
    ensures Claims(PdfExtractionService) == {".pdf"}
  {
    assert Lower(".txt") == ".txt";
    assert Lower(".md") == ".md";
    assert Lower(".rtf") == ".rtf";
    assert Lower(".pdf") == ".pdf";
  }

  /** An extension claimed by exactly one extractor is dispatched to it,
      whatever the priorities. */
  lemma SoleClaimantWins(es: seq<Extractor>, x: string, i: nat)
    requires i < |es| && x in Claims(es[i])
    requires forall j :: 0 <= j < |es| && j != i ==> x !in Claims(es[j])
    ensures x in Build(es).table && Build(es).table[x] == i
  {
    assert Declared(es, x);
  }

  /** With two extractors, the table's keys are what either of them claims. */
  lemma TwoExtractorKeys(es: seq<Extractor>)
    requires |es| == 2
    ensures forall x :: x in Build(es).table <==> x in Claims(es[0]) + Claims(es[1])
  {
    forall x ensures Declared(es, x) <==> x in Claims(es[0]) + Claims(es[1]) {
      if x in Claims(es[0]) { assert Declared(es, x); }
      if x in Claims(es[1]) { assert Declared(es, x); }
    }
  }

  /** With two extractors that claim disjoint extension sets, each
      extension goes to the one extractor that claims it. */
  lemma DisjointClaimsTable(es: seq<Extractor>)
    requires |es| == 2 && Claims(es[0]) !! Claims(es[1])
    ensures forall x :: x in Claims(es[0]) ==> x in Build(es).table && Build(es).table[x] == 0
    ensures forall x :: x in Claims(es[1]) ==> x in Build(es).table && Build(es).table[x] == 1
  {
    forall x | x in Claims(es[0]) ensures x in Build(es).table && Build(es).table[x] == 0 {
      SoleClaimantWins(es, x, 0);
    }
    forall x | x in Claims(es[1]) ensures x in Build(es).table && Build(es).table[x] == 1 {
      SoleClaimantWins(es, x, 1);
    }
  }

  /** The application's two extractors claim disjoint sets, and the text
      extractor is the fallback. */
  lemma RegisteredClaims(es: seq<Extractor>)
    requires |es| == 2 && es[0] == TextExtractionService && es[1] == PdfExtractionService
    ensures Claims(es[0]) == {".txt", ".md", ".rtf"} && Claims(es[1]) == {".pdf"}
    ensures Build(es).fallback == Some(0)
  {
    BuiltInClaims();
  }

  /** The table built from a text-format extractor and a PDF extractor
      serves nothing but the three text formats and PDF. */
  lemma TextAndPdfKeys(es: seq<Extractor>, x: string)
    requires |es| == 2 && Claims(es[0]) == {".txt", ".md", ".rtf"} && Claims(es[1]) == {".pdf"}
    ensures x in Build(es).table ==> x in {".txt", ".md", ".rtf", ".pdf"}
  {
    TwoExtractorKeys(es);
  }

  /** ... and sends the text formats to the first extractor. */
  lemma TextFormatsToFirst(es: seq<Extractor>, x: string)
    requires |es| == 2 && Claims(es[0]) == {".txt", ".md", ".rtf"} && Claims(es[1]) == {".pdf"}
    requires x in {".txt", ".md", ".rtf"}
    ensures x in Build(es).table && Build(es).table[x] == 0
  {
    SoleClaimantWins(es, x, 0);
  }

  /** ... and PDF to the second. */
  lemma PdfToSecond(es: seq<Extractor>)
    requires |es| == 2 && Claims(es[0]) == {".txt", ".md", ".rtf"} && Claims(es[1]) == {".pdf"}
    ensures ".pdf" in Build(es).table && Build(es).table[".pdf"] == 1
  {
    SoleClaimantWins(es, ".pdf", 1);
  }

  /** A file the table sends to the placeholder PDF extractor yields empty
      text; the fallback is never consulted. */
  lemma MappedPdfYieldsEmpty(reg: ExtractorRegistry, fs: FileSystem, path: string)
    requires reg.Valid() && !IsBlank(path) && FileExists(fs, path)
    requires Mapped(reg, path).Some? && reg.extractors[Mapped(reg, path).value].kind.PdfExtraction?
    ensures Proceed(reg, fs, path) == Success("")
  {
  }

  /** When only text extractors are involved and the file is unreadable,
      both attempts throw and the file name without extension stands in. */
  lemma UnreadableTextYieldsName(reg: ExtractorRegistry, fs: FileSystem, path: string)
    requires reg.Valid() && !IsBlank(path) && FileExists(fs, path) && fs.files[path].text.None?
    requires Mapped(reg, path).Some? ==> reg.extractors[Mapped(reg, path).value].kind.TextExtraction?
    requires reg.fallback.Some? ==> reg.extractors[reg.fallback.value].kind.TextExtraction?
    ensures Proceed(reg, fs, path) == Success(FileNameWithoutExtension(path))
  {
  }

  /** A readable file the table does not map is read by a text fallback. */
  lemma UnmappedReadByFallback(reg: ExtractorRegistry, fs: FileSystem, path: string)
    requires reg.Valid() && !IsBlank(path) && FileExists(fs, path) && fs.files[path].text.Some?
    requires Mapped(reg, path).None?
    requires reg.fallback.Some? && reg.extractors[reg.fallback.value].kind.TextExtraction?
    ensures Proceed(reg, fs, path) == Success(fs.files[path].text.value)
  {
  }

  /** For the application's registry: an existing PDF yields empty text. */
  lemma PdfDispatchYieldsEmpty(es: seq<Extractor>, fs: FileSystem, path: string)
    requires |es| == 2 && es[0] == TextExtractionService && es[1] == PdfExtractionService
    requires !IsBlank(path) && FileExists(fs, path) && Lower(Extension(path)) == ".pdf"
    ensures Proceed(Build(es), fs, path) == Success("")
  {
    RegisteredClaims(es);
    PdfToSecond(es);
    MappedPdfYieldsEmpty(Build(es), fs, path);
  }

  /** For the application's registry: an unreadable text file yields its
      name without extension. */
  lemma UnreadableTextFileYieldsName(es: seq<Extractor>, fs: FileSystem, path: string)
    requires |es| == 2 && es[0] == TextExtractionService && es[1] == PdfExtractionService
    requires !IsBlank(path) && FileExists(fs, path) && fs.files[path].text.None?
    requires Lower(Extension(path)) in {".txt", ".md", ".rtf"}
    ensures Proceed(Build(es), fs, path) == Success(FileNameWithoutExtension(path))
  {
    RegisteredClaims(es);
    TextFormatsToFirst(es, Lower(Extension(path)));
    UnreadableTextYieldsName(Build(es), fs, path);
  }

  /** For the application's registry: a readable file of an undeclared
      extension is read as text by the fallback. */
  lemma UnmappedFileReadByFallback(es: seq<Extractor>, fs: FileSystem, path: string)
    requires |es| == 2 && es[0] == TextExtractionService && es[1] == PdfExtractionService
    requires !IsBlank(path) && FileExists(fs, path) && fs.files[path].text.Some?
    requires Lower(Extension(path)) !in {".txt", ".md", ".rtf", ".pdf"}
    ensures Proceed(Build(es), fs, path) == Success(fs.files[path].text.value)
  {
    RegisteredClaims(es);
    TextAndPdfKeys(es, Lower(Extension(path)));
    UnmappedReadByFallback(Build(es), fs, path);
  }

  /** Every declaration, folded, is a key of the table. */
  lemma FoldedDeclarationIsKey(es: seq<Extractor>, i: nat, d: string)
    requires i < |es| && d in es[i].supportedExtensions
    ensures Lower(d) in Build(es).table
  {
    assert Lower(d) in Claims(es[i]);
    assert Declared(es, Lower(d));
  }

  /** The registry folds declared extensions while `CanExtract` does not: an
      extractor whose only declaration has upper-case letters serves, through
      the table, the paths whose folded extension matches it, yet its own
      `CanExtract` rejects every one of them. */
  lemma RegistryFoldsDeclarationsCanExtractDoesNot(es: seq<Extractor>, i: nat, d: string, path: string)
    requires i < |es| && es[i].supportedExtensions == [d] && Lower(d) != d
    requires Lower(Extension(path)) == Lower(d)
    ensures IsSupported(Build(es), path) && !CanExtract(es[i], path)
  {
    FoldedDeclarationIsKey(es, i, d);
    UpperCaseOnlyExtractorAcceptsNothing(es[i], d, path);
  }
}

=== FILE: repository.dfy ===
/** `IDocumentRepository` and its two implementations side by side: how a
    list with distinct full paths corresponds to a LiteDB collection, what
    each query of one returns in terms of the other, and the repository a
    scan writes to as either implementation. */
module Repository {

  import opened Wrappers
  import opened Models
  import opened Sequences
  import opened Queries
  import Mem = MemoryRepository
  import Lite = LiteDbRepository

  /** The full paths stored in a list. */
  function PathsOf(docs: seq<DocumentInfo>): (r: set<string>)
    ensures forall p :: p in r <==> Mem.Lookup(docs, p).Some?
  {
    var r := set d | d in docs :: d.fullPath;
    assert forall p :: Mem.Lookup(docs, p).Some? ==> Mem.Lookup(docs, p).value in docs;
    r
  }

  /** No two records of the list have paths that differ only in letter
      case: the list compares paths exactly and LiteDB ignoring case, so
      only such lists can be stored alike by both. */
  ghost predicate CaseDistinct(docs: seq<DocumentInfo>) {
    forall x, y :: x in docs && y in docs && Lite.Key(x.fullPath) == Lite.Key(y.fullPath) ==>
      x.fullPath == y.fullPath
  }

  /** No record of the list has a path that is a case variant of `path`. */
  ghost predicate NoCaseVariant(docs: seq<DocumentInfo>, path: string) {
    forall x :: x in docs && Lite.Key(x.fullPath) == Lite.Key(path) ==> x.fullPath == path
  }

  /** The collection that stores, under the key of each path of the list,
      the record a reader of the list finds for that path. */
  function AsCollection(docs: seq<DocumentInfo>): (r: Lite.Collection)
    requires CaseDistinct(docs)
    ensures forall k :: k in r ==> exists p :: p in PathsOf(docs) && Lite.Key(p) == k
    ensures Lite.WellKeyed(r)
  {
    var paths := PathsOf(docs);
    map p | p in paths :: Lite.Key(p) := Mem.Lookup(docs, p).value
  }

  /** Each stored path's key holds the record a reader of the list finds
      for that path. */
  lemma AsCollectionAt(docs: seq<DocumentInfo>, p: string)
    requires CaseDistinct(docs) && p in PathsOf(docs)
    ensures Lite.Key(p) in AsCollection(docs) && AsCollection(docs)[Lite.Key(p)] == Mem.Lookup(docs, p).value
  {
  }

  /** With distinct full paths, the collection holds exactly the records of
      the list. */
  lemma AsCollectionValues(docs: seq<DocumentInfo>)
    requires Mem.UniquePaths(docs) && CaseDistinct(docs)
    ensures AsCollection(docs).Values == set x | x in docs
  {
    var c := AsCollection(docs);
    forall x | x in docs ensures x in c.Values {
      var k :| 0 <= k < |docs| && docs[k] == x;
      Mem.LookupUnique(docs, x.fullPath, k);
      AsCollectionAt(docs, x.fullPath);
    }
    forall v | v in c.Values ensures v in docs {
      var k :| k in c && c[k] == v;
      var p :| p in PathsOf(docs) && Lite.Key(p) == k;
      AsCollectionAt(docs, p);
    }
  }

  /** An upsert that brings in no case variant of a stored path keeps the
      list case-distinct. */
  lemma UpsertCaseDistinct(docs: seq<DocumentInfo>, d: DocumentInfo)
    requires CaseDistinct(docs) && NoCaseVariant(docs, d.fullPath)
    ensures CaseDistinct(Mem.Upsert(docs, d))
  {
    Mem.UpsertElements(docs, d);
  }

  /** Upserting into the list and then reading it as a collection is
      upserting into the collection, as long as the list holds no case
      variant of the new path: the two implementations store the same thing
      after the same writes. */
  lemma UpsertAgrees(docs: seq<DocumentInfo>, d: DocumentInfo)
    requires Mem.UniquePaths(docs) && CaseDistinct(docs) && NoCaseVariant(docs, d.fullPath)
    ensures CaseDistinct(Mem.Upsert(docs, d))
    ensures AsCollection(Mem.Upsert(docs, d)) == Lite.Upsert(AsCollection(docs), d)
  {
    var u := Mem.Upsert(docs, d);
    UpsertCaseDistinct(docs, d);
    var l := AsCollection(u);
    var r := Lite.Upsert(AsCollection(docs), d);
    forall k ensures (k in l <==> k in r) && (k in l ==> l[k] == r[k]) {
      UpsertAgreesAt(docs, d, k);
    }
    MapsEqual(l, r);
  }

  /** Two maps that agree at every key are equal. */
  lemma MapsEqual<K, V>(l: map<K, V>, r: map<K, V>)
    requires forall k :: (k in l <==> k in r) && (k in l ==> l[k] == r[k])
    ensures l == r
  {
  }

  /** `UpsertAgrees` at one key. */
  lemma UpsertAgreesAt(docs: seq<DocumentInfo>, d: DocumentInfo, k: string)
    requires Mem.UniquePaths(docs) && CaseDistinct(docs) && CaseDistinct(Mem.Upsert(docs, d))
    ensures var l, r := AsCollection(Mem.Upsert(docs, d)), Lite.Upsert(AsCollection(docs), d);
      (k in l <==> k in r) && (k in l ==> l[k] == r[k])
  {
    var u := Mem.Upsert(docs, d);
    var l, r := AsCollection(u), Lite.Upsert(AsCollection(docs), d);
    if k == Lite.Key(d.fullPath) {
      Mem.UpsertLookup(docs, d, d.fullPath);
      assert d.fullPath in PathsOf(u);
      AsCollectionAt(u, d.fullPath);
    } else {
      if k in l {
        var p :| p in PathsOf(u) && Lite.Key(p) == k;
        Mem.UpsertLookup(docs, d, p);
        assert p in PathsOf(docs);
        AsCollectionAt(u, p);
        AsCollectionAt(docs, p);
      }
      if k in r {
        var p :| p in PathsOf(docs) && Lite.Key(p) == k;
        Mem.UpsertLookup(docs, d, p);
        assert p in PathsOf(u);
        AsCollectionAt(u, p);
        AsCollectionAt(docs, p);
      }
    }
  }

  /** The list and LiteDB part ways on case variants: after upserting
      "/d/ID.pdf" and then "/d/id.pdf" into an empty store, the list holds
      both records and the collection only the second. */
  lemma CaseVariantsDiverge(d1: DocumentInfo, d2: DocumentInfo)
    requires d1.fullPath == "/d/ID.pdf" && d2.fullPath == "/d/id.pdf"
    ensures Mem.Upsert(Mem.Upsert([], d1), d2) == [d1, d2]
    ensures Lite.Upsert(Lite.Upsert(map[], d1), d2).Values == {d2}
  {
    assert Mem.Upsert([], d1) == [d1];
    assert d1.fullPath[3] != d2.fullPath[3];
    assert Mem.FirstIndexOfPath([d1], d2.fullPath).None?;
    Lite.CaseVariantsCollide(d1, d2);
  }

  /** The LiteDB queries answer what the memory queries answer, restricted
      to the asking owner's records, except the by-type query, which answers
      exactly the same. */
  lemma FieldQueriesAgree(docs: seq<DocumentInfo>, owner: string, c: DocumentCategory, t: DocumentType)
    requires Mem.UniquePaths(docs) && CaseDistinct(docs)
    ensures Lite.GetAll(AsCollection(docs), owner) ==
            set x | x in Mem.GetAll(docs, owner) && Lite.OwnerMatches(x.owner, owner)
    ensures Lite.ByCategory(AsCollection(docs), owner, c) ==
            set x | x in Mem.ByCategory(docs, owner, c) && Lite.OwnerMatches(x.owner, owner)
    ensures Lite.ByType(AsCollection(docs), owner, t) == set x | x in Mem.ByType(docs, owner, t)
  {
    GetAllAgrees(docs, owner);
    ByCategoryAgrees(docs, owner, c);
    ByTypeAgrees(docs, owner, t);
  }

  /** The all-records query of each implementation. */
  lemma GetAllAgrees(docs: seq<DocumentInfo>, owner: string)
    requires Mem.UniquePaths(docs) && CaseDistinct(docs)
    ensures Lite.GetAll(AsCollection(docs), owner) ==
            set x | x in Mem.GetAll(docs, owner) && Lite.OwnerMatches(x.owner, owner)
  {
    AsCollectionValues(docs);
  }

  /** The by-category query of each implementation. */
  lemma ByCategoryAgrees(docs: seq<DocumentInfo>, owner: string, c: DocumentCategory)
    requires Mem.UniquePaths(docs) && CaseDistinct(docs)
    ensures Lite.ByCategory(AsCollection(docs), owner, c) ==
            set x | x in Mem.ByCategory(docs, owner, c) && Lite.OwnerMatches(x.owner, owner)
  {
    AsCollectionValues(docs);
    Mem.ByFieldSpec(docs, owner, c, DocumentType.Other);
  }

  /** The by-type query of each implementation. */
  lemma ByTypeAgrees(docs: seq<DocumentInfo>, owner: string, t: DocumentType)
    requires Mem.UniquePaths(docs) && CaseDistinct(docs)
    ensures Lite.ByType(AsCollection(docs), owner, t) == set x | x in Mem.ByType(docs, owner, t)
  {
    AsCollectionValues(docs);
    Mem.ByFieldSpec(docs, owner, DocumentCategory.Other, t);
  }

  /** With the owner check restored, the LiteDB by-type query answers like
      the other LiteDB queries: the memory answer restricted to the asking
      owner's records. */
  lemma ByTypeOwnedAgrees(docs: seq<DocumentInfo>, owner: string, t: DocumentType)
    requires Mem.UniquePaths(docs) && CaseDistinct(docs)
    ensures Lite.ByTypeOwned(AsCollection(docs), owner, t) ==
            set x | x in Mem.ByType(docs, owner, t) && Lite.OwnerMatches(x.owner, owner)
  {
    ByTypeAgrees(docs, owner, t);
    Lite.ByTypeOwnedRestricts(AsCollection(docs), owner, t);
  }

  /** The same for the search. */
  lemma SearchAgrees(docs: seq<DocumentInfo>, owner: string, query: string)
    requires Mem.UniquePaths(docs) && CaseDistinct(docs)
    ensures Lite.Search(AsCollection(docs), owner, query) ==
            set x | x in Mem.Search(docs, owner, query) && Lite.OwnerMatches(x.owner, owner)
  {
    AsCollectionValues(docs);
    FilterSpec(docs, MatchesQuery(Strings.Lower(query)));
  }

  /** The repository a scan writes to, as either implementation. */
  datatype Repository = Memory(store: Mem.MemoryStore) | LiteDb(collection: Lite.Collection)

  /** Every record is stored under its own path (the list needs nothing). */
  ghost predicate Valid(repo: Repository) {
    repo.LiteDb? ==> Lite.WellKeyed(repo.collection)
  }

  /** The records the repository holds. */
  function Records(repo: Repository): set<DocumentInfo> {
    match repo
    case Memory(s) => set x | x in s.documents
    case LiteDb(c) => c.Values
  }

  /** `UpsertDocumentAsync`. */
  function Upsert(repo: Repository, d: DocumentInfo): (r: Repository)
    ensures r.Memory? == repo.Memory?
    ensures r.Memory? ==> r.store.index == repo.store.index
    ensures Valid(repo) ==> Valid(r)
  {
    match repo
    case Memory(s) => Memory(s.(documents := Mem.Upsert(s.documents, d)))
    case LiteDb(c) => LiteDb(Lite.Upsert(c, d))
  }

  /** `SaveChangesAsync`; `w` says how writing the index file ends (LiteDB
      has nothing to write). */
  function SaveChanges(repo: Repository, w: Mem.WriteOutcome): (r: Repository)
    ensures Records(r) == Records(repo)
    ensures r.Memory? == repo.Memory?
    ensures Valid(repo) ==> Valid(r)
  {
    match repo
    case Memory(s) => Memory(Mem.SaveChanges(s, w))
    case LiteDb(c) => LiteDb(Lite.SaveChanges(c))
  }

  /** After an upsert the repository holds the new record, no record other
      than the ones it held, and every held record under a path that is not
      the new one ignoring case; the list also keeps the case variants. */
  lemma UpsertRecords(repo: Repository, d: DocumentInfo)
    requires Valid(repo)
    ensures d in Records(Upsert(repo, d))
    ensures forall x :: x in Records(Upsert(repo, d)) ==> x == d || x in Records(repo)
    ensures forall x: DocumentInfo :: Lite.Key(x.fullPath) != Lite.Key(d.fullPath) ==>
      (x in Records(Upsert(repo, d)) <==> x in Records(repo))
    ensures repo.Memory? ==> forall x: DocumentInfo :: x.fullPath != d.fullPath ==>
      (x in Records(Upsert(repo, d)) <==> x in Records(repo))
  {
    match repo
    case Memory(s) =>
      Mem.UpsertElements(s.documents, d);
    case LiteDb(c) =>
      var r := Lite.Upsert(c, d);
      forall x: DocumentInfo | Lite.Key(x.fullPath) != Lite.Key(d.fullPath)
        ensures x in r.Values <==> x in c.Values
      {
        if x in c.Values {
          var k :| k in c && c[k] == x;
          assert r[k] == x;
        }
        if x in r.Values {
          var k :| k in r && r[k] == x;
          assert k != Lite.Key(d.fullPath);
        }
      }
  }
}

=== FILE: requirements.dfy ===
/** `StaticRequirementService`: the documents a purpose calls for, from a
    custom table consulted first and an ordered switch on keywords that
    occur in the purpose. */
module Requirements {

  import opened Wrappers
  import opened Strings
  import opened Models

  /** A requirement with both filters set to member names. */
  function Typed(term: string, description: string, c: DocumentCategory, t: DocumentType): DocumentRequirement {
    Requirement(term, description, Some(CategoryName(c)), Some(TypeName(t)))
  }

  /** A requirement filtered by category only. */
  function Untyped(term: string, description: string, c: DocumentCategory): DocumentRequirement {
    Requirement(term, description, Some(CategoryName(c)))
  }

  const PassportRequirements: seq<DocumentRequirement> := [
    Typed("passport", "Current passport", Identity, Passport),
    Typed("birth certificate", "Birth certificate", Identity, BirthCertificate),
    Untyped("photo", "Passport photo", Identity)]

  const EmploymentRequirements: seq<DocumentRequirement> := [
    Typed("resume", "Resume/CV", Professional, Resume),
    Typed("certificate", "Educational certificates", School, Certificate),
    Untyped("id", "Identity document", Identity)]

  const SchoolRequirements: seq<DocumentRequirement> := [
    Untyped("transcript", "Academic transcript", School),
    Typed("certificate", "Educational certificates", School, Certificate),
    Typed("birth certificate", "Birth certificate", Identity, BirthCertificate)]

  const VisaRequirements: seq<DocumentRequirement> := [
    Typed("passport", "Valid passport", Identity, Passport),
    Untyped("photo", "Visa photo", Identity),
    Untyped("financial", "Financial documents", Professional)]

  /** The keyword tests of the switch, in the order they are tried. */
  predicate MentionsPassport(purpose: string) {
    Contains(purpose, "passport") || Contains(purpose, "renew passport")
  }

  predicate MentionsEmployment(purpose: string) {
    Contains(purpose, "job") || Contains(purpose, "employment")
  }

  predicate MentionsSchool(purpose: string) {
    Contains(purpose, "school") || Contains(purpose, "university")
  }

  predicate MentionsVisa(purpose: string) {
    Contains(purpose, "visa")
  }

  /** The switch on the purpose: the first case whose keywords occur wins. */
  function DefaultRequirements(purpose: string): (r: seq<DocumentRequirement>)
    ensures |r| == 0 || |r| == 3
    ensures forall i :: 0 <= i < |r| ==> r[i].category.Some?
    ensures r == [] <==>
      !MentionsPassport(purpose) && !MentionsEmployment(purpose) &&
      !MentionsSchool(purpose) && !MentionsVisa(purpose)
  {
    if MentionsPassport(purpose) then PassportRequirements
    else if MentionsEmployment(purpose) then EmploymentRequirements
    else if MentionsSchool(purpose) then SchoolRequirements
    else if MentionsVisa(purpose) then VisaRequirements
    else []
  }

  /** The table `_customRequirements` as the service constructs it. */
  const NoCustomRequirements: map<string, seq<DocumentRequirement>> := map[]

  /** `GetRequiredDocumentsAsync(owner, purpose)` with the custom table
      `custom`: an exact entry for the purpose wins over the switch. The
      owner is not consulted. */
  function RequiredDocuments(custom: map<string, seq<DocumentRequirement>>, owner: string, purpose: string)
    : (r: seq<DocumentRequirement>)
    ensures purpose in custom ==> r == custom[purpose]
    ensures purpose !in custom ==> |r| == 0 || |r| == 3
  {
    if purpose in custom then custom[purpose] else DefaultRequirements(purpose)
  }

  /** The service never fills its table, so every purpose goes to the switch
      and the owner makes no difference. */
  lemma StaticServiceUsesSwitch(owner: string, other: string, purpose: string)
    ensures RequiredDocuments(NoCustomRequirements, owner, purpose) == DefaultRequirements(purpose)
    ensures RequiredDocuments(NoCustomRequirements, owner, purpose) ==
            RequiredDocuments(NoCustomRequirements, other, purpose)
  {
  }

  /** "renew passport" contains "passport", so the second test of the first
      case never decides anything. */
  lemma RenewPassportRedundant(purpose: string)
    ensures MentionsPassport(purpose) <==> Contains(purpose, "passport")
  {
    if Contains(purpose, "renew passport") {
      assert OccursAt("renew passport", "passport", 6);
      ContainsTransitive(purpose, "renew passport", "passport");
    }
  }

  /** The four lists are pairwise different. */
  lemma ListsDistinct()
    ensures PassportRequirements != EmploymentRequirements
    ensures PassportRequirements != SchoolRequirements
    ensures PassportRequirements != VisaRequirements
    ensures EmploymentRequirements != SchoolRequirements
    ensures EmploymentRequirements != VisaRequirements
    ensures SchoolRequirements != VisaRequirements
  {
    assert PassportRequirements[0].description[1] == 'u';
    assert EmploymentRequirements[0].description[1] == 'e';
    assert SchoolRequirements[0].description[1] == 'c';
    assert VisaRequirements[0].description[1] == 'a';
  }

  /** A purpose gets the passport list exactly when it mentions "passport",
      whatever else it mentions. */
  lemma PassportListIffMentioned(purpose: string)
    ensures DefaultRequirements(purpose) == PassportRequirements <==> Contains(purpose, "passport")
  {
    RenewPassportRedundant(purpose);
    ListsDistinct();
  }

  /** The cases are tried in order: "visa passport" mentions a visa but gets
      the passport list. */
  lemma VisaPassportGetsPassportList(purpose: string)
    requires purpose == "visa passport"
    ensures MentionsVisa(purpose)
    ensures DefaultRequirements(purpose) == PassportRequirements
  {
    assert OccursAt(purpose, "visa", 0);
    assert OccursAt(purpose, "passport", 5);
  }

  /** The keyword tests are case-sensitive: a purpose without lower-case
      letters matches no case. */
  lemma UpperCasePurposeMatchesNothing(purpose: string)
    requires forall i :: 0 <= i < |purpose| ==> !('a' <= purpose[i] <= 'z')
    ensures DefaultRequirements(purpose) == []
  {
    forall k | k in ["passport", "renew passport", "job", "employment", "school", "university", "visa"]
      ensures !Contains(purpose, k)
    {
      ContainsFirstChar(purpose, k);
    }
  }

  /** Every filter the switch sets is a member name: categories always,
      types exactly for the typed requirements. */
  lemma FiltersAreMemberNames(purpose: string)
    ensures var r := DefaultRequirements(purpose);
      forall i :: 0 <= i < |r| ==>
        ParseCategory(r[i].category.value).Some? &&
        (r[i].documentType.Some? ==> ParseType(r[i].documentType.value).Some?)
  {
  }
}

=== FILE: sequences.dfy ===
/** Order-preserving selection and stable ordering of sequences: the LINQ
    `Where` and `OrderBy` steps of the repository queries. */
module Sequences {

  /** `r` can be obtained from `s` by deleting elements, keeping the order of
      the rest. */
  ghost predicate IsSubsequence<T>(r: seq<T>, s: seq<T>)
    decreases |s|
  {
    if r == [] then true
    else if s == [] then false
    else if r[0] == s[0] then IsSubsequence(r[1..], s[1..])
    else IsSubsequence(r, s[1..])
  }

  /** `Where(p)`: the elements of `s` satisfying `p`, in their order. */
  function Filter<T>(s: seq<T>, p: T -> bool): (r: seq<T>)
    ensures |r| <= |s|
    ensures forall i :: 0 <= i < |r| ==> p(r[i])
    decreases |s|
  {
    if s == [] then []
    else if p(s[0]) then [s[0]] + Filter(s[1..], p)
    else Filter(s[1..], p)
  }

  /** An element is selected exactly when it occurs in `s` and satisfies `p`;
      each selected element keeps its number of occurrences and the selection
      keeps the order of `s`. */
  lemma {:induction false} FilterSpec<T>(s: seq<T>, p: T -> bool)
    ensures forall x :: x in Filter(s, p) <==> x in s && p(x)
    ensures forall x :: multiset(Filter(s, p))[x] == if p(x) then multiset(s)[x] else 0
    ensures IsSubsequence(Filter(s, p), s)
    decreases |s|
  {
    if s != [] {
      FilterSpec(s[1..], p);
      assert s == [s[0]] + s[1..];
      var rest := Filter(s[1..], p);
      if !p(s[0]) && rest != [] {
        assert rest[0] in rest;
      }
    }
  }

  /** Nothing is selected when no element satisfies `p`. */
  lemma {:induction false} FilterNone<T>(s: seq<T>, p: T -> bool)
    requires forall i :: 0 <= i < |s| ==> !p(s[i])
    ensures Filter(s, p) == []
    decreases |s|
  {
    if s != [] {
      FilterNone(s[1..], p);
    }
  }

  /** Everything is selected when every element satisfies `p`. */
  lemma {:induction false} FilterAll<T>(s: seq<T>, p: T -> bool)
    requires forall i :: 0 <= i < |s| ==> p(s[i])
    ensures Filter(s, p) == s
    decreases |s|
  {
    if s != [] {
      FilterAll(s[1..], p);
    }
  }

  /** Two selectors that agree on the elements of `s` select the same. */
  lemma {:induction false} FilterCongruent<T>(s: seq<T>, p: T -> bool, q: T -> bool)
    requires forall i :: 0 <= i < |s| ==> p(s[i]) == q(s[i])
    ensures Filter(s, p) == Filter(s, q)
    decreases |s|
  {
    if s != [] {
      FilterCongruent(s[1..], p, q);
    }
  }

  /** The first selected element is the first element satisfying `p`. */
  lemma {:induction false} FilterHead<T>(s: seq<T>, p: T -> bool, k: nat)
    requires k < |s| && p(s[k])
    requires forall i :: 0 <= i < k ==> !p(s[i])
    ensures Filter(s, p) != [] && Filter(s, p)[0] == s[k]
    decreases k
  {
    if k > 0 {
      FilterHead(s[1..], p, k - 1);
    }
  }

  /** Selection distributes over concatenation. */
  lemma {:induction false} FilterAppend<T>(a: seq<T>, b: seq<T>, p: T -> bool)
    ensures Filter(a + b, p) == Filter(a, p) + Filter(b, p)
    decreases |a|
  {
    if a == [] {
      assert a + b == b;
    } else {
      assert (a + b)[0] == a[0];
      assert (a + b)[1..] == a[1..] + b;
      FilterAppend(a[1..], b, p);
    }
  }

  /** Every element of `s` has a key no smaller than its predecessors'. */
  ghost predicate SortedBy<T>(s: seq<T>, key: T -> int) {
    forall i, j :: 0 <= i < j < |s| ==> key(s[i]) <= key(s[j])
  }

  /** The selector "has key `k`". */
  function HasKey<T>(key: T -> int, k: int): T -> bool {
    x => key(x) == k
  }

  /** Inserts `x` into the ordered `s` after every element whose key is not
      greater than its own. */
  function InsertBy<T>(s: seq<T>, x: T, key: T -> int): (r: seq<T>)
    requires SortedBy(s, key)
    ensures SortedBy(r, key)
    ensures multiset(r) == multiset(s) + multiset{x}
    ensures |r| == |s| + 1
    decreases |s|
  {
    if s == [] || key(x) < key(s[0]) then [x] + s
    else
      var rest := InsertBy(s[1..], x, key);
      InsertByStep(s, x, key, rest);
      [s[0]] + rest
  }

  /** The step of `InsertBy` that keeps the head: the head's key bounds
      every key of the rest, so prefixing it keeps the order. */
  lemma InsertByStep<T>(s: seq<T>, x: T, key: T -> int, rest: seq<T>)
    requires s != [] && SortedBy(s, key) && key(s[0]) <= key(x)
    requires SortedBy(rest, key) && multiset(rest) == multiset(s[1..]) + multiset{x}
    ensures SortedBy([s[0]] + rest, key)
    ensures multiset([s[0]] + rest) == multiset(s) + multiset{x}
  {
    assert s == [s[0]] + s[1..];
    HeadBelowRest(s, x, key, rest);
    ConsSorted(s[0], rest, key);
  }

  /** Every key of the rest is at least the head's. */
  lemma HeadBelowRest<T>(s: seq<T>, x: T, key: T -> int, rest: seq<T>)
    requires s != [] && SortedBy(s, key) && key(s[0]) <= key(x)
    requires multiset(rest) == multiset(s[1..]) + multiset{x}
    ensures forall i :: 0 <= i < |rest| ==> key(s[0]) <= key(rest[i])
  {
    forall i | 0 <= i < |rest| ensures key(s[0]) <= key(rest[i]) {
      var y := rest[i];
      assert y in multiset(rest);
      if y in multiset(s[1..]) {
        var k :| 0 <= k < |s[1..]| && s[1..][k] == y;
        assert s[k + 1] == y;
      }
    }
  }

  /** Prefixing an element whose key bounds a sorted sequence keeps it sorted. */
  lemma ConsSorted<T>(h: T, rest: seq<T>, key: T -> int)
    requires SortedBy(rest, key)
    requires forall i :: 0 <= i < |rest| ==> key(h) <= key(rest[i])
    ensures SortedBy([h] + rest, key)
  {
    var r := [h] + rest;
    forall i, j | 0 <= i < j < |r| ensures key(r[i]) <= key(r[j]) {
      if i > 0 {
        assert r[i] == rest[i - 1] && r[j] == rest[j - 1];
      } else {
        assert r[j] == rest[j - 1];
      }
    }
  }

  /** `OrderBy(key)`: a permutation of `s` ordered by ascending key. */
  function SortBy<T>(s: seq<T>, key: T -> int): (r: seq<T>)
    ensures SortedBy(r, key)
    ensures multiset(r) == multiset(s)
    ensures |r| == |s|
    decreases |s|
  {
    if s == [] then []
    else
      assert s == s[..|s| - 1] + [s[|s| - 1]];
      InsertBy(SortBy(s[..|s| - 1], key), s[|s| - 1], key)
  }

  /** Insertion keeps the elements of each key in their order and puts `x`
      last among its equals. */
  lemma {:induction false} InsertByStable<T>(s: seq<T>, x: T, key: T -> int, k: int)
    requires SortedBy(s, key)
    ensures Filter(InsertBy(s, x, key), HasKey(key, k))
         == Filter(s, HasKey(key, k)) + Filter([x], HasKey(key, k))
    decreases |s|
  {
    var p := HasKey(key, k);
    if s == [] || key(x) < key(s[0]) {
      InsertFrontStable(s, x, key, k);
    } else {
      var rest := InsertBy(s[1..], x, key);
      assert InsertBy(s, x, key) == [s[0]] + rest;
      InsertByStable(s[1..], x, key, k);
      FilterAppend([s[0]], rest, p);
      FilterFirst(s, p);
    }
  }

  /** The case of `InsertByStable` where `x` goes in front. */
  lemma InsertFrontStable<T>(s: seq<T>, x: T, key: T -> int, k: int)
    requires SortedBy(s, key)
    requires s == [] || key(x) < key(s[0])
    ensures Filter([x] + s, HasKey(key, k)) == Filter(s, HasKey(key, k)) + Filter([x], HasKey(key, k))
  {
    var p := HasKey(key, k);
    FilterAppend([x], s, p);
    if key(x) == k {
      assert forall i :: 0 <= i < |s| ==> !p(s[i]) by {
        forall i | 0 <= i < |s| ensures !p(s[i]) {
          assert key(s[0]) <= key(s[i]);
        }
      }
      FilterNone(s, p);
    } else {
      assert Filter([x], p) == [];
    }
  }

  /** The ordering is stable: among elements of equal key, `SortBy` keeps the
      order they had in `s`. */
  lemma {:induction false} SortByStable<T>(s: seq<T>, key: T -> int, k: int)
    ensures Filter(SortBy(s, key), HasKey(key, k)) == Filter(s, HasKey(key, k))
    decreases |s|
  {
    if s != [] {
      var p := HasKey(key, k);
      var init, last := s[..|s| - 1], s[|s| - 1];
      calc {
        Filter(SortBy(s, key), p);
        Filter(InsertBy(SortBy(init, key), last, key), p);
        { InsertByStable(SortBy(init, key), last, key, k); }
        Filter(SortBy(init, key), p) + Filter([last], p);
        { SortByStable(init, key, k); }
        Filter(init, p) + Filter([last], p);
        { FilterLast(s, p); }
        Filter(s, p);
      }
    }
  }

  /** Selecting from a non-empty sequence selects from all but its last
      element, then from the last. */
  lemma FilterLast<T>(s: seq<T>, p: T -> bool)
    requires s != []
    ensures Filter(s, p) == Filter(s[..|s| - 1], p) + Filter([s[|s| - 1]], p)
  {
    SplitLast(s);
    FilterAppend(s[..|s| - 1], [s[|s| - 1]], p);
  }

  /** Selecting from a non-empty sequence selects from its first element,
      then from the rest. */
  lemma FilterFirst<T>(s: seq<T>, p: T -> bool)
    requires s != []
    ensures Filter(s, p) == Filter([s[0]], p) + Filter(s[1..], p)
  {
    SplitFirst(s);
    FilterAppend([s[0]], s[1..], p);
  }

  /** A non-empty sequence is its first element followed by the rest. */
  lemma SplitFirst<T>(s: seq<T>)
    requires s != []
    ensures s == [s[0]] + s[1..]
  {
  }

  /** A non-empty sequence is its prefix followed by its last element. */
  lemma SplitLast<T>(s: seq<T>)
    requires s != []
    ensures s == s[..|s| - 1] + [s[|s| - 1]]
  {
  }
}

=== FILE: strings.dfy ===
/** Character-level helpers that stand for the .NET string operations the core
    uses: case folding, white-space tests, substring search and the decimal
    rendering of a counter. */
module Strings {

  import opened Wrappers

  /** Case folding of one character. Only the ASCII letters are folded; the
      culture tables of .NET are outside this model. */
  function LowerChar(c: char): (r: char)
    ensures 'A' <= c <= 'Z' ==> r as int == c as int + 32 && 'a' <= r <= 'z'
    ensures !('A' <= c <= 'Z') ==> r == c
    ensures !('A' <= r <= 'Z')
  {
    if 'A' <= c <= 'Z' then (c as int + 32) as char else c
  }

  /** `String.ToLower` / `ToLowerInvariant`: fold every character. */
  function Lower(s: string): (r: string)
    ensures |r| == |s|
    ensures forall i {:trigger r[i]} :: 0 <= i < |s| ==> r[i] == LowerChar(s[i])
  {
    seq(|s|, i requires 0 <= i < |s| => LowerChar(s[i]))
  }

  /** Folding twice is folding once. */
  lemma LowerIdempotent(s: string)
    ensures Lower(Lower(s)) == Lower(s)
  {
  }

  /** Folding commutes with taking a slice. */
  lemma LowerSlice(s: string, i: nat, j: nat)
    requires i <= j <= |s|
    ensures Lower(s[i..j]) == Lower(s)[i..j]
  {
  }

  /** Folding distributes over concatenation. */
  lemma LowerAppend(a: string, b: string)
    ensures Lower(a + b) == Lower(a) + Lower(b)
  {
  }

  /** `Char.IsWhiteSpace`: the Unicode space, line and paragraph separators
      and the control characters U+0009 to U+000D and U+0085. */
  predicate IsWhiteSpace(c: char) {
    || '\U{0009}' <= c <= '\U{000D}'
    || c == '\U{0020}' || c == '\U{0085}' || c == '\U{00A0}' || c == '\U{1680}'
    || '\U{2000}' <= c <= '\U{200A}'
    || c == '\U{2028}' || c == '\U{2029}' || c == '\U{202F}' || c == '\U{205F}' || c == '\U{3000}'
  }

  /** `String.IsNullOrWhiteSpace` on a non-null string. */
  predicate IsBlank(s: string) {
    forall i :: 0 <= i < |s| ==> IsWhiteSpace(s[i])
  }

  /** `String.IsNullOrWhiteSpace` on a nullable string. */
  predicate IsNullOrBlank(s: Option<string>) {
    s.None? || IsBlank(s.value)
  }

  /** `sub` occurs in `s` starting at position `i`. */
  predicate OccursAt(s: string, sub: string, i: nat) {
    i + |sub| <= |s| && s[i..i + |sub|] == sub
  }

  /** `String.Contains` (ordinal): some position of `s` starts an occurrence of `sub`. */
  function Contains(s: string, sub: string): (r: bool)
    ensures r <==> exists i: nat :: OccursAt(s, sub, i)
    decreases |s|
  {
    if |sub| > |s| then
      assert forall i: nat :: !OccursAt(s, sub, i);
      false
    else if s[..|sub|] == sub then
      assert OccursAt(s, sub, 0);
      true
    else
      var rest := Contains(s[1..], sub);
      assert forall i: nat :: OccursAt(s[1..], sub, i) <==> OccursAt(s, sub, i + 1) by {
        forall i: nat ensures OccursAt(s[1..], sub, i) <==> OccursAt(s, sub, i + 1) {
          if i + 1 + |sub| <= |s| {
            assert s[1..][i..i + |sub|] == s[i + 1..i + 1 + |sub|];
          }
        }
      }
      assert !OccursAt(s, sub, 0);
      assert rest ==> exists i: nat :: OccursAt(s, sub, i) by {
        if rest {
          var i: nat :| OccursAt(s[1..], sub, i);
          assert OccursAt(s, sub, i + 1);
        }
      }
      assert (exists i: nat :: OccursAt(s, sub, i)) ==> rest by {
        if exists i: nat :: OccursAt(s, sub, i) {
          var i: nat :| OccursAt(s, sub, i);
          assert i != 0;
          assert OccursAt(s[1..], sub, i - 1);
        }
      }
      rest
  }

  /** The empty string occurs in every string. */
  lemma ContainsEmpty(s: string)
    ensures Contains(s, "")
  {
    assert OccursAt(s, "", 0);
  }

  /** Occurrence is transitive: a substring of a substring is a substring. */
  lemma ContainsTransitive(s: string, mid: string, sub: string)
    requires Contains(s, mid) && Contains(mid, sub)
    ensures Contains(s, sub)
  {
    var i: nat :| OccursAt(s, mid, i);
    var j: nat :| OccursAt(mid, sub, j);
    forall k | 0 <= k < |sub|
      ensures s[i + j + k] == sub[k]
    {
      assert sub[k] == mid[j + k];
      assert mid[j + k] == s[i + j + k];
    }
    assert s[i + j..i + j + |sub|] == sub;
    assert OccursAt(s, sub, i + j);
  }

  /** A string that contains a non-empty string contains its first character. */
  lemma ContainsFirstChar(s: string, sub: string)
    ensures Contains(s, sub) && |sub| > 0 ==> exists i :: 0 <= i < |s| && s[i] == sub[0]
  {
    if Contains(s, sub) && |sub| > 0 {
      var i: nat :| OccursAt(s, sub, i);
      assert s[i..i + |sub|][0] == s[i];
    }
  }

  /** Occurrence survives case folding of both sides. */
  lemma ContainsLower(s: string, sub: string)
    requires Contains(s, sub)
    ensures Contains(Lower(s), Lower(sub))
  {
    var i: nat :| OccursAt(s, sub, i);
    LowerSlice(s, i, i + |sub|);
    assert OccursAt(Lower(s), Lower(sub), i);
  }

  /** `s.Contains(sub, StringComparison.CurrentCultureIgnoreCase)`. */
  predicate ContainsIgnoreCase(s: string, sub: string) {
    Contains(Lower(s), Lower(sub))
  }

  /** Folding the needle first, as the repositories do with `query.ToLower()`,
      changes nothing in a case-insensitive search. */
  lemma ContainsIgnoreCaseFoldedNeedle(s: string, sub: string)
    ensures ContainsIgnoreCase(s, Lower(sub)) == ContainsIgnoreCase(s, sub)
  {
    LowerIdempotent(sub);
  }

  /** The decimal digit of `d`. */
  function DigitChar(d: nat): (c: char)
    requires d < 10
    ensures '0' <= c <= '9'
    ensures c as int - '0' as int == d
  {
    ('0' as int + d) as char
  }

  /** `Int32.ToString()` of a non-negative counter: its decimal digits. */
  function NatToString(n: nat): (r: string)
    ensures |r| >= 1
    ensures forall i :: 0 <= i < |r| ==> '0' <= r[i] <= '9'
    ensures n < 10 <==> |r| == 1
    decreases n
  {
    if n < 10 then [DigitChar(n)] else NatToString(n / 10) + [DigitChar(n % 10)]
  }

  /** Distinct numbers have distinct decimal renderings. */
  lemma {:induction false} NatToStringInjective(m: nat, n: nat)
    requires NatToString(m) == NatToString(n)
    ensures m == n
    decreases m
  {
    var sm, sn := NatToString(m), NatToString(n);
    if m < 10 || n < 10 {
      assert |sm| == 1 && |sn| == 1;
      assert m < 10 && n < 10;
      assert sm[0] as int - '0' as int == m;
      assert sn[0] as int - '0' as int == n;
    } else {
      assert sm[|sm| - 1] == DigitChar(m % 10);
      assert sn[|sn| - 1] == DigitChar(n % 10);
      assert m % 10 == n % 10;
      assert NatToString(m / 10) == sm[..|sm| - 1];
      assert NatToString(n / 10) == sn[..|sn| - 1];
      NatToStringInjective(m / 10, n / 10);
    }
  }
}

=== FILE: wrappers.dfy ===
/** Failure-carrying values shared by the whole model: an optional value and
    the outcome of an operation that the source lets throw. */
module Wrappers {

  /** A value that may be absent, standing for a C# nullable reference. */
  datatype Option<+T> = None | Some(value: T) {

    /** The contained value, or `default` when absent. */
    function GetOr(default: T): T {
      match this
      case Some(v) => v
      case None => default
    }
  }

  /** The exceptions the core raises or catches, by kind. */
  datatype Error =
    | ArgumentError      // System.ArgumentException
    | FileNotFound       // System.IO.FileNotFoundException
    | InvalidOperation   // System.InvalidOperationException (and any other caught failure)
    | ArgumentOutOfRange // System.ArgumentOutOfRangeException
    | IOError            // System.IO.IOException or System.UnauthorizedAccessException

  /** A returned value, or the exception that was thrown instead. */
  datatype Result<+T> = Success(value: T) | Failure(error: Error)
}

=== FILE: zip.dfy ===
/** `ZipUtils`: packing the found documents into an archive, and the
    collision-free entry naming the archive code has but does not call. */
module Zip {

  import opened Wrappers
  import opened Strings
  import opened Paths
  import opened Models
  import opened Files
  import opened Sequences

  /** The `k`th renaming of an entry name: `{base}_{k}{ext}`. */
  function EntryCandidate(fileName: string, k: nat): string {
    FileNameWithoutExtension(fileName) + "_" + NatToString(k) + Extension(fileName)
  }

  /** Different counters give different names. */
  lemma CandidatesDistinct(fileName: string, j: nat, k: nat)
    ensures EntryCandidate(fileName, j) == EntryCandidate(fileName, k) ==> j == k
  {
    var base, ext := FileNameWithoutExtension(fileName), Extension(fileName);
    var a, b := EntryCandidate(fileName, j), EntryCandidate(fileName, k);
    if a == b {
      var sj, sk := NatToString(j), NatToString(k);
      assert |sj| == |sk|;
      assert sj == a[|base| + 1..|base| + 1 + |sj|];
      assert sk == b[|base| + 1..|base| + 1 + |sk|];
      NatToStringInjective(j, k);
    }
  }

  /** No renaming gives back the name itself: a renaming has no separator
      and is longer than the stem and extension it is built from. */
  lemma FileNameIsNoCandidate(fileName: string, k: nat)
    ensures fileName != EntryCandidate(fileName, k)
  {
    var name := FileName(fileName);
    var base, ext := NameStem(name), NameExtension(name);
    var c := EntryCandidate(fileName, k);
    assert c == base + "_" + NatToString(k) + ext;
    assert Separator !in base && Separator !in ext;
    assert Separator !in NatToString(k);
    assert Separator !in c;
    assert |base| + |ext| <= |name|;
    if Separator !in fileName {
      assert LastIndexOf(fileName, Separator) == -1;
      assert name == fileName;
    }
  }

  /** A set is no larger than a set containing it. */
  lemma SubsetNoLarger<T>(a: set<T>, b: set<T>)
    requires a <= b
    ensures |a| <= |b|
  {
    assert b == a + (b - a);
  }

  /** A sequence has no more distinct elements than positions. */
  lemma {:induction false} DistinctElementsBound<T>(s: seq<T>)
    ensures |set x | x in s| <= |s|
    decreases |s|
  {
    if s != [] {
      DistinctElementsBound(s[1..]);
      assert (set x | x in s) == {s[0]} + (set x | x in s[1..]);
    }
  }

  /** The first `n` renamings are all taken. */
  ghost predicate Taken(fileName: string, existing: seq<string>, n: nat) {
    forall j :: 1 <= j <= n ==> EntryCandidate(fileName, j) in existing
  }

  /** Every name of `seen` is one of the first `n` renamings. */
  ghost predicate AmongFirst(fileName: string, seen: set<string>, n: nat) {
    forall x :: x in seen ==> exists j :: 1 <= j <= n && x == EntryCandidate(fileName, j)
  }

  /** Finding the `k`th renaming taken as well extends what the loop of
      `GetSafeEntryName` knows by one name: the taken prefix grows by one ... */
  lemma TakenStep(fileName: string, existing: seq<string>, k: nat)
    requires k >= 1 && EntryCandidate(fileName, k) in existing
    requires Taken(fileName, existing, k - 1)
    ensures Taken(fileName, existing, k)
  {
  }

  /** ... and so does the set of distinct taken renamings, since the `k`th
      renaming is none of the earlier ones. */
  lemma SeenStep(fileName: string, existing: seq<string>, seen: set<string>, k: nat)
    requires k >= 1 && EntryCandidate(fileName, k) in existing
    requires AmongFirst(fileName, seen, k - 1)
    requires |seen| == k - 1 && seen <= set x | x in existing
    ensures AmongFirst(fileName, seen + {EntryCandidate(fileName, k)}, k)
    ensures |seen + {EntryCandidate(fileName, k)}| == k
    ensures seen + {EntryCandidate(fileName, k)} <= set x | x in existing
  {
    CandidateNotSeen(fileName, seen, k);
    AmongFirstStep(fileName, seen, k);
    AddFresh(seen, EntryCandidate(fileName, k), set x | x in existing);
  }

  /** Adding a fresh member of `t` to a subset of `t`. */
  lemma AddFresh<T>(s: set<T>, x: T, t: set<T>)
    requires x !in s && s <= t && x in t
    ensures |s + {x}| == |s| + 1 && s + {x} <= t
  {
  }

  /** Adding the `k`th renaming to the first `k - 1` gives the first `k`. */
  lemma AmongFirstStep(fileName: string, seen: set<string>, k: nat)
    requires k >= 1 && AmongFirst(fileName, seen, k - 1)
    ensures AmongFirst(fileName, seen + {EntryCandidate(fileName, k)}, k)
  {
    var c := EntryCandidate(fileName, k);
    forall x | x in seen + {c} ensures exists j :: 1 <= j <= k && x == EntryCandidate(fileName, j) {
      if x == c {
        assert 1 <= k <= k && x == EntryCandidate(fileName, k);
      } else {
        var j :| 1 <= j <= k - 1 && x == EntryCandidate(fileName, j);
        assert 1 <= j <= k;
      }
    }
  }

  /** The `k`th renaming is none of the first `k - 1`. */
  lemma CandidateNotSeen(fileName: string, seen: set<string>, k: nat)
    requires k >= 1 && AmongFirst(fileName, seen, k - 1)
    ensures EntryCandidate(fileName, k) !in seen
  {
    forall x | x in seen ensures x != EntryCandidate(fileName, k) {
      var j :| 1 <= j <= k - 1 && x == EntryCandidate(fileName, j);
      CandidatesDistinct(fileName, j, k);
    }
  }

  /** The renamings found taken, together with the name itself, are
      distinct names of the archive, so the counter never passes the number
      of entries. */
  lemma RenamingsBound(fileName: string, existing: seq<string>, seen: set<string>, k: nat)
    requires fileName in existing && seen <= set x | x in existing
    requires |seen| == k && AmongFirst(fileName, seen, k)
    ensures k + 1 <= |existing|
  {
    forall x | x in seen ensures x != fileName {
      var j :| 1 <= j <= k && x == EntryCandidate(fileName, j);
      FileNameIsNoCandidate(fileName, j);
    }
    SubsetNoLarger(seen + {fileName}, set x | x in existing);
    DistinctElementsBound(existing);
  }

  /** `GetSafeEntryName`, with the names of the archive's entries passed in
      (in the source they are read from `archive.Entries`):
      the name itself when it is free, otherwise the renaming with the least
      counter that is free. At most `|existing| + 1` names are tried. */
  method GetSafeEntryName(fileName: string, existing: seq<string>) returns (name: string)
    ensures name !in existing
    ensures fileName !in existing ==> name == fileName
    ensures fileName in existing ==>
      exists k :: 1 <= k <= |existing| && name == EntryCandidate(fileName, k) &&
                  forall j :: 1 <= j < k ==> EntryCandidate(fileName, j) in existing
  {
    ghost var names := set x | x in existing;
    ghost var seen: set<string> := {};
    var counter: nat := 1;
    name := fileName;
    while name in existing
      invariant counter >= 1
      invariant counter == 1 ==> name == fileName && seen == {}
      invariant counter > 1 ==>
        && name == EntryCandidate(fileName, counter - 1) && fileName in existing
        && Taken(fileName, existing, counter - 2) && AmongFirst(fileName, seen, counter - 2)
        && |seen| == counter - 2
      invariant seen <= names
      decreases |names| - |seen|, if counter == 1 then 1 else 0
    {
      if counter > 1 {
        TakenStep(fileName, existing, counter - 1);
        SeenStep(fileName, existing, seen, counter - 1);
        seen := seen + {name};
      }
      SubsetNoLarger(seen, names);
      name := EntryCandidate(fileName, counter);
      counter := counter + 1;
    }
    if counter > 1 {
      RenamingsBound(fileName, existing, seen, counter - 2);
      assert Taken(fileName, existing, counter - 2);
    }
  }

  /** One archive entry: its name and the file it is read from. */
  datatype ZipEntry = ZipEntry(name: string, source: string)

  /** The names of a list of entries. */
  function EntryNames(entries: seq<ZipEntry>): (r: seq<string>)
    ensures |r| == |entries| && forall i :: 0 <= i < |r| ==> r[i] == entries[i].name
  {
    seq(|entries|, i requires 0 <= i < |entries| => entries[i].name)
  }

  /** The selector "its file exists". */
  function Present(fs: FileSystem): DocumentInfo -> bool {
    (d: DocumentInfo) => FileExists(fs, d.fullPath)
  }

  /** The selector "its file exists but reading it fails". */
  function Unreadable(fs: FileSystem): DocumentInfo -> bool {
    (d: DocumentInfo) => FileExists(fs, d.fullPath) && fs.files[d.fullPath].text.None?
  }

  /** What `CreateZipFileAsync` leaves behind: the entries of the new archive,
      or the exception that ended it, and the file system afterwards. */
  datatype ZipResult = ZipResult(archive: Result<seq<ZipEntry>>, fs: FileSystem)

  /** Write the archive file: whatever was at `zipPath` is replaced. */
  function WriteArchive(fs: FileSystem, zipPath: string, now: Instant): (r: FileSystem)
    ensures FileExists(r, zipPath) && r.files[zipPath].lastWriteTime == now
    ensures forall p :: p != zipPath ==> (FileExists(r, p) <==> FileExists(fs, p))
  {
    fs.(files := fs.files[zipPath := FileEntry(None, now)])
  }

  /** `CreateZipFileAsync` as written, with the clock passed in as `now`:
      delete any file at `zipPath`, then add one entry per document whose
      file exists, in list order, named by its raw `FileName`.
      `CreateEntryFromFile` reads each file, so one that cannot be read
      throws: the old archive is gone and no new one is written. */
  function CreateZipAsWritten(fs: FileSystem, documents: seq<DocumentInfo>, zipPath: string, now: Instant)
    : (r: ZipResult)
    ensures r.archive.Failure? <==>
      exists d :: d in documents && d.fullPath != zipPath && Unreadable(fs)(d)
    ensures r.archive.Failure? ==> r.archive.error == IOError && r.fs == DeleteFile(fs, zipPath)
    ensures r.archive.Success? ==>
      var packed := Filter(documents, Present(DeleteFile(fs, zipPath)));
      |r.archive.value| == |packed| &&
      forall i :: 0 <= i < |packed| ==> r.archive.value[i] == ZipEntry(packed[i].fileName, packed[i].fullPath)
    ensures r.archive.Success? ==> forall i :: 0 <= i < |r.archive.value| ==> r.archive.value[i].source != zipPath
    ensures r.archive.Success? ==> r.fs == WriteArchive(DeleteFile(fs, zipPath), zipPath, now)
  {
    var cleared := DeleteFile(fs, zipPath);
    var packed := Filter(documents, Present(cleared));
    PackedFacts(fs, documents, zipPath);
    if exists d :: d in packed && Unreadable(fs)(d) then
      ZipResult(Failure(IOError), cleared)
    else
      ZipResult(Success(RawEntries(packed)), WriteArchive(cleared, zipPath, now))
  }

  /** One entry per document, named by its raw file name. */
  function RawEntries(packed: seq<DocumentInfo>): (r: seq<ZipEntry>)
    ensures |r| == |packed|
    ensures forall i :: 0 <= i < |packed| ==> r[i] == ZipEntry(packed[i].fileName, packed[i].fullPath)
  {
    seq(|packed|, i requires 0 <= i < |packed| => ZipEntry(packed[i].fileName, packed[i].fullPath))
  }

  /** The documents to pack are never the archive itself, and one of them is
      unreadable exactly when a document not at the archive path is. */
  lemma PackedFacts(fs: FileSystem, documents: seq<DocumentInfo>, zipPath: string)
    ensures var packed := Filter(documents, Present(DeleteFile(fs, zipPath)));
      forall i :: 0 <= i < |packed| ==> packed[i].fullPath != zipPath
    ensures var packed := Filter(documents, Present(DeleteFile(fs, zipPath)));
      (exists d :: d in packed && Unreadable(fs)(d)) <==>
      (exists d :: d in documents && d.fullPath != zipPath && Unreadable(fs)(d))
  {
    var packed := Filter(documents, Present(DeleteFile(fs, zipPath)));
    FilterSpec(documents, Present(DeleteFile(fs, zipPath)));
    assert forall i :: 0 <= i < |packed| ==> packed[i] in packed;
  }

  /** The archive as written is made exactly when every document to pack can
      be read, and it then packs exactly the documents whose files exist,
      except a document stored at the archive's own path, which is deleted
      first. When it is not made, no file is left at `zipPath`. */
  lemma AsWrittenPacksPresentFiles(fs: FileSystem, documents: seq<DocumentInfo>, zipPath: string, now: Instant)
    ensures var r := CreateZipAsWritten(fs, documents, zipPath, now);
      r.archive.Success? <==>
        forall d :: d in documents && FileExists(fs, d.fullPath) && d.fullPath != zipPath ==>
          fs.files[d.fullPath].text.Some?
    ensures var r := CreateZipAsWritten(fs, documents, zipPath, now);
      r.archive.Success? ==> forall d :: d in documents ==>
        (ZipEntry(d.fileName, d.fullPath) in r.archive.value <==> FileExists(fs, d.fullPath) && d.fullPath != zipPath)
    ensures var r := CreateZipAsWritten(fs, documents, zipPath, now);
      FileExists(r.fs, zipPath) <==> r.archive.Success?
  {
    var packed := Filter(documents, Present(DeleteFile(fs, zipPath)));
    FilterSpec(documents, Present(DeleteFile(fs, zipPath)));
    var r := CreateZipAsWritten(fs, documents, zipPath, now);
    if r.archive.Success? {
      var entries := r.archive.value;
      forall d | d in documents
        ensures ZipEntry(d.fileName, d.fullPath) in entries <==> FileExists(fs, d.fullPath) && d.fullPath != zipPath
      {
        if ZipEntry(d.fileName, d.fullPath) in entries {
          var i :| 0 <= i < |entries| && entries[i] == ZipEntry(d.fileName, d.fullPath);
          assert packed[i] in packed;
        }
        if FileExists(fs, d.fullPath) && d.fullPath != zipPath {
          assert d in packed;
          var i :| 0 <= i < |packed| && packed[i] == d;
          assert entries[i] == ZipEntry(d.fileName, d.fullPath);
        }
      }
    }
  }

  /** One existing but unreadable document is enough: the call throws and
      leaves no archive, although the document's file exists. */
  lemma UnreadableFileAborts(d: DocumentInfo, zipPath: string, now: Instant)
    requires d.fullPath == "/a/id.jpg" && zipPath == "/a/documents.zip"
    ensures var fs := FileSystem(map["/a/id.jpg" := FileEntry(None, 0)], {});
      var r := CreateZipAsWritten(fs, [d], zipPath, now);
      r.archive == Failure(IOError) && !FileExists(r.fs, zipPath) && FileExists(r.fs, d.fullPath)
  {
    var fs := FileSystem(map["/a/id.jpg" := FileEntry(None, 0)], {});
    assert d in [d] && Unreadable(fs)(d);
  }

  /** Two existing documents with the same file name in different folders
      give the archive as written two entries with the same name. */
  lemma AsWrittenDuplicatesNames(fs: FileSystem, d1: DocumentInfo, d2: DocumentInfo, zipPath: string, now: Instant)
    requires d1.fileName == d2.fileName && d1.fullPath != d2.fullPath
    requires FileExists(fs, d1.fullPath) && FileExists(fs, d2.fullPath)
    requires fs.files[d1.fullPath].text.Some? && fs.files[d2.fullPath].text.Some?
    requires d1.fullPath != zipPath && d2.fullPath != zipPath
    ensures var r := CreateZipAsWritten(fs, [d1, d2], zipPath, now);
      && r.archive.Success? && |r.archive.value| == 2
      && r.archive.value[0].name == r.archive.value[1].name && r.archive.value[0].source != r.archive.value[1].source
  {
    var p := Present(DeleteFile(fs, zipPath));
    assert [d1, d2] == [d1] + [d2];
    FilterAppend([d1], [d2], p);
    assert Filter([d1, d2], p) == [d1, d2];
  }

  /** No two entries share a name. */
  ghost predicate DistinctNames(entries: seq<ZipEntry>) {
    forall i, j :: 0 <= i < j < |entries| ==> entries[i].name != entries[j].name
  }

  /** The entries follow the documents to pack, in order, each keeping its
      document's file name unless an earlier entry already has it. */
  ghost predicate Follows(entries: seq<ZipEntry>, packed: seq<DocumentInfo>) {
    && |entries| <= |packed|
    && forall i :: 0 <= i < |entries| ==>
         && entries[i].source == packed[i].fullPath
         && (entries[i].name == packed[i].fileName || packed[i].fileName in EntryNames(entries[..i]))
  }

  /** One step of the packing loop keeps both properties. */
  lemma AppendEntry(entries: seq<ZipEntry>, packed: seq<DocumentInfo>, name: string)
    requires Follows(entries, packed) && DistinctNames(entries) && |entries| < |packed|
    requires name !in EntryNames(entries)
    requires name == packed[|entries|].fileName || packed[|entries|].fileName in EntryNames(entries)
    ensures Follows(entries + [ZipEntry(name, packed[|entries|].fullPath)], packed)
    ensures DistinctNames(entries + [ZipEntry(name, packed[|entries|].fullPath)])
  {
    var k := |entries|;
    var next := entries + [ZipEntry(name, packed[k].fullPath)];
    assert next[..k] == entries;
    forall i | 0 <= i < k ensures next[..i] == entries[..i] {
    }
    forall i | 0 <= i < k ensures next[i].name != name {
      assert EntryNames(entries)[i] == entries[i].name;
    }
  }

  /** `CreateZipFileAsync` with the naming its comment intends: the same
      entries in the same order, each renamed by `GetSafeEntryName`'s counter
      scheme just enough to differ from the entries before it. The names
      already used are tracked here; the commented-out call itself could not
      be put back as written, since `archive.Entries` throws
      `NotSupportedException` on an archive opened in `ZipArchiveMode.Create`. */
  method CreateZipSafe(fs: FileSystem, documents: seq<DocumentInfo>, zipPath: string, now: Instant)
    returns (r: ZipResult)
    ensures r.archive.Failure? <==> CreateZipAsWritten(fs, documents, zipPath, now).archive.Failure?
    ensures r.archive.Failure? ==> r.archive.error == IOError
    ensures r.fs == CreateZipAsWritten(fs, documents, zipPath, now).fs
    ensures r.archive.Success? ==>
      var packed := Filter(documents, Present(DeleteFile(fs, zipPath)));
      |r.archive.value| == |packed| &&
      forall i :: 0 <= i < |packed| ==> r.archive.value[i].source == packed[i].fullPath
    ensures r.archive.Success? ==>
      forall i, j :: 0 <= i < j < |r.archive.value| ==> r.archive.value[i].name != r.archive.value[j].name
    ensures r.archive.Success? ==>
      var written := CreateZipAsWritten(fs, documents, zipPath, now).archive.value;
      forall i :: 0 <= i < |r.archive.value| ==>
        r.archive.value[i].name == written[i].name || written[i].name in EntryNames(r.archive.value[..i])
  {
    var cleared := DeleteFile(fs, zipPath);
    var packed := Filter(documents, Present(cleared));
    if exists d :: d in packed && Unreadable(fs)(d) {
      return ZipResult(Failure(IOError), cleared);
    }
    var entries: seq<ZipEntry> := [];
    while |entries| < |packed|
      invariant Follows(entries, packed) && DistinctNames(entries)
      decreases |packed| - |entries|
    {
      var name := GetSafeEntryName(packed[|entries|].fileName, EntryNames(entries));
      AppendEntry(entries, packed, name);
      entries := entries + [ZipEntry(name, packed[|entries|].fullPath)];
    }
    r := ZipResult(Success(entries), WriteArchive(cleared, zipPath, now));
  }
}
